=== FILE: README.md ===
# MCP research chatbot and paper server, modelled in Dafny

The system has two parts. The first is a command-line chatbot that connects to MCP servers. It records which session offers each tool, prompt and resource, and forwards the user's queries to a language model. Between model rounds it runs the tools the model asks for. The second is a research server. It offers:

- the tool `search_papers`, which saves arXiv search results under a topic folder;
- the tool `extract_info`, which finds a saved paper by id;
- the resources `papers://folders` and `papers://{topic}`, which render saved topics as Markdown;
- the prompt `generate_search_prompt`.

The model states each of these as pure functions over immutable data. Everything the code cannot see into becomes an explicit input. That covers the model backend, `call_tool`, `read_resource`, `get_prompt`, the arXiv results and the `papers` directory.

Modules:

- `Options`, `Strings`, `AssocLists`: the Python building blocks the code relies on.
  - `AssocLists` models a Python `dict` as an insertion-ordered association list. Assigning to an existing key keeps that key's position.
  - `Strings` covers `str.strip`, `split()`, `split("=", 1)`, `lower`, `replace`, `join`, and integer formatting and parsing. It also has `SplitLines`, a `split("\n")` that the lemmas use to read rendered pages back line by line; the source itself never splits lines.
- `Registry`: the chatbot's one `sessions` dictionary together with `available_tools` and `available_prompts`. It covers `load_mcp_components`, `connect_to_servers` and the resource lookup of `get_resource`.
- `Conversation`: `process_query`, as a loop over a finite sequence of model responses.
- `Chatbot`: how `chat_loop` reads a line, `/prompt` argument parsing, the printed output of `get_resource` and `list_prompts`, and `execute_prompt`.
- `PaperServer`: the five server operations. The directory is modelled as a sequence of entries in listing order. Each topic folder holds either no info file, a corrupt one, or a saved dictionary from short id to paper information.

Tool, prompt and resource names all share the single `sessions` dictionary, so a later registration overwrites an earlier one of any kind.

## Model

| member | source | states |
|---|---|---|
| AssocLists.Get | src/client/mcp_chatbot.py:141 | `d.get(k)` finds a value exactly when `k` is a key, and the value found is stored with `k` |
| AssocLists.GetAt | src/client/mcp_chatbot.py:141 | In a dictionary whose keys are distinct, looking up a stored key gives the value stored with it |
| AssocLists.Put | src/client/mcp_chatbot.py:46 | `d[k] = v` stores the pair and adds at most one entry |
| AssocLists.PutGet | src/client/mcp_chatbot.py:46 | After `d[k] = v`, looking up `k` gives `v` and every other key gives what it gave before |
| AssocLists.PutKeys | src/client/mcp_chatbot.py:46 | Assigning an existing key keeps the key order; a new key is added at the end |
| AssocLists.PutAllGet | src/server/mcp_server.py:53-62 | After a run of assignments, a key holds the last value assigned to it, or its old value if none was assigned |
| AssocLists.PutAllKeys | src/server/mcp_server.py:53-62 | A run of assignments keeps the old keys in order and appends each newly seen key once, in first-seen order |
| AssocLists.LastValueFound | src/client/mcp_chatbot.py:274-277 | A run of assignments sets a key exactly when the key is among those assigned |
| Strings.Strip | src/client/mcp_chatbot.py:250 | The stripped line neither starts nor ends with whitespace, and it is empty exactly when the line is all whitespace |
| Strings.StripPieces | src/client/mcp_chatbot.py:250 | The line is some whitespace, then the stripped line, then some whitespace |
| Strings.WordsSpec | src/client/mcp_chatbot.py:264 | `split()` yields non-empty words without whitespace whose concatenation is the line's non-whitespace characters |
| Strings.WordsBreak | src/client/mcp_chatbot.py:264 | A run of whitespace always separates words: the words of `a + spaces + b` are those of `a` followed by those of `b` |
| Strings.WordsOneRun | src/client/mcp_chatbot.py:264 | A non-empty run without whitespace is one word, never split further |
| Strings.WordsJoin | src/client/mcp_chatbot.py:264 | Splitting words joined by single spaces gives the words back |
| Strings.SplitOnce | src/client/mcp_chatbot.py:276 | `split("=", 1)` gives the text before the first `=` (which has no `=`) and the rest, and they rebuild the token |
| Strings.SplitOnceUnique | src/client/mcp_chatbot.py:276 | Any way of cutting a token at an `=` that leaves no `=` on the left is the cut `split("=", 1)` makes |
| Strings.ParseNatToString | src/server/mcp_server.py:135 | A decimal count that is written out reads back as the same number |
| Strings.Take | src/server/mcp_server.py:144 | `s[:500]` is a prefix of `s` of length at most 500: all of `s` when it is shorter, and exactly 500 characters otherwise |
| Registry.LoadComponents | src/client/mcp_chatbot.py:43-70 | If `list_tools` raises, the client is unchanged. Otherwise each listed tool is appended once, in order. Prompts are appended only when both listings succeed. Nothing is ever removed or deduplicated |
| Registry.LoadComponentsRoutes | src/client/mcp_chatbot.py:44-69 | After a load, every tool name, prompt name and resource URI the load reached maps to that session, and other keys keep their old session. No key is lost, and each key stays unique |
| Registry.Load | src/client/mcp_chatbot.py:73-101 | A connection that fails adds no descriptors; a successful one adds exactly what its load adds |
| Registry.ConnectAll | src/client/mcp_chatbot.py:103-112 | Connecting to the configured servers in order concatenates their tool and prompt descriptors in server order |
| Registry.ConnectAllRoutes | src/client/mcp_chatbot.py:103-112 | After connecting, a key maps to the last server that registered it under any kind, or to its earlier session if no server did |
| Registry.FirstWithPrefix | src/client/mcp_chatbot.py:172-176 | The fallback finds nothing exactly when no key starts with `papers://`. Otherwise it returns the session of the first such key in insertion order |
| Registry.ResolveResource | src/client/mcp_chatbot.py:171-179 | An exact key wins. On a miss, a `papers://` URI falls back to the first `papers://` key, and any other URI is not found |
| Registry.ResolveResourceSound | src/client/mcp_chatbot.py:171-179 | A resolved session is the one stored under the URI itself, or under a `papers://` key when the URI is a `papers://` URI |
| Conversation.Scan | src/client/mcp_chatbot.py:132-159 | Reading a response only appends to the history, the output and the calls, makes at most one call per item, and raises only after a call; what it appends item by item is stated by `ScanEffect` |
| Conversation.ScanEffect | src/client/mcp_chatbot.py:132-159 | A pass reads every item up to the first tool use that is unregistered or whose call raises, and that item, and nothing after it. Each text read is printed. Each tool use read appends the assistant turn of the items so far, and, when registered, issues its routed call; a returned result appends its `tool_result` turn, an unregistered name prints the not-found notice. The pass raises exactly the error of the call at the stop |
| Conversation.ScanCarriesOut | src/client/mcp_chatbot.py:136-159 | Each tool use before the stop is registered; its routed call is issued at the position after the earlier items' calls, and the history gains, after the earlier items' turns, the assistant turn holding the items up to and including it followed by the `tool_result` turn with the call's content under its id |
| Conversation.ScanGrows | src/client/mcp_chatbot.py:130-159 | Reading one response only appends to messages, output and calls. `has_tool_use` is set exactly when the response holds a tool use, and only a tool use can raise |
| Conversation.ScanCallsRouted | src/client/mcp_chatbot.py:141-147 | Every `call_tool` goes to the session registered for that tool's name, so an unregistered name is never called |
| Conversation.ScanResultsPaired | src/client/mcp_chatbot.py:136-159 | Requests and results are paired both ways. Every tool use before the stop is routed, its call is issued, and the history holds the assistant turn of the items up to it followed by its `tool_result` turn. Every `tool_result` turn directly follows an assistant turn ending with the tool use of the same id, and every recorded turn whose routed call returned is answered by the next turn with that call's content |
| Conversation.ScanToolUsesCarried | src/client/mcp_chatbot.py:136-159 | Every tool use before the stop is routed, called, and recorded as its assistant turn followed by its `tool_result` turn |
| Conversation.ScanAnswersRequests | src/client/mcp_chatbot.py:145-159 | Every assistant turn the pass records whose final tool use is registered and whose call returns was issued, and is answered by the very next turn with that call's content under the tool use's id. That each tool use before the stop is recorded at all is stated by `ScanCarriesOut` |
| Conversation.ScanStopsAtMissingTool | src/client/mcp_chatbot.py:141-144 | Items after an unregistered tool use in the same response are neither printed nor executed |
| Conversation.Rounds | src/client/mcp_chatbot.py:123-161 | The loop only extends the history, the output and the calls. It ends with an answer only after a response with no tool use, and every earlier round held a tool use. A raised call ends it in a round with a tool use, after rounds that all had one. Running out of responses means every remaining response held a tool use |
| Conversation.RoundsPaired | src/client/mcp_chatbot.py:141-159 | Across all rounds, every call goes to the session registered for its name, every `tool_result` turn follows the request it answers, and every recorded request whose call returned is answered by the next turn |
| Conversation.RoundsEffects | src/client/mcp_chatbot.py:123-161 | From round `k` on, the history, the output and the calls are the given ones followed by, round after round, exactly what that round's pass over its response appends |
| Conversation.RoundsRaisedBy | src/client/mcp_chatbot.py:145-147 | No round before the last one raised. A query ends `Raised` exactly when the last round's pass stops at a call that raised, and it reports that call's error |
| Conversation.ScanCallOutcomes | src/client/mcp_chatbot.py:132-147 | Within one response, a pass that raises ends with the call that raised, after calls that all returned; a pass that does not raise issued only calls that returned |
| Conversation.RoundsCallOutcomes | src/client/mcp_chatbot.py:145-147 | A query that ends `Raised` ends with a call that raised exactly the reported error, and every call before it returned. In any other outcome every call returned |
| Conversation.ProcessQuery | src/client/mcp_chatbot.py:114-161 | The history is the user's query followed by the turns of each round's pass, in order; the output and the calls are those of each round's pass, in order. The query is answered exactly when some round's response has no tool use, and every round before that one had one. It raises exactly when the last round's pass stops at a call that raised, reporting that error, after calls that all returned; any other outcome has only calls that returned. Every call goes to the registered session, and requests and results are paired both ways. Running out of responses means all of them were used and each held a tool use |
| Conversation.MissingToolStillContinues | src/client/mcp_chatbot.py:136-161 | A first response whose first tool use is unregistered, after any number of texts, prints those texts and then the not-found message, records the assistant turn of those items, and still leads to another model round |
| Conversation.TwoRoundQuery | src/client/mcp_chatbot.py:114-161 | A query whose first response asks for one registered tool and whose second answers in text gives exactly the expected history, output and single call |
| Chatbot.ParseLine | src/client/mcp_chatbot.py:250-282 | A line treated as a query is sent as its stripped, non-empty text |
| Chatbot.ParseLineClasses | src/client/mcp_chatbot.py:250-282 | A line is ignored iff it is blank, and quits iff it is `quit` in any case. It fetches a resource iff it starts with `@`, is a slash command iff it starts with `/`, and is a query iff none of these hold |
| Chatbot.PromptCommandParses | src/client/mcp_chatbot.py:263-278 | `/prompt name tokens…` parses back to that name and the arguments the tokens bind |
| Chatbot.PromptWithoutName | src/client/mcp_chatbot.py:268-271 | `/prompt` alone, in any case, gives the usage message |
| Chatbot.FetchLineTarget | src/client/mcp_chatbot.py:255-261 | An `@` line fetches the URI its topic names: `papers://folders` for `@papers`, otherwise `papers://` followed by the text after the `@` |
| Chatbot.SlashLineTarget | src/client/mcp_chatbot.py:263-281 | A `/` line acts on its first word, lower-cased. `/prompts` lists the prompts. `/prompt` with no name prints the usage line; with a name it runs that prompt with the parsed arguments. Any other word is an unknown command |
| Chatbot.TopicUriSpec | src/client/mcp_chatbot.py:255-260 | `@papers` names `papers://folders`, and any other `@topic` names `papers://` followed by the topic unchanged |
| Chatbot.LastValueKeyValuePairs | src/client/mcp_chatbot.py:274-277 | The `key=value` pairs bind a key to a value iff some token binds it and no later token names the same key |
| Chatbot.PromptArgsSpec | src/client/mcp_chatbot.py:273-277 | The argument dictionary holds `k: v` iff the last token for `k` is `k=v`. Tokens without `=` are dropped |
| Chatbot.ChatCommands | src/client/mcp_chatbot.py:248-284 | The session acts on at most one command per line, never on blank lines, and never on `quit` |
| Chatbot.ChatCommandsSpec | src/client/mcp_chatbot.py:248-284 | The session acts, in order, on the command of every line before the first `quit` line, skipping only blank lines |
| Chatbot.ChatActsOnEveryLine | src/client/mcp_chatbot.py:248-284 | When no line is blank or `quit`, every line's command is acted on, in order |
| Chatbot.Dispatch | src/client/mcp_chatbot.py:248-284 | Given what each line asks for, the loop acts on at most one command per line, never on a skipped line, and never on `quit`; with neither present it acts on every command |
| Chatbot.BeforeQuit | src/client/mcp_chatbot.py:253-254 | The commands up to the first `quit` are a prefix holding no `quit`, and the command right after them is the `quit` |
| Chatbot.WithoutIgnored | src/client/mcp_chatbot.py:251-252 | Dropping skipped lines keeps exactly the other commands, and with nothing to skip it keeps the list unchanged |
| Chatbot.WithoutIgnoredAppend | src/client/mcp_chatbot.py:251-252 | Skipping works run by run: dropping from two runs in a row is dropping from each and joining the results, so the kept commands keep their order |
| Chatbot.DispatchSpec | src/client/mcp_chatbot.py:248-284 | The loop acts on exactly the non-skipped commands before the first `quit`, in order |
| Chatbot.DispatchStopsAtQuit | src/client/mcp_chatbot.py:253-254 | Commands after a `quit` are never acted on |
| Chatbot.ChatStopsAtQuit | src/client/mcp_chatbot.py:253-254 | Nothing after a `quit` line is acted on |
| Chatbot.GetResource | src/client/mcp_chatbot.py:163-189 | An unresolved URI prints the not-found message. A read with contents prints the three-line block that ends with the first content text. An empty read and a raised read do not print that block |
| Chatbot.ListPromptsOutput | src/client/mcp_chatbot.py:191-205 | With no prompts the listing is the single "No prompts available." line, and only then. Otherwise its `- name: description` lines are exactly one per available prompt, in order, and argument lines are never mistaken for them |
| Chatbot.AllPromptLinesHeadings | src/client/mcp_chatbot.py:199-205 | Per prompt, only the heading line starts with `- `; argument lines are indented |
| Chatbot.PromptText | src/client/mcp_chatbot.py:222-232 | A string is used as it is, and content with a `.text` uses that text. A list of items gives each item's text, in order, joined with single spaces. For single-word items, splitting that text gives back the item texts |
| Chatbot.ExecutePrompt | src/client/mcp_chatbot.py:207-236 | An unknown prompt name prints the not-found message and runs nothing. For a known name a query runs exactly when the reply has messages. It is `process_query` on the first message's text, printed after the "Executing prompt" line. A raised `get_prompt` prints only the error line |
| PaperServer.TopicDir | src/server/mcp_server.py:39 | Each character of the folder name is the topic's character lower-cased, with a space turned into `_`. So the name has no spaces and no upper-case letters |
| PaperServer.TopicDirIdempotent | src/server/mcp_server.py:126 | Normalising an already normalised name changes nothing, so the server reads the folder it wrote |
| PaperServer.InfoAt | src/server/mcp_server.py:127-128 | A topic's info file, when there is one, belongs to a topic folder of that name in the listing, and it is the file of the first such folder |
| PaperServer.InfoAtFolder | src/server/mcp_server.py:127-128 | With distinct entry names, a topic folder's name finds exactly that folder's file |
| PaperServer.WriteInfo | src/server/mcp_server.py:40-64 | Creating the folder and writing the file adds at most one entry, keeps every other folder in place, and leaves a folder of the topic's name holding the saved dictionary |
| PaperServer.WriteInfoAt | src/server/mcp_server.py:63-64 | Writing one folder's info file changes what that folder holds and nothing else |
| PaperServer.WriteInfoNames | src/server/mcp_server.py:40-64 | `makedirs(exist_ok=True)` plus the write leaves the listing unchanged if the folder existed, and otherwise adds it at the end |
| PaperServer.WriteInfoUnique | src/server/mcp_server.py:40 | Entry names stay unique |
| PaperServer.SearchPapers | src/server/mcp_server.py:23-66 | The search fails iff a plain file sits where the topic folder goes. Otherwise the directory exists afterwards and the ids returned are the results' short ids, in result order |
| PaperServer.SearchPapersStores | src/server/mcp_server.py:42-64 | The topic's saved dictionary gives each id its last search result, or its earlier entry if the search did not return it. A missing or corrupt file counts as empty |
| PaperServer.SearchPapersKeys | src/server/mcp_server.py:42-62 | The saved ids are the earlier ids, in their order, followed by the new ids not seen before, and each id is saved once |
| PaperServer.SearchPapersSavesIds | src/server/mcp_server.py:52-62 | Every id returned is saved in the topic's folder |
| PaperServer.SearchPapersElsewhere | src/server/mcp_server.py:39-64 | Folders of other topics are untouched |
| PaperServer.SearchPapersUnique | src/server/mcp_server.py:39-64 | Searching keeps entry names unique |
| PaperServer.FirstSaved | src/server/mcp_server.py:79-91 | The lookup finds nothing iff no folder's readable file has the id. Otherwise it finds the first such folder in listing order, skipping missing and corrupt files |
| PaperServer.ExtractInfo | src/server/mcp_server.py:69-92 | A missing papers directory raises. An id saved nowhere gives the fixed "no saved information" message, and a found id gives the entry of the first folder that saves it |
| PaperServer.SearchThenExtract | src/server/mcp_server.py:79-88 | Every id a search returns can be looked up right after |
| PaperServer.ListedTopics | src/server/mcp_server.py:101-108 | Every listed name is the name of a folder that holds an info file |
| PaperServer.ListedTopicsAppend | src/server/mcp_server.py:101-108 | The listing goes entry by entry: the listing of two runs of entries is the first run's listing followed by the second's |
| PaperServer.ListedTopicsHas | src/server/mcp_server.py:101-108 | Every topic folder that holds an info file, readable or not, is listed |
| PaperServer.ListedTopicsWithout | src/server/mcp_server.py:101-108 | A character no entry name contains appears in no listed name |
| PaperServer.AvailableFolders | src/server/mcp_server.py:95-116 | Reading the bullets back from the folders page gives exactly the listed topics, in listing order |
| PaperServer.ListingBullets | src/server/mcp_server.py:109-116 | The lines of the folders page that start with `- ` are exactly one bullet per listed folder, in order. Heading, footer and the no-topics line are never bullets |
| PaperServer.RenderTopicsRoundTrip | src/server/mcp_server.py:109-116 | Reading the bullets back from the folders page gives exactly the listed folders, in order. With no folders it gives none |
| PaperServer.SearchThenListed | src/server/mcp_server.py:95-116 | After a search, the topic's folder appears on the folders page |
| PaperServer.PaperSectionParts | src/server/mcp_server.py:137-145 | A paper's block opens with its title line, holds its id line right after that, and carries its summary block cut to 500 characters |
| PaperServer.PaperSectionsAppend | src/server/mcp_server.py:136-145 | The blocks of two runs of entries are the blocks of the first run followed by those of the second |
| PaperServer.PaperSectionsSplit | src/server/mcp_server.py:136-145 | Each saved entry's block sits after the blocks of the entries before it and before those of the entries after it |
| PaperServer.TopicPapersSections | src/server/mcp_server.py:134-146 | A saved topic's page ends with the blocks of all its entries |
| PaperServer.TopicPapersCount | src/server/mcp_server.py:134-135 | The third line of a saved topic's page reads back as the number of saved papers |
| PaperServer.ReadTotalBack | src/server/mcp_server.py:135 | A `Total papers:` line reads back as the count written into it |
| PaperServer.TopicPapers | src/server/mcp_server.py:119-148 | The page opens as not found exactly when no info file is saved, and as corrupt data exactly when the file does not parse |
| PaperServer.SearchThenTopicPapers | src/server/mcp_server.py:126-135 | Reading a topic right after searching it reports the number of old and new ids together. This holds for any spelling that normalises to the same folder |
| PaperServer.GenerateSearchPrompt | src/server/mcp_server.py:151-178 | The prompt opens by asking for the given number of papers about the topic, and it contains the exact `search_papers(topic=…, max_results=…)` call |
| PaperServer.SearchPromptCount | src/server/mcp_server.py:160 | The number of papers reads back from the opening sentence |
| PaperServer.SearchPromptDefault | src/server/mcp_server.py:152 | Without a count, the prompt asks for 5 papers |

## Left out

- The Anthropic client, the MCP SDK (`ClientSession`, the stdio and streamable-HTTP transports, `initialize`) and `AsyncExitStack` clean-up are foreign asynchronous I/O. Model responses, tool results, resource reads and prompt replies are inputs, and a connection is given as its outcome.
- Registry.Load: connection set-up (`connect_to_server` lines 82-98) is reduced to "connected with these listings" or "raised". The transport choice between `run_locally` and an HTTP endpoint is not modelled.
- Output is modelled as the list of printed strings, and `input()` as a finite list of lines. End of input and `KeyboardInterrupt` are not modelled.
- The single `assistant_content` list is appended to `messages` once per tool use. Python shares that list, so later additions show up in earlier turns. The model records each assistant turn as a snapshot of the items read so far.
- Exceptions from `call_tool` end the query as a `Raised` outcome with the error text. The wording of the `Error:` line that `chat_loop` prints for them is not modelled.
- JSON encoding and decoding are abstracted. A saved file is either unreadable or a dictionary of paper records, and `json.dumps(..., indent=2)` in `extract_info` is represented by the record itself. A file that parses but holds something other than such a dictionary is not modelled.
- PaperServer.SearchPapers: it requires the normalised topic to be a plain path component: non-empty, not `.` or `..`, and without `/`. Other topics reach other paths through `os.path.join`, and that is not modelled.
- PaperServer.WriteInfoNames: a newly created folder is assumed to appear last in the directory listing. `os.listdir` order is file-system dependent.
- The arXiv client, `max_results`, relevance sorting, and the conversion of a result to its short id and record are not modelled. The search results are an input.
- `lower()`, `title()` and the letters `title()` recognises are modelled for ASCII only. Whitespace for `strip()` and `split()` is Python's full `str.isspace` set.
- Logging calls, the `ServerLogging` set-up, `log_management`, environment variables, `PAPER_DIR`/`PAPER_INFO_FILE` path strings, FastMCP registration and the `__main__` entry points are configuration and glue.
- `list_prompts` reads argument names either from an attribute or from a dict key. The model takes arguments as records with a name.
- PaperServer.RenderTopicsRoundTrip: it holds only for folder names without a line feed. A name that contains one would show up as two lines of the folders page.
- PaperServer.TopicPapersCount: it is stated for topics without a line feed, for the same reason.
- PaperServer.TopicPapers: a topic is looked up as one folder entry of `papers`. In the source, a topic that normalises to an empty name, `.`, `..` or a name holding `/` makes `os.path.join` reach `papers/papers_info.json`, a file outside `papers`, or a nested path. The model does not follow such paths; it reads the listing entry of that name, normally none, and reports not found.
- Conversation.Rounds: its own contract states the outcome of the loop. Routing and pairing across rounds are stated by `Conversation.RoundsPaired`, and what each round appends by `Conversation.RoundsEffects` and `Conversation.RoundsRaisedBy`; `Conversation.ProcessQuery` combines them. Keeping them out of `Rounds` keeps every proof that mentions the loop small.

=== FILE: assoc_lists.dfy ===
/**
 Insertion-ordered dictionaries, the way Python's `dict` behaves: a
 sequence of (key, value) pairs in the order the keys were first inserted.
 Assigning to a key that is already present replaces its value where it
 stands; a new key goes to the end.
 */
module AssocLists {
  import opened Options

  type AssocList<K, V> = seq<(K, V)>

  function Keys<K, V>(xs: AssocList<K, V>): (ks: seq<K>)
    ensures |ks| == |xs|
    ensures forall i :: 0 <= i < |xs| ==> ks[i] == xs[i].0
  {
    seq(|xs|, i requires 0 <= i < |xs| => xs[i].0)
  }

  predicate Distinct<T(==)>(s: seq<T>) {
    forall i, j :: 0 <= i < j < |s| ==> s[i] != s[j]
  }

  /** A dictionary never holds the same key twice. */
  predicate Valid<K(==, !new), V>(xs: AssocList<K, V>) {
    Distinct(Keys(xs))
  }

  /** `d.get(k)`: the value stored with the first occurrence of `k`, which
      in a dictionary is its only occurrence. */
  function Get<K(==, !new), V>(xs: AssocList<K, V>, k: K): (r: Option<V>)
    ensures r.Some? <==> k in Keys(xs)
    ensures r.Some? ==> (k, r.value) in xs
  {
    if xs == [] then None
    else if xs[0].0 == k then Some(xs[0].1)
    else
      KeysCons(xs);
      var r := Get(xs[1..], k);
      assert r.Some? ==> (k, r.value) in xs by {
        if r.Some? {
          var i :| 0 <= i < |xs[1..]| && xs[1..][i] == (k, r.value);
          assert xs[i + 1] == (k, r.value);
        }
      }
      r
  }

  /** In a valid list the lookup of a stored key gives the value stored with it. */
  lemma {:induction false} GetAt<K(!new), V>(xs: AssocList<K, V>, i: nat)
    requires Valid(xs) && i < |xs|
    ensures Get(xs, xs[i].0) == Some(xs[i].1)
    decreases i
  {
    if i > 0 {
      KeysCons(xs);
      assert Keys(xs)[0] != Keys(xs)[i];
      assert Valid(xs[1..]) by {
        forall p, q | 0 <= p < q < |xs[1..]|
          ensures Keys(xs[1..])[p] != Keys(xs[1..])[q]
        {
          assert Keys(xs)[p + 1] != Keys(xs)[q + 1];
        }
      }
      GetAt(xs[1..], i - 1);
    }
  }

  /** `d[k] = v`: the pair is stored, and the list grows by at most the new key. */
  function Put<K(==, !new), V>(xs: AssocList<K, V>, k: K, v: V): (r: AssocList<K, V>)
    ensures (k, v) in r
    ensures |xs| <= |r| <= |xs| + 1
  {
    if xs == [] then [(k, v)]
    else if xs[0].0 == k then [(k, v)] + xs[1..]
    else
      var r := [xs[0]] + Put(xs[1..], k, v);
      assert r[1..] == Put(xs[1..], k, v);
      r
  }

  /** After `d[k] = v` a lookup of `k` gives `v` and every other key gives
      what it gave before. */
  lemma {:induction false} PutGet<K(!new), V>(xs: AssocList<K, V>, k: K, v: V, k': K)
    ensures Get(Put(xs, k, v), k') == if k' == k then Some(v) else Get(xs, k')
    decreases |xs|
  {
    if xs != [] && xs[0].0 != k {
      PutGet(xs[1..], k, v, k');
      assert Put(xs, k, v)[1..] == Put(xs[1..], k, v);
    }
  }

  lemma KeysCons<K, V>(xs: AssocList<K, V>)
    requires xs != []
    ensures Keys(xs) == [xs[0].0] + Keys(xs[1..])
  {
  }

  /** `d[k] = v` keeps an existing key at its position and appends a new key. */
  lemma {:induction false} PutKeys<K(!new), V>(xs: AssocList<K, V>, k: K, v: V)
    ensures k in Keys(xs) ==> Keys(Put(xs, k, v)) == Keys(xs)
    ensures k !in Keys(xs) ==> Keys(Put(xs, k, v)) == Keys(xs) + [k]
  {
    var r := Put(xs, k, v);
    if xs == [] {
      assert Keys(r) == [k];
    } else if xs[0].0 != k {
      var t := Put(xs[1..], k, v);
      PutKeys(xs[1..], k, v);
      assert r[0] == xs[0] && r[1..] == t;
      KeysConsBoth(xs, r);
      assert k in Keys(xs) <==> k in Keys(xs[1..]);
      if k !in Keys(xs) {
        assert Keys(r) == [xs[0].0] + (Keys(xs[1..]) + [k]);
      }
    } else {
      assert r[0].0 == xs[0].0 && r[1..] == xs[1..];
      KeysConsBoth(xs, r);
    }
  }

  /** Two non-empty lists, their keys split at the first pair. */
  lemma KeysConsBoth<K, V>(xs: AssocList<K, V>, ys: AssocList<K, V>)
    requires xs != [] && ys != []
    ensures Keys(xs) == [xs[0].0] + Keys(xs[1..]) && Keys(ys) == [ys[0].0] + Keys(ys[1..])
  {
    KeysCons(xs);
    KeysCons(ys);
  }

  /** `d[k] = v` never makes a key appear twice. */
  lemma PutValid<K(!new), V>(xs: AssocList<K, V>, k: K, v: V)
    requires Valid(xs)
    ensures Valid(Put(xs, k, v))
  {
    PutKeys(xs, k, v);
    if k !in Keys(xs) {
      var ks := Keys(xs) + [k];
      forall i, j | 0 <= i < j < |ks|
        ensures ks[i] != ks[j]
      {
        if j == |ks| - 1 {
          assert ks[i] in Keys(xs);
        }
      }
    }
  }

  /** A run of assignments `d[k] = v`, one per pair, in order. */
  function PutAll<K(==, !new), V>(xs: AssocList<K, V>, kvs: seq<(K, V)>): AssocList<K, V>
    decreases |kvs|
  {
    if kvs == [] then xs
    else
      var last := kvs[|kvs| - 1];
      Put(PutAll(xs, kvs[..|kvs| - 1]), last.0, last.1)
  }

  /** The value the last pair for `k` carries, if any pair is for `k`. */
  function LastValue<K(==, !new), V>(kvs: seq<(K, V)>, k: K): Option<V>
    decreases |kvs|
  {
    if kvs == [] then None
    else if kvs[|kvs| - 1].0 == k then Some(kvs[|kvs| - 1].1)
    else LastValue(kvs[..|kvs| - 1], k)
  }

  lemma LastValueSnoc<K(!new), V>(kvs: seq<(K, V)>, p: (K, V), k: K)
    ensures LastValue(kvs + [p], k) == if p.0 == k then Some(p.1) else LastValue(kvs, k)
  {
    assert (kvs + [p])[..|kvs|] == kvs;
  }

  /** `ks` extended by the keys of `news` not seen before, in first-seen order. */
  function AppendNew<K(==, !new)>(ks: seq<K>, news: seq<K>): seq<K>
    decreases |news|
  {
    if news == [] then ks
    else
      var prior := AppendNew(ks, news[..|news| - 1]);
      var k := news[|news| - 1];
      if k in prior then prior else prior + [k]
  }

  /** Last write wins: after a run of assignments a key holds the value of
      its last assignment, and a key never assigned keeps its old value. */
  lemma {:induction false} PutAllGet<K(!new), V>(xs: AssocList<K, V>, kvs: seq<(K, V)>, k: K)
    ensures Get(PutAll(xs, kvs), k) ==
            (if LastValue(kvs, k).Some? then LastValue(kvs, k) else Get(xs, k))
    decreases |kvs|
  {
    if kvs != [] {
      var last := kvs[|kvs| - 1];
      PutAllGet(xs, kvs[..|kvs| - 1], k);
      PutGet(PutAll(xs, kvs[..|kvs| - 1]), last.0, last.1, k);
    }
  }

  /** A run of assignments keeps the old keys where they were and appends the
      new keys in the order of their first assignment; keys stay distinct. */
  lemma {:induction false} PutAllKeys<K(!new), V>(xs: AssocList<K, V>, kvs: seq<(K, V)>)
    ensures Keys(PutAll(xs, kvs)) == AppendNew(Keys(xs), Keys(kvs))
    ensures Valid(xs) ==> Valid(PutAll(xs, kvs))
    decreases |kvs|
  {
    if kvs != [] {
      var init := kvs[..|kvs| - 1];
      PutAllKeys(xs, init);
      PutKeys(PutAll(xs, init), kvs[|kvs| - 1].0, kvs[|kvs| - 1].1);
      if Valid(xs) {
        PutValid(PutAll(xs, init), kvs[|kvs| - 1].0, kvs[|kvs| - 1].1);
      }
      assert Keys(kvs)[..|kvs| - 1] == Keys(init);
    }
  }

  /** A key has a last assignment exactly when some pair assigns it. */
  lemma {:induction false} LastValueFound<K(!new), V>(kvs: seq<(K, V)>, k: K)
    ensures LastValue(kvs, k).Some? <==> k in Keys(kvs)
    decreases |kvs|
  {
    if kvs != [] {
      var init := kvs[..|kvs| - 1];
      LastValueFound(init, k);
      assert Keys(kvs) == Keys(init) + [kvs[|kvs| - 1].0];
    }
  }

  /** The old keys are a prefix of the keys after any run of assignments. */
  lemma {:induction false} AppendNewPrefix<K(!new)>(ks: seq<K>, news: seq<K>)
    ensures |ks| <= |AppendNew(ks, news)| && AppendNew(ks, news)[..|ks|] == ks
    decreases |news|
  {
    if news != [] {
      AppendNewPrefix(ks, news[..|news| - 1]);
    }
  }
}

=== FILE: chatbot.dfy ===
/**
 The chatbot's command surface: how `chat_loop` reads an input line, the
 `/prompt` argument parsing, `list_prompts`, `get_resource` and
 `execute_prompt`. Remote reads (`read_resource`, `get_prompt`) are given as
 functions from the session and request to their outcome.
 */
module Chatbot {
  import opened Options
  import opened Strings
  import opened AssocLists
  import opened Registry
  import opened Conversation

  /** What one input line asks for. */
  datatype Command =
    | Ignore
    | Quit
    | FetchResource(uri: string)
    | ListPrompts
    | PromptUsage
    | RunPrompt(name: string, args: AssocList<string, string>)
    | UnknownCommand(command: string)
    | Ask(query: string)

  /** The resource URI an `@topic` line names; `@papers` is the topic list. */
  function TopicUri(topic: string): string {
    if topic == "papers" then "papers://folders" else PapersScheme + topic
  }

  /** The `key=value` tokens of a `/prompt` line, split at their first `=`;
      tokens without `=` are dropped. */
  function KeyValuePairs(tokens: seq<string>): seq<(string, string)>
    decreases |tokens|
  {
    if tokens == [] then []
    else
      var last := tokens[|tokens| - 1];
      KeyValuePairs(tokens[..|tokens| - 1]) + (if '=' in last then [SplitOnce(last, '=')] else [])
  }

  /** The `args` dictionary built from the tokens after the prompt name. */
  function PromptArgs(tokens: seq<string>): AssocList<string, string> {
    PutAll([], KeyValuePairs(tokens))
  }

  /** One iteration of `chat_loop` on the line read: strip it, then test for
      an empty line, `quit` in any case, an `@` resource fetch, a `/` command,
      and otherwise treat it as a query. */
  function ParseLine(line: string): (cmd: Command)
    ensures cmd.Ask? ==> cmd.query == Strip(line) && cmd.query != []
  {
    var query := Strip(line);
    if query == [] then Ignore
    else if Lower(query) == "quit" then Quit
    else if StartsWith(query, "@") then FetchResource(TopicUri(query[1..]))
    else if StartsWith(query, "/") then SlashCommand(query)
    else Ask(query)
  }

  /** The command a stripped `/` line names: its first word, lower-cased,
      selects it, and `/prompt` takes a name and argument tokens after it. */
  function SlashCommand(query: string): Command
    requires query != [] && !IsSpace(query[0])
  {
    WordsFirst(query);
    var parts := Words(query);
    var command := Lower(parts[0]);
    if command == "/prompts" then ListPrompts
    else if command == "/prompt" then
      if |parts| < 2 then PromptUsage else RunPrompt(parts[1], PromptArgs(parts[2..]))
    else UnknownCommand(command)
  }

  predicate IsSlashCommand(cmd: Command) {
    cmd.ListPrompts? || cmd.PromptUsage? || cmd.RunPrompt? || cmd.UnknownCommand?
  }

  lemma LowerQuit(q: string)
    requires Lower(q) == "quit"
    ensures q != [] && (q[0] == 'q' || q[0] == 'Q')
  {
    assert Lower(q)[0] == LowerChar(q[0]) == 'q';
  }

  /** How a line is classified: blank lines are skipped, `quit` is matched
      after stripping and lower-casing, a line starting with `@` is always a
      resource fetch and a line starting with `/` always a command, whatever
      follows; everything else is a query. */
  lemma ParseLineClasses(line: string)
    ensures ParseLine(line) == Ignore <==> AllSpace(line)
    ensures ParseLine(line) == Quit <==> Lower(Strip(line)) == "quit"
    ensures ParseLine(line).FetchResource? <==> StartsWith(Strip(line), "@")
    ensures IsSlashCommand(ParseLine(line)) <==> StartsWith(Strip(line), "/")
    ensures ParseLine(line).Ask? <==>
              && !AllSpace(line) && Lower(Strip(line)) != "quit"
              && !StartsWith(Strip(line), "@") && !StartsWith(Strip(line), "/")
  {
    var q := Strip(line);
    if q == [] {
      assert ParseLine(line) == Ignore;
    } else if Lower(q) == "quit" {
      QuitLine(line);
    } else if StartsWith(q, "@") {
      assert ParseLine(line) == FetchResource(TopicUri(q[1..]));
    } else if StartsWith(q, "/") {
      SlashLine(line);
    } else {
      assert ParseLine(line) == Ask(q);
    }
  }

  /** A line reading `quit` in any case quits, and is neither a fetch nor a command. */
  lemma QuitLine(line: string)
    requires Lower(Strip(line)) == "quit"
    ensures !AllSpace(line) && !StartsWith(Strip(line), "@") && !StartsWith(Strip(line), "/")
    ensures ParseLine(line) == Quit
  {
    LowerQuit(Strip(line));
  }

  /** A stripped line starting with `/` is a slash command of some kind. */
  lemma SlashLine(line: string)
    requires StartsWith(Strip(line), "/")
    ensures !AllSpace(line) && Lower(Strip(line)) != "quit" && !StartsWith(Strip(line), "@")
    ensures IsSlashCommand(ParseLine(line))
  {
    var q := Strip(line);
    assert q[..1] == "/";
    NotQuit(q);
    assert !StartsWith(q, "@");
  }

  /** A `/prompt` line written as the command, a name and argument tokens
      separated by single spaces parses back to that name and the
      arguments the tokens bind. */
  lemma PromptCommandParses(name: string, args: seq<string>)
    requires WellFormedWords([name] + args)
    ensures ParseLine(Join(["/prompt", name] + args, " ")) == RunPrompt(name, PromptArgs(args))
  {
    var ws := ["/prompt", name] + args;
    var line := Join(ws, " ");
    assert WellFormedWords(ws) by {
      forall i | 0 <= i < |ws|
        ensures ws[i] != [] && NoSpace(ws[i])
      {
        if i > 0 {
          assert ws[i] == ([name] + args)[i - 1];
        }
      }
    }
    JoinEnds(ws, " ");
    var last := ws[|ws| - 1];
    assert !IsSpace(last[|last| - 1]);
    StripUnchanged(line);
    assert Lower(line)[0] == '/';
    assert line[..1] == "/";
    WordsJoin(ws);
    assert Lower(ws[0]) == "/prompt";
    assert ws[2..] == args;
  }

  /** `/prompt` alone, in any case, gives the usage message. */
  lemma PromptWithoutName(w: string)
    requires w != [] && NoSpace(w) && Lower(w) == "/prompt"
    ensures ParseLine(w) == PromptUsage
  {
    assert Lower(w)[0] == LowerChar(w[0]) == '/';
    assert w[0] == '/';
    assert w[..1] == "/";
    assert WellFormedWords([w]);
    WordsJoin([w]);
    StripUnchanged(w);
  }

  /** An `@topic` line fetches the resource its topic names: the topic list
      for `@papers`, and `papers://topic` for any other topic. */
  lemma FetchLineTarget(line: string)
    requires StartsWith(Strip(line), "@")
    ensures ParseLine(line) == FetchResource(TopicUri(Strip(line)[1..]))
    ensures Strip(line) == "@papers" ==> ParseLine(line) == FetchResource("papers://folders")
    ensures Strip(line) != "@papers" ==> ParseLine(line) == FetchResource(PapersScheme + Strip(line)[1..])
  {
    FetchLineParse(line);
    AtTopic(Strip(line));
  }

  /** Proof step only: an `@` line is classified as a fetch. */
  lemma FetchLineParse(line: string)
    requires StartsWith(Strip(line), "@")
    ensures ParseLine(line) == FetchResource(TopicUri(Strip(line)[1..]))
  {
    var q := Strip(line);
    assert q[..1] == "@";
    NotQuit(q);
  }

  /** Proof step only: `@papers` is the only `@` line whose topic is `papers`. */
  lemma AtTopic(q: string)
    requires StartsWith(q, "@")
    ensures q == "@papers" <==> q[1..] == "papers"
  {
    assert q == [q[0]] + q[1..];
  }

  /** Proof step only: a line opening with anything but `q` or `Q` is not `quit`. */
  lemma NotQuit(q: string)
    requires q != [] && q[0] != 'q' && q[0] != 'Q'
    ensures Lower(q) != "quit"
  {
    if Lower(q) == "quit" {
      LowerQuit(q);
    }
  }

  /** A slash line acts on its first word, lower-cased: `/prompts` lists the
      prompts, `/prompt` needs a name and then runs it, anything else is an
      unknown command. */
  lemma SlashLineTarget(line: string)
    requires StartsWith(Strip(line), "/")
    ensures var ws := Words(Strip(line));
      && ws != []
      && (Lower(ws[0]) == "/prompts" ==> ParseLine(line) == ListPrompts)
      && (Lower(ws[0]) == "/prompt" && |ws| < 2 ==> ParseLine(line) == PromptUsage)
      && (Lower(ws[0]) == "/prompt" && |ws| >= 2 ==> ParseLine(line) == RunPrompt(ws[1], PromptArgs(ws[2..])))
      && (Lower(ws[0]) != "/prompts" && Lower(ws[0]) != "/prompt" ==> ParseLine(line) == UnknownCommand(Lower(ws[0])))
  {
    SlashLine(line);
    WordsFirst(Strip(line));
  }

  /** `@papers` names the topic list; any other `@t` names `papers://t`,
      from which `t` is read back unchanged. */
  lemma TopicUriSpec(topic: string)
    ensures StartsWith(TopicUri(topic), PapersScheme)
    ensures topic == "papers" ==> TopicUri(topic) == "papers://folders"
    ensures topic != "papers" ==> TopicUri(topic)[|PapersScheme|..] == topic
  {
    if topic != "papers" {
      assert TopicUri(topic) == PapersScheme + topic;
    }
  }

  /** The pair a token contributes to the argument dictionary. */
  predicate TokenBinds(token: string, k: string, v: string) {
    '=' in token && SplitOnce(token, '=') == (k, v)
  }

  predicate TokenKey(token: string, k: string) {
    '=' in token && SplitOnce(token, '=').0 == k
  }

  /** Token `i` binds `k` to `v` and no later token is for `k`. */
  predicate FinalBinding(tokens: seq<string>, k: string, v: string, i: int) {
    && 0 <= i < |tokens|
    && TokenBinds(tokens[i], k, v)
    && forall j :: i < j < |tokens| ==> !TokenKey(tokens[j], k)
  }

  lemma {:induction false} LastValueKeyValuePairs(tokens: seq<string>, k: string, v: string)
    ensures LastValue(KeyValuePairs(tokens), k) == Some(v) <==> exists i :: FinalBinding(tokens, k, v, i)
    decreases |tokens|
  {
    if tokens != [] {
      var n := |tokens| - 1;
      var init, last := tokens[..n], tokens[n];
      var kvs := KeyValuePairs(tokens);
      if TokenKey(last, k) {
        assert kvs == KeyValuePairs(init) + [SplitOnce(last, '=')];
        LastValueSnoc(KeyValuePairs(init), SplitOnce(last, '='), k);
        FinalBindingLast(tokens, k, v);
      } else {
        LastValueKeyValuePairs(init, k, v);
        if '=' in last {
          assert kvs == KeyValuePairs(init) + [SplitOnce(last, '=')];
          LastValueSnoc(KeyValuePairs(init), SplitOnce(last, '='), k);
        } else {
          assert kvs == KeyValuePairs(init) + [];
          assert KeyValuePairs(init) + [] == KeyValuePairs(init);
        }
        FinalBindingInit(tokens, init, k, v);
      }
    }
  }

  /** When the last token is for `k`, it alone decides `k`'s binding. */
  lemma FinalBindingLast(tokens: seq<string>, k: string, v: string)
    requires tokens != [] && TokenKey(tokens[|tokens| - 1], k)
    ensures (exists i :: FinalBinding(tokens, k, v, i)) <==> TokenBinds(tokens[|tokens| - 1], k, v)
  {
    var n := |tokens| - 1;
    if TokenBinds(tokens[n], k, v) {
      assert FinalBinding(tokens, k, v, n);
    } else {
      forall i | 0 <= i < |tokens|
        ensures !FinalBinding(tokens, k, v, i)
      {
        if i < n {
          assert TokenKey(tokens[n], k);
        }
      }
    }
  }

  /** When the last token is not for `k`, the tokens before it decide `k`'s binding. */
  lemma FinalBindingInit(tokens: seq<string>, init: seq<string>, k: string, v: string)
    requires tokens != [] && init == tokens[..|tokens| - 1] && !TokenKey(tokens[|tokens| - 1], k)
    ensures (exists i :: FinalBinding(tokens, k, v, i)) <==> exists i :: FinalBinding(init, k, v, i)
  {
    var n := |tokens| - 1;
    forall i | FinalBinding(tokens, k, v, i)
      ensures FinalBinding(init, k, v, i)
    {
      assert i != n;
    }
    forall i | FinalBinding(init, k, v, i)
      ensures FinalBinding(tokens, k, v, i)
    {
    }
  }

  /** A `/prompt` argument `k` has value `v` exactly when some `k=v` token
      (split at its first `=`) is followed by no other token for `k`: the
      last duplicate wins and tokens without `=` contribute nothing. */
  lemma PromptArgsSpec(tokens: seq<string>, k: string, v: string)
    ensures Get(PromptArgs(tokens), k) == Some(v) <==> exists i :: FinalBinding(tokens, k, v, i)
  {
    PutAllGet([], KeyValuePairs(tokens), k);
    LastValueKeyValuePairs(tokens, k, v);
  }

  /** The commands `chat_loop` acts on, given what each line read asks for:
      blank lines are skipped and the first `quit` ends the loop. */
  function Dispatch(cmds: seq<Command>): (acted: seq<Command>)
    ensures |acted| <= |cmds|
    ensures forall i :: 0 <= i < |acted| ==> acted[i] != Ignore && acted[i] != Quit
    ensures Quit !in cmds && Ignore !in cmds ==> acted == cmds
    decreases |cmds|
  {
    if cmds == [] then []
    else if cmds[0] == Quit then []
    else if cmds[0] == Ignore then Dispatch(cmds[1..])
    else [cmds[0]] + Dispatch(cmds[1..])
  }

  /** The commands before the first `Quit`. */
  function BeforeQuit(cmds: seq<Command>): (pre: seq<Command>)
    ensures pre <= cmds && Quit !in pre
    ensures |pre| < |cmds| ==> cmds[|pre|] == Quit
    decreases |cmds|
  {
    if cmds == [] || cmds[0] == Quit then [] else [cmds[0]] + BeforeQuit(cmds[1..])
  }

  /** The commands other than `Ignore`, in order. */
  function WithoutIgnored(cmds: seq<Command>): (r: seq<Command>)
    ensures Ignore !in r
    ensures forall c :: c in r <==> c in cmds && c != Ignore
    ensures Ignore !in cmds ==> r == cmds
    decreases |cmds|
  {
    if cmds == [] then []
    else
      var rest := WithoutIgnored(cmds[1..]);
      assert forall c :: c in cmds <==> c == cmds[0] || c in cmds[1..];
      assert cmds == [cmds[0]] + cmds[1..];
      (if cmds[0] == Ignore then [] else [cmds[0]]) + rest
  }

  /** Dropping skipped commands works run by run, so the kept commands stay
      in their order. */
  lemma {:induction false} WithoutIgnoredAppend(a: seq<Command>, b: seq<Command>)
    ensures WithoutIgnored(a + b) == WithoutIgnored(a) + WithoutIgnored(b)
    decreases |a|
  {
    if a != [] {
      var c, rest := a[0], a[1..];
      var h: seq<Command> := if c == Ignore then [] else [c];
      assert a == [c] + rest;
      assert a + b == [c] + (rest + b);
      WithoutIgnoredCons(c, rest);
      WithoutIgnoredCons(c, rest + b);
      WithoutIgnoredAppend(rest, b);
      Regroup(h, WithoutIgnored(rest), WithoutIgnored(b));
    } else {
      assert a + b == b;
    }
  }

  /** Proof step only: one unfolding of `WithoutIgnored`. */
  lemma WithoutIgnoredCons(c: Command, rest: seq<Command>)
    ensures WithoutIgnored([c] + rest) == (if c == Ignore then [] else [c]) + WithoutIgnored(rest)
  {
    assert ([c] + rest)[1..] == rest;
  }

  /** The loop acts, in order, on every command before the first `Quit`
      except the skipped ones. */
  lemma {:induction false} DispatchSpec(cmds: seq<Command>)
    ensures Dispatch(cmds) == WithoutIgnored(BeforeQuit(cmds))
    decreases |cmds|
  {
    if cmds != [] && cmds[0] != Quit {
      DispatchSpec(cmds[1..]);
      assert BeforeQuit(cmds) == [cmds[0]] + BeforeQuit(cmds[1..]);
      WithoutIgnoredCons(cmds[0], BeforeQuit(cmds[1..]));
    }
  }

  /** `f` applied to each element, in order. */
  function Map<A, B>(f: A -> B, xs: seq<A>): (ys: seq<B>)
    ensures |ys| == |xs|
    ensures forall i :: 0 <= i < |xs| ==> ys[i] == f(xs[i])
    decreases |xs|
  {
    if xs == [] then [] else [f(xs[0])] + Map(f, xs[1..])
  }

  lemma {:induction false} MapAppend<A, B>(f: A -> B, xs: seq<A>, ys: seq<A>)
    ensures Map(f, xs + ys) == Map(f, xs) + Map(f, ys)
    decreases |xs|
  {
    if xs == [] {
      assert xs + ys == ys;
    } else {
      assert (xs + ys)[1..] == xs[1..] + ys;
      MapAppend(f, xs[1..], ys);
    }
  }

  /** `chat_loop` over the lines read: the commands it acts on, in order. */
  function ChatCommands(lines: seq<string>): (cmds: seq<Command>)
    ensures |cmds| <= |lines|
    ensures forall i :: 0 <= i < |cmds| ==> cmds[i] != Ignore && cmds[i] != Quit
  {
    Dispatch(Map(ParseLine, lines))
  }

  /** `chat_loop` acts, in order, on the command of every line before the
      first `quit` line, skipping blank lines. */
  lemma ChatCommandsSpec(lines: seq<string>)
    ensures ChatCommands(lines) == WithoutIgnored(BeforeQuit(Map(ParseLine, lines)))
  {
    DispatchSpec(Map(ParseLine, lines));
  }

  /** When no line is blank or `quit`, every line is acted on, in order. */
  lemma ChatActsOnEveryLine(lines: seq<string>)
    requires forall i :: 0 <= i < |lines| ==> ParseLine(lines[i]) != Quit && ParseLine(lines[i]) != Ignore
    ensures ChatCommands(lines) == Map(ParseLine, lines)
  {
    MapAvoidsStops(ParseLine, lines);
  }

  /** Mapping a parser that never yields `Quit` or `Ignore` yields neither. */
  lemma MapAvoidsStops<A>(f: A -> Command, xs: seq<A>)
    requires forall i :: 0 <= i < |xs| ==> f(xs[i]) != Quit && f(xs[i]) != Ignore
    ensures Quit !in Map(f, xs) && Ignore !in Map(f, xs)
  {
    var cmds := Map(f, xs);
    forall i | 0 <= i < |cmds|
      ensures cmds[i] != Quit && cmds[i] != Ignore
    {
      assert cmds[i] == f(xs[i]);
    }
  }

  /** Nothing after a `quit` command is acted on. */
  lemma {:induction false} DispatchStopsAtQuit(before: seq<Command>, after: seq<Command>)
    ensures Dispatch(before + [Quit] + after) == Dispatch(before + [Quit])
    decreases |before|
  {
    var cmds := before + [Quit] + after;
    if before != [] {
      assert cmds[0] == before[0] && (before + [Quit])[0] == before[0];
      assert cmds[1..] == before[1..] + [Quit] + after;
      assert (before + [Quit])[1..] == before[1..] + [Quit];
      DispatchStopsAtQuit(before[1..], after);
    }
  }

  /** Nothing after the first `quit` line is read. */
  lemma ChatStopsAtQuit(before: seq<string>, quit: string, after: seq<string>)
    requires ParseLine(quit) == Quit
    ensures ChatCommands(before + [quit] + after) == ChatCommands(before + [quit])
  {
    MapAppend(ParseLine, before + [quit], after);
    MapAppend(ParseLine, before, [quit]);
    assert Map(ParseLine, [quit]) == [Quit];
    DispatchStopsAtQuit(Map(ParseLine, before), Map(ParseLine, after));
  }

  /** What `read_resource` did: the texts of the contents returned, or an exception. */
  datatype ReadOutcome = ResourceContents(texts: seq<string>) | ReadRaised(error: string)

  /** `get_resource`: the lines printed for a resource request. The URI as
      requested is read from whichever session it resolves to. */
  function GetResource(sessions: AssocList<string, SessionRef>, uri: string,
                       read: (SessionRef, string) -> ReadOutcome): (out: seq<string>)
    ensures ResolveResource(sessions, uri).None? ==> out == ["Resource '" + uri + "' not found."]
    ensures ResolveResource(sessions, uri).Some? ==>
              var reply := read(ResolveResource(sessions, uri).value, uri);
              (reply.ResourceContents? && reply.texts != []) <==> |out| == 3
    ensures |out| == 3 ==> out[2] == read(ResolveResource(sessions, uri).value, uri).texts[0]
  {
    match ResolveResource(sessions, uri)
    case None => ["Resource '" + uri + "' not found."]
    case Some(s) =>
      match read(s, uri)
      case ReadRaised(e) => ["Error getting resource=" + uri + ": " + e]
      case ResourceContents(ts) =>
        if ts == [] then ["No content available."] else ["\nResource: " + uri, "Content:", ts[0]]
  }

  /** The lines `list_prompts` prints for one prompt. */
  function PromptLines(p: Prompt): seq<string> {
    ["- " + p.name + ": " + p.description] +
    if p.arguments == [] then []
    else ["  Arguments:"] + seq(|p.arguments|, i requires 0 <= i < |p.arguments| => "    - " + p.arguments[i].name)
  }

  function AllPromptLines(ps: seq<Prompt>): seq<string>
    decreases |ps|
  {
    if ps == [] then [] else PromptLines(ps[0]) + AllPromptLines(ps[1..])
  }

  function PromptHeadings(ps: seq<Prompt>): seq<string> {
    seq(|ps|, i requires 0 <= i < |ps| => "- " + ps[i].name + ": " + ps[i].description)
  }

  /** `list_prompts`: the lines printed. Its `- name: description` lines are
      exactly one per available prompt, in order (duplicates included);
      argument lines are indented and never mistaken for them. */
  function ListPromptsOutput(ps: seq<Prompt>): (out: seq<string>)
    ensures ps == [] <==> out == ["No prompts available."]
    ensures ps != [] ==> LinesWithPrefix(out, "- ") == PromptHeadings(ps)
  {
    if ps == [] then ["No prompts available."]
    else
      var out := ["\nAvailable prompts:"] + AllPromptLines(ps);
      AllPromptLinesHeadings(ps);
      LinesWithPrefixAppend(["\nAvailable prompts:"], AllPromptLines(ps), "- ");
      assert !StartsWith("\nAvailable prompts:", "- ") by {
        assert "\nAvailable prompts:"[0] == '\n';
      }
      assert LinesWithPrefix(["\nAvailable prompts:"], "- ") == [] + LinesWithPrefix([], "- ");
      assert out[0] != "No prompts available.";
      out
  }

  lemma {:induction false} HeadingsIndented(ls: seq<string>)
    requires forall i :: 0 <= i < |ls| ==> ls[i] != [] && ls[i][0] == ' '
    ensures LinesWithPrefix(ls, "- ") == []
    decreases |ls|
  {
    if ls != [] {
      HeadingsIndented(ls[1..]);
    }
  }

  lemma {:induction false} AllPromptLinesHeadings(ps: seq<Prompt>)
    ensures LinesWithPrefix(AllPromptLines(ps), "- ") == PromptHeadings(ps)
    decreases |ps|
  {
    if ps != [] {
      AllPromptLinesHeadings(ps[1..]);
      LinesWithPrefixAppend(PromptLines(ps[0]), AllPromptLines(ps[1..]), "- ");
      PromptLinesHeading(ps[0]);
      assert PromptHeadings(ps) == PromptHeadings(ps[..1]) + PromptHeadings(ps[1..]);
    }
  }

  /** One prompt's lines hold exactly one `- ` line: its heading. */
  lemma PromptLinesHeading(p: Prompt)
    ensures LinesWithPrefix(PromptLines(p), "- ") == PromptHeadings([p])
  {
    var h := "- " + p.name + ": " + p.description;
    var rest := PromptLines(p)[1..];
    assert PromptLines(p) == [h] + rest;
    LinesWithPrefixAppend([h], rest, "- ");
    assert StartsWith(h, "- ");
    HeadingsIndented(rest);
    assert PromptHeadings([p]) == [h];
  }

  /** One item of a list-valued prompt message. */
  datatype PromptItem = TextItem(text: string) | OtherItem(repr: string)

  /** The content of a prompt message: a string, an object with `text`, or a list of items. */
  datatype PromptContent =
    | StringContent(value: string)
    | TextContent(text: string)
    | ItemsContent(items: seq<PromptItem>)

  function ItemText(item: PromptItem): string {
    match item
    case TextItem(t) => t
    case OtherItem(r) => r
  }

  /** The query text `execute_prompt` takes from the first message. For list
      content whose item texts are single words, splitting the query text at
      whitespace gives back the item texts in order. */
  function PromptText(content: PromptContent): (text: string)
    ensures content.StringContent? ==> text == content.value
    ensures content.TextContent? ==> text == content.text
    ensures content.ItemsContent? ==> text == Join(Map(ItemText, content.items), " ")
    ensures content.ItemsContent? &&
            (forall i :: 0 <= i < |content.items| ==> ItemText(content.items[i]) != [] && NoSpace(ItemText(content.items[i]))) ==>
            Words(text) == seq(|content.items|, i requires 0 <= i < |content.items| => ItemText(content.items[i]))
  {
    match content
    case StringContent(s) => s
    case TextContent(t) => t
    case ItemsContent(items) =>
      var texts := seq(|items|, i requires 0 <= i < |items| => ItemText(items[i]));
      assert texts == Map(ItemText, items);
      if WellFormedWords(texts) then
        WordsJoin(texts);
        Join(texts, " ")
      else Join(texts, " ")
  }

  /** What `get_prompt` did: the messages' contents, or an exception. */
  datatype PromptReply = PromptMessages(contents: seq<PromptContent>) | PromptRaised(error: string)

  /** The effect of `execute_prompt`: the lines printed and, when the prompt
      rendered, the query it ran. */
  datatype PromptRun = PromptRun(printed: seq<string>, query: Option<QueryOutcome>)

  /** `execute_prompt`: route the name through `sessions`, render it remotely
      and run the first message's text as a fresh query; an exception from
      rendering or from the query is printed as a prompt error. */
  function ExecutePrompt(sessions: AssocList<string, SessionRef>, name: string, args: AssocList<string, string>,
                         getPrompt: (SessionRef, string, AssocList<string, string>) -> PromptReply,
                         responses: seq<seq<Content>>, call: ToolCall -> CallOutcome): (run: PromptRun)
    ensures Get(sessions, name).None? ==> run == PromptRun(["Prompt '" + name + "' not found."], None)
    ensures run.query.Some? ==> |run.query.value.messages| >= 1
    ensures run.query.Some? ==>
              exists s, ms :: Get(sessions, name) == Some(s) && getPrompt(s, name, args) == PromptMessages(ms) &&
                              ms != [] && run.query.value.messages[0] == UserQuery(PromptText(ms[0]))
    ensures Get(sessions, name).Some? ==>
              var reply := getPrompt(Get(sessions, name).value, name, args);
              && ((reply.PromptMessages? && reply.contents != []) <==> run.query.Some?)
              && (run.query.Some? ==>
                    && run.query.value == ProcessQuery(PromptText(reply.contents[0]), responses, sessions, call)
                    && 1 + |run.query.value.printed| <= |run.printed|
                    && run.printed[0] == "\nExecuting prompt '" + name + "'..."
                    && run.printed[1..1 + |run.query.value.printed|] == run.query.value.printed)
              && (reply.PromptRaised? ==> run.printed == ["Error executing prompt=" + name + ": " + reply.error])
  {
    match Get(sessions, name)
    case None => PromptRun(["Prompt '" + name + "' not found."], None)
    case Some(s) =>
      match getPrompt(s, name, args)
      case PromptRaised(e) => PromptRun(["Error executing prompt=" + name + ": " + e], None)
      case PromptMessages(ms) =>
        if ms == [] then PromptRun([], None)
        else
          var o := ProcessQuery(PromptText(ms[0]), responses, sessions, call);
          var failure := if o.status.Raised? then ["Error executing prompt=" + name + ": " + o.status.error] else [];
          PromptRun(["\nExecuting prompt '" + name + "'..."] + o.printed + failure, Some(o))
  }
}

=== FILE: conversation.dfy ===
/**
 `process_query`: the conversation loop between the model and the tools.
 The model backend is given as the sequence of responses it returns, one
 per round, and `call_tool` as a function from the call to its outcome;
 both are inputs the loop cannot see into.
 */
module Conversation {
  import opened Options
  import opened AssocLists
  import opened Registry
  import opened Strings

  /** JSON text the chatbot forwards without inspecting it. */
  type Json = string

  /** One item of a model response. */
  datatype Content = Text(text: string) | ToolUse(name: string, input: Json, id: string)

  /** One entry of `messages`: the user's query, an assistant turn holding
      the response items read so far, or a user turn with one `tool_result`. */
  datatype Message =
    | UserQuery(text: string)
    | AssistantTurn(content: seq<Content>)
    | ToolResultTurn(toolUseId: string, result: Json)

  datatype ToolCall = ToolCall(session: SessionRef, name: string, input: Json)

  /** What `call_tool` did: the result's content, or an exception. */
  datatype CallOutcome = CallResult(content: Json) | CallRaised(error: string)

  /** The state the response loop works on: `messages`, what was printed,
      the `call_tool` calls issued, `assistant_content`, `has_tool_use`, and
      the exception a call raised, if one did. */
  datatype RoundState = RoundState(
    messages: seq<Message>,
    printed: seq<string>,
    calls: seq<ToolCall>,
    assistant: seq<Content>,
    hasToolUse: bool,
    raised: Option<string>)

  function NotFoundMessage(name: string): string {
    "Tool '" + name + "' not found."
  }

  predicate HasToolUse(items: seq<Content>) {
    exists i :: 0 <= i < |items| && items[i].ToolUse?
  }

  /** `for content in response.content`: texts are printed, each tool use is
      recorded as an assistant turn, routed through `sessions`, and its result
      appended as a `tool_result` turn. A name with no session ends the loop
      (`break`); an exception from `call_tool` ends the whole query. */
  function Scan(items: seq<Content>, sessions: AssocList<string, SessionRef>,
                call: ToolCall -> CallOutcome, st: RoundState): (r: RoundState)
    ensures st.messages <= r.messages && st.printed <= r.printed && st.calls <= r.calls
    ensures |r.calls| <= |st.calls| + |items|
    ensures r.raised != st.raised ==> |st.calls| < |r.calls|
    decreases |items|
  {
    if items == [] then st
    else match items[0]
      case Text(t) =>
        Scan(items[1..], sessions, call, st.(printed := st.printed + [t], assistant := st.assistant + [items[0]]))
      case ToolUse(name, input, id) =>
        var assistant := st.assistant + [items[0]];
        var st1 := st.(hasToolUse := true, assistant := assistant,
                       messages := st.messages + [AssistantTurn(assistant)]);
        match Get(sessions, name)
        case None => st1.(printed := st1.printed + [NotFoundMessage(name)])
        case Some(s) =>
          var st2 := st1.(calls := st1.calls + [ToolCall(s, name, input)]);
          match call(ToolCall(s, name, input))
          case CallRaised(e) => st2.(raised := Some(e))
          case CallResult(c) =>
            Scan(items[1..], sessions, call, st2.(messages := st2.messages + [ToolResultTurn(id, c)]))
  }

  /** Each `tool_result` turn added after position `from` directly follows an
      assistant turn whose last item is the tool use with the same id. */
  predicate ResultsAnswerRequests(messages: seq<Message>, from: nat) {
    forall p :: from <= p < |messages| && messages[p].ToolResultTurn? ==>
      && from < p
      && messages[p - 1].AssistantTurn?
      && messages[p - 1].content != []
      && messages[p - 1].content[|messages[p - 1].content| - 1].ToolUse?
      && messages[p - 1].content[|messages[p - 1].content| - 1].id == messages[p].toolUseId
  }

  /** The tool use an assistant turn ends with, if it ends with one. */
  function LastToolUse(m: Message): (u: Option<Content>)
    ensures u.Some? ==> u.value.ToolUse?
  {
    if m.AssistantTurn? && m.content != [] && m.content[|m.content| - 1].ToolUse?
    then Some(m.content[|m.content| - 1]) else None
  }

  /** The `call_tool` call an assistant turn asks for: its final tool use,
      routed through `sessions`; none when the name has no session. */
  function RequestedCall(m: Message, sessions: AssocList<string, SessionRef>): Option<ToolCall> {
    match LastToolUse(m)
    case None => None
    case Some(u) =>
      match Get(sessions, u.name)
      case None => None
      case Some(s) => Some(ToolCall(s, u.name, u.input))
  }

  /** Each assistant turn added after position `from` whose request was
      routed and returned a result has been answered: the call was issued,
      and the very next turn is the `tool_result` with that result under the
      request's id. */
  predicate RequestsAnswered(messages: seq<Message>, from: nat, calls: seq<ToolCall>,
                             sessions: AssocList<string, SessionRef>, call: ToolCall -> CallOutcome) {
    forall p :: from <= p < |messages| && RequestedCall(messages[p], sessions).Some? &&
                call(RequestedCall(messages[p], sessions).value).CallResult? ==>
      && p + 1 < |messages|
      && messages[p + 1] == ToolResultTurn(LastToolUse(messages[p]).value.id,
                                           call(RequestedCall(messages[p], sessions).value).content)
      && RequestedCall(messages[p], sessions).value in calls
  }

  /** One step of `Scan` on a response's first item, as the lemmas below use it. */
  function ScanStep(item: Content, sessions: AssocList<string, SessionRef>,
                    call: ToolCall -> CallOutcome, st: RoundState): (r: (RoundState, bool))
  {
    match item
    case Text(t) => (st.(printed := st.printed + [t], assistant := st.assistant + [item]), true)
    case ToolUse(name, input, id) =>
      var assistant := st.assistant + [item];
      var st1 := st.(hasToolUse := true, assistant := assistant,
                     messages := st.messages + [AssistantTurn(assistant)]);
      match Get(sessions, name)
      case None => (st1.(printed := st1.printed + [NotFoundMessage(name)]), false)
      case Some(s) =>
        var st2 := st1.(calls := st1.calls + [ToolCall(s, name, input)]);
        match call(ToolCall(s, name, input))
        case CallRaised(e) => (st2.(raised := Some(e)), false)
        case CallResult(c) => (st2.(messages := st2.messages + [ToolResultTurn(id, c)]), true)
  }

  /** `Scan` is `ScanStep` on the first item, continued while the step says so. */
  lemma ScanUnfold(items: seq<Content>, sessions: AssocList<string, SessionRef>,
                   call: ToolCall -> CallOutcome, st: RoundState)
    requires items != []
    ensures var (st', more) := ScanStep(items[0], sessions, call, st);
            Scan(items, sessions, call, st) == if more then Scan(items[1..], sessions, call, st') else st'
  {
  }

  lemma HasToolUseCons(items: seq<Content>)
    requires items != []
    ensures HasToolUse(items) <==> items[0].ToolUse? || HasToolUse(items[1..])
  {
    if HasToolUse(items[1..]) {
      var i :| 0 <= i < |items[1..]| && items[1..][i].ToolUse?;
      assert items[i + 1].ToolUse?;
    }
    if HasToolUse(items) && !items[0].ToolUse? {
      var i :| 0 <= i < |items| && items[i].ToolUse?;
      assert items[1..][i - 1].ToolUse?;
    }
  }

  /** A pass over a response only appends to the history, the output and the
      calls, and sets `has_tool_use` exactly when the response holds a tool
      use; an exception can come only from a tool use. */
  lemma {:induction false} ScanGrows(items: seq<Content>, sessions: AssocList<string, SessionRef>,
                                     call: ToolCall -> CallOutcome, st: RoundState)
    requires st.raised.None?
    ensures var r := Scan(items, sessions, call, st);
      && st.messages <= r.messages && st.printed <= r.printed && st.calls <= r.calls
      && (r.hasToolUse <==> st.hasToolUse || HasToolUse(items))
      && (r.raised.Some? ==> HasToolUse(items))
    decreases |items|
  {
    if items != [] {
      HasToolUseCons(items);
      ScanUnfold(items, sessions, call, st);
      var (st', more) := ScanStep(items[0], sessions, call, st);
      if more {
        ScanGrows(items[1..], sessions, call, st');
      }
    }
  }

  /** Every `call_tool` goes to the session the registry gives for the name. */
  lemma {:induction false} ScanCallsRouted(items: seq<Content>, sessions: AssocList<string, SessionRef>,
                                           call: ToolCall -> CallOutcome, st: RoundState)
    requires st.raised.None?
    ensures var r := Scan(items, sessions, call, st);
      && |st.calls| <= |r.calls|
      && forall i :: |st.calls| <= i < |r.calls| ==> Get(sessions, r.calls[i].name) == Some(r.calls[i].session)
    decreases |items|
  {
    if items != [] {
      ScanUnfold(items, sessions, call, st);
      var (st', more) := ScanStep(items[0], sessions, call, st);
      assert |st.calls| <= |st'.calls|;
      assert forall i :: |st.calls| <= i < |st'.calls| ==> Get(sessions, st'.calls[i].name) == Some(st'.calls[i].session);
      if more {
        ScanCallsRouted(items[1..], sessions, call, st');
        var r := Scan(items[1..], sessions, call, st');
        assert r.calls[..|st'.calls|] == st'.calls by {
          ScanGrows(items[1..], sessions, call, st');
        }
      }
    }
  }

  /** Every call issued from position `from` on returned a result. */
  predicate AllReturned(calls: seq<ToolCall>, from: nat, call: ToolCall -> CallOutcome) {
    forall j :: from <= j < |calls| ==> call(calls[j]).CallResult?
  }

  /** The calls from position `from` on all returned, except the last one,
      which raised `error`. */
  predicate RaisedLast(calls: seq<ToolCall>, from: nat, call: ToolCall -> CallOutcome, error: string) {
    from < |calls| && call(calls[|calls| - 1]) == CallRaised(error) && AllReturned(calls[..|calls| - 1], from, call)
  }

  /** A pass raises exactly when one of its calls raises: then that call is
      the last one issued and it raised that error; otherwise every call it
      issued returned. */
  lemma {:induction false} ScanCallOutcomes(items: seq<Content>, sessions: AssocList<string, SessionRef>,
                                            call: ToolCall -> CallOutcome, st: RoundState)
    requires st.raised.None?
    ensures var r := Scan(items, sessions, call, st);
      && (r.raised.None? ==> AllReturned(r.calls, |st.calls|, call))
      && (r.raised.Some? ==> RaisedLast(r.calls, |st.calls|, call, r.raised.value))
    decreases |items|
  {
    if items != [] {
      ScanUnfold(items, sessions, call, st);
      var (st', more) := ScanStep(items[0], sessions, call, st);
      StepCallOutcome(items[0], sessions, call, st);
      if more {
        ScanCallOutcomes(items[1..], sessions, call, st');
        var r := Scan(items[1..], sessions, call, st');
        ReturnedAppend(st.calls, st'.calls, r.calls, call);
      }
    }
  }

  /** Proof step only: `ScanCallOutcomes` for one item. */
  lemma StepCallOutcome(item: Content, sessions: AssocList<string, SessionRef>,
                        call: ToolCall -> CallOutcome, st: RoundState)
    requires st.raised.None?
    ensures var (st', more) := ScanStep(item, sessions, call, st);
      && st.calls <= st'.calls
      && (more ==> st'.raised.None?)
      && (st'.raised.None? ==> AllReturned(st'.calls, |st.calls|, call))
      && (st'.raised.Some? ==> RaisedLast(st'.calls, |st.calls|, call, st'.raised.value))
  {
    var (st', more) := ScanStep(item, sessions, call, st);
    if st'.raised.Some? {
      assert st'.calls[..|st'.calls| - 1] == st.calls;
    }
  }

  /** Calls that returned, followed by calls that returned or end in one
      that raised, give the same for the whole run. */
  lemma ReturnedAppend(c0: seq<ToolCall>, c1: seq<ToolCall>, c2: seq<ToolCall>, call: ToolCall -> CallOutcome)
    requires c0 <= c1 <= c2 && AllReturned(c1, |c0|, call)
    ensures AllReturned(c2, |c1|, call) ==> AllReturned(c2, |c0|, call)
    ensures forall e :: RaisedLast(c2, |c1|, call, e) ==> RaisedLast(c2, |c0|, call, e)
  {
    forall j | |c0| <= j < |c1|
      ensures c2[j] == c1[j]
    {
    }
  }

  /** Requests and results are paired both ways. Each tool use before the
      stop issues its call and appends an assistant turn holding the items
      read so far, then the `tool_result` turn with the call's result under
      its id. Each recorded turn whose call returned is answered by the turn
      after it, and every `tool_result` turn answers the request right
      before it. */
  lemma ScanResultsPaired(items: seq<Content>, sessions: AssocList<string, SessionRef>,
                          call: ToolCall -> CallOutcome, st: RoundState)
    ensures var r := Scan(items, sessions, call, st);
      && ToolUsesCarried(items, sessions, call, st, r)
      && ResultsAnswerRequests(r.messages, |st.messages|)
      && RequestsAnswered(r.messages, |st.messages|, r.calls, sessions, call)
  {
    ScanToolUsesCarried(items, sessions, call, st);
    ScanResultsFollowRequests(items, sessions, call, st);
    ScanAnswersRequests(items, sessions, call, st);
  }

  /** Every tool use a pass from `st` reads before its stop was routed,
      called, and recorded with its result in `r`. */
  predicate ToolUsesCarried(items: seq<Content>, sessions: AssocList<string, SessionRef>,
                            call: ToolCall -> CallOutcome, st: RoundState, r: RoundState) {
    forall i :: 0 <= i < StopIndex(items, sessions, call) && items[i].ToolUse? ==>
      CarriedAt(items, sessions, call, st, r, i)
  }

  /** The tool use at `i` was routed, its call is among the calls of `r`
      and returned, and the history of `r` holds, after that of `st`, the assistant turn
      of the items up to it followed by its `tool_result` turn. */
  predicate CarriedAt(items: seq<Content>, sessions: AssocList<string, SessionRef>,
                      call: ToolCall -> CallOutcome, st: RoundState, r: RoundState, i: nat)
    requires i < |items|
  {
    && Routed(items[i], sessions).Some?
    && Routed(items[i], sessions).value in r.calls
    && call(Routed(items[i], sessions).value).CallResult?
    && exists p :: |st.messages| <= p && p + 1 < |r.messages| &&
                   r.messages[p] == AssistantTurn(st.assistant + items[..i + 1]) &&
                   r.messages[p + 1] == ToolResultTurn(items[i].id, call(Routed(items[i], sessions).value).content)
  }

  lemma ScanToolUsesCarried(items: seq<Content>, sessions: AssocList<string, SessionRef>,
                            call: ToolCall -> CallOutcome, st: RoundState)
    ensures ToolUsesCarried(items, sessions, call, st, Scan(items, sessions, call, st))
  {
    forall i | 0 <= i < StopIndex(items, sessions, call) && items[i].ToolUse?
      ensures CarriedAt(items, sessions, call, st, Scan(items, sessions, call, st), i)
    {
      ScanCarriedAt(items, sessions, call, st, i);
    }
  }

  /** Proof step only: `ScanCarriesOut` read as `CarriedAt`. */
  lemma ScanCarriedAt(items: seq<Content>, sessions: AssocList<string, SessionRef>,
                      call: ToolCall -> CallOutcome, st: RoundState, i: nat)
    requires i < StopIndex(items, sessions, call) && items[i].ToolUse?
    ensures CarriedAt(items, sessions, call, st, Scan(items, sessions, call, st), i)
  {
    var r := Scan(items, sessions, call, st);
    ScanCarriesOut(items, sessions, call, st, i);
    var p := |st.messages| + |TurnsOf(st.assistant, items[..i], sessions, call)|;
    var q := |st.calls| + |CallsOf(items[..i], sessions)|;
    assert r.calls[q] in r.calls;
    assert |st.messages| <= p && p + 1 < |r.messages|;
  }

  /** Every `tool_result` turn a pass appends follows the request it answers. */
  lemma {:induction false} ScanResultsFollowRequests(items: seq<Content>, sessions: AssocList<string, SessionRef>,
                                                     call: ToolCall -> CallOutcome, st: RoundState)
    ensures var r := Scan(items, sessions, call, st);
      ResultsAnswerRequests(r.messages, |st.messages|)
    decreases |items|
  {
    var r := Scan(items, sessions, call, st);
    if items != [] {
      ScanUnfold(items, sessions, call, st);
      var (st', more) := ScanStep(items[0], sessions, call, st);
      if more {
        ScanResultsFollowRequests(items[1..], sessions, call, st');
        if items[0].ToolUse? {
          var n := |st.messages|;
          StepAnswers(items[0], sessions, call, st);
          assert r.messages[n] == st'.messages[n];
          assert r.messages[n + 1] == st'.messages[n + 1];
          FollowsExtend(r.messages, n);
        } else {
          assert st'.messages == st.messages;
        }
      }
    }
  }

  /** An assistant turn ending in a tool use, answered by the turn after it,
      extends a history whose later results all follow their requests. */
  lemma FollowsExtend(messages: seq<Message>, n: nat)
    requires n + 2 <= |messages|
    requires ResultsAnswerRequests(messages, n + 2)
    requires LastToolUse(messages[n]).Some?
    requires messages[n + 1].ToolResultTurn? && messages[n + 1].toolUseId == LastToolUse(messages[n]).value.id
    ensures ResultsAnswerRequests(messages, n)
  {
  }

  /** Every request a pass resolves and whose call returns is answered by
      the turn right after it. */
  lemma {:induction false} ScanAnswersRequests(items: seq<Content>, sessions: AssocList<string, SessionRef>,
                                               call: ToolCall -> CallOutcome, st: RoundState)
    ensures var r := Scan(items, sessions, call, st);
      RequestsAnswered(r.messages, |st.messages|, r.calls, sessions, call)
    decreases |items|
  {
    var r := Scan(items, sessions, call, st);
    if items != [] {
      ScanUnfold(items, sessions, call, st);
      var (st', more) := ScanStep(items[0], sessions, call, st);
      var n := |st.messages|;
      if items[0].Text? {
        assert more && st'.messages == st.messages && st'.calls == st.calls;
        ScanAnswersRequests(items[1..], sessions, call, st');
      } else if more {
        StepAnswers(items[0], sessions, call, st);
        ScanAnswersRequests(items[1..], sessions, call, st');
        assert r.messages[n] == st'.messages[n];
        assert r.messages[n + 1] == st'.messages[n + 1];
        AnsweredExtend(r.messages, n, r.calls, sessions, call);
      } else {
        StepAnswers(items[0], sessions, call, st);
        assert r == st';
        AnsweredLast(r.messages, n, r.calls, sessions, call);
      }
    }
  }

  /** The turn at `n` is answered, and so is every later one: then all turns from `n` are. */
  lemma AnsweredExtend(messages: seq<Message>, n: nat, calls: seq<ToolCall>,
                       sessions: AssocList<string, SessionRef>, call: ToolCall -> CallOutcome)
    requires n + 2 <= |messages|
    requires RequestsAnswered(messages, n + 2, calls, sessions, call)
    requires RequestedCall(messages[n], sessions).Some? &&
             call(RequestedCall(messages[n], sessions).value).CallResult?
    requires messages[n + 1] == ToolResultTurn(LastToolUse(messages[n]).value.id,
                                               call(RequestedCall(messages[n], sessions).value).content)
    requires RequestedCall(messages[n], sessions).value in calls
    ensures RequestsAnswered(messages, n, calls, sessions, call)
  {
  }

  /** A history whose only new turn asks for nothing that returned owes no answer. */
  lemma AnsweredLast(messages: seq<Message>, n: nat, calls: seq<ToolCall>,
                     sessions: AssocList<string, SessionRef>, call: ToolCall -> CallOutcome)
    requires n + 1 == |messages|
    requires !(RequestedCall(messages[n], sessions).Some? &&
               call(RequestedCall(messages[n], sessions).value).CallResult?)
    ensures RequestsAnswered(messages, n, calls, sessions, call)
  {
  }

  /** What one tool-use step appends: an assistant turn ending in the
      request, then, when the call returned, its `tool_result`; the step
      carries on exactly when the call returned. */
  lemma StepAnswers(item: Content, sessions: AssocList<string, SessionRef>,
                    call: ToolCall -> CallOutcome, st: RoundState)
    requires item.ToolUse?
    ensures var (st', more) := ScanStep(item, sessions, call, st);
      var a := AssistantTurn(st.assistant + [item]);
      && LastToolUse(a) == Some(item)
      && st.calls <= st'.calls
      && (more <==> RequestedCall(a, sessions).Some? && call(RequestedCall(a, sessions).value).CallResult?)
      && (more ==> st'.messages == st.messages + [a, ToolResultTurn(item.id, call(RequestedCall(a, sessions).value).content)]
                   && RequestedCall(a, sessions).value in st'.calls)
      && (!more ==> st'.messages == st.messages + [a])
  {
  }

  /** Items after a tool use whose name has no session have no effect at all:
      they are neither printed, recorded nor executed. */
  lemma {:induction false} ScanStopsAtMissingTool(prefix: seq<Content>, u: Content, tail: seq<Content>,
                                                  sessions: AssocList<string, SessionRef>,
                                                  call: ToolCall -> CallOutcome, st: RoundState)
    requires u.ToolUse? && Get(sessions, u.name).None?
    ensures Scan(prefix + [u] + tail, sessions, call, st) == Scan(prefix + [u], sessions, call, st)
    decreases |prefix|
  {
    var items := prefix + [u] + tail;
    if prefix == [] {
      assert items[0] == u && (prefix + [u])[0] == u;
    } else {
      assert items[0] == prefix[0] && (prefix + [u])[0] == prefix[0];
      assert items[1..] == prefix[1..] + [u] + tail;
      assert (prefix + [u])[1..] == prefix[1..] + [u];
      match prefix[0]
      case Text(t) =>
        ScanStopsAtMissingTool(prefix[1..], u, tail, sessions, call,
                               st.(printed := st.printed + [t], assistant := st.assistant + [prefix[0]]));
      case ToolUse(name, input, id) =>
        var assistant := st.assistant + [prefix[0]];
        var st1 := st.(hasToolUse := true, assistant := assistant,
                       messages := st.messages + [AssistantTurn(assistant)]);
        match Get(sessions, name)
        case None =>
        case Some(s) =>
          var st2 := st1.(calls := st1.calls + [ToolCall(s, name, input)]);
          match call(ToolCall(s, name, input))
          case CallRaised(e) =>
          case CallResult(c) =>
            ScanStopsAtMissingTool(prefix[1..], u, tail, sessions, call,
                                   st2.(messages := st2.messages + [ToolResultTurn(id, c)]));
    }
  }

  /** The `call_tool` call a tool use asks for, routed to the session
      registered for its name; none for a text item or an unregistered name. */
  function Routed(item: Content, sessions: AssocList<string, SessionRef>): Option<ToolCall> {
    if item.ToolUse? then
      match Get(sessions, item.name)
      case None => None
      case Some(s) => Some(ToolCall(s, item.name, item.input))
    else None
  }

  /** An item the pass does not get past: a tool use whose name has no
      session (`break`) or whose call raises. */
  predicate EndsPass(item: Content, sessions: AssocList<string, SessionRef>, call: ToolCall -> CallOutcome) {
    item.ToolUse? && (Routed(item, sessions).None? || call(Routed(item, sessions).value).CallRaised?)
  }

  /** The position of the first item that ends the pass, or `|items|` when none does. */
  function StopIndex(items: seq<Content>, sessions: AssocList<string, SessionRef>,
                     call: ToolCall -> CallOutcome): (n: nat)
    ensures n <= |items|
    ensures forall i :: 0 <= i < n ==> !EndsPass(items[i], sessions, call)
    ensures n < |items| ==> EndsPass(items[n], sessions, call)
    decreases |items|
  {
    if items == [] || EndsPass(items[0], sessions, call) then 0
    else
      var n := StopIndex(items[1..], sessions, call);
      assert forall i :: 1 <= i < n + 1 ==> items[i] == items[1..][i - 1];
      1 + n
  }

  /** The items a pass reads: those before the stop, and the item that stops it. */
  function Handled(items: seq<Content>, sessions: AssocList<string, SessionRef>,
                   call: ToolCall -> CallOutcome): seq<Content> {
    var n := StopIndex(items, sessions, call);
    if n < |items| then items[..n + 1] else items
  }

  /** What reading one item prints: a text's text, or the not-found notice
      for a tool use whose name has no session. */
  function ItemPrinted(item: Content, sessions: AssocList<string, SessionRef>): seq<string> {
    match item
    case Text(t) => [t]
    case ToolUse(name, _, _) => if Get(sessions, name).None? then [NotFoundMessage(name)] else []
  }

  /** The call reading one item issues, if any. */
  function ItemCalls(item: Content, sessions: AssocList<string, SessionRef>): seq<ToolCall> {
    match Routed(item, sessions)
    case None => []
    case Some(c) => [c]
  }

  /** The turns reading one tool use appends, `seen` being the response's
      items up to and including it: the assistant turn, then the
      `tool_result` when its call returned. A text item appends none. */
  function ItemTurns(seen: seq<Content>, item: Content, sessions: AssocList<string, SessionRef>,
                     call: ToolCall -> CallOutcome): seq<Message> {
    if !item.ToolUse? then []
    else
      [AssistantTurn(seen)] +
      match Routed(item, sessions)
      case None => []
      case Some(c) =>
        match call(c)
        case CallRaised(_) => []
        case CallResult(v) => [ToolResultTurn(item.id, v)]
  }

  function PrintedOf(items: seq<Content>, sessions: AssocList<string, SessionRef>): seq<string>
    decreases |items|
  {
    if items == [] then [] else ItemPrinted(items[0], sessions) + PrintedOf(items[1..], sessions)
  }

  function CallsOf(items: seq<Content>, sessions: AssocList<string, SessionRef>): seq<ToolCall>
    decreases |items|
  {
    if items == [] then [] else ItemCalls(items[0], sessions) + CallsOf(items[1..], sessions)
  }

  /** The turns of `items`, read after the items `seen` of the same response. */
  function TurnsOf(seen: seq<Content>, items: seq<Content>, sessions: AssocList<string, SessionRef>,
                   call: ToolCall -> CallOutcome): seq<Message>
    decreases |items|
  {
    if items == [] then []
    else ItemTurns(seen + [items[0]], items[0], sessions, call) + TurnsOf(seen + [items[0]], items[1..], sessions, call)
  }

  /** The exception that ends a pass: the error of the call at the stop, if it raised. */
  function RaisedBy(items: seq<Content>, sessions: AssocList<string, SessionRef>,
                    call: ToolCall -> CallOutcome): Option<string>
    decreases |items|
  {
    if items == [] then None
    else if !EndsPass(items[0], sessions, call) then RaisedBy(items[1..], sessions, call)
    else if Routed(items[0], sessions).None? then None
    else Some(call(Routed(items[0], sessions).value).error)
  }

  /** The error `RaisedBy` gives is that of the call at `StopIndex`, when that call raised. */
  lemma {:induction false} RaisedByStop(items: seq<Content>, sessions: AssocList<string, SessionRef>,
                                        call: ToolCall -> CallOutcome)
    ensures var n := StopIndex(items, sessions, call);
      RaisedBy(items, sessions, call) ==
        if n < |items| && Routed(items[n], sessions).Some? then Some(call(Routed(items[n], sessions).value).error) else None
    decreases |items|
  {
    if items != [] && !EndsPass(items[0], sessions, call) {
      RaisedByStop(items[1..], sessions, call);
    }
  }

  /** A pass over `items` stated item by item: each item it reads adds its
      own turns, printed lines and calls, independently of the others. */
  function PassEffect(items: seq<Content>, sessions: AssocList<string, SessionRef>,
                      call: ToolCall -> CallOutcome, st: RoundState): RoundState {
    var h := Handled(items, sessions, call);
    RoundState(st.messages + TurnsOf(st.assistant, h, sessions, call),
               st.printed + PrintedOf(h, sessions),
               st.calls + CallsOf(h, sessions),
               st.assistant + h,
               st.hasToolUse || HasToolUse(h),
               if RaisedBy(items, sessions, call).Some? then RaisedBy(items, sessions, call) else st.raised)
  }

  /** `for content in response.content` does, item by item, what
      `PassEffect` states: every item before the stop is printed or carried
      out, the item at the stop is read and nothing after it. */
  lemma {:induction false} ScanEffect(items: seq<Content>, sessions: AssocList<string, SessionRef>,
                                      call: ToolCall -> CallOutcome, st: RoundState)
    ensures Scan(items, sessions, call, st) == PassEffect(items, sessions, call, st)
    decreases |items|
  {
    if items == [] {
      assert Handled(items, sessions, call) == [];
      assert !HasToolUse([]);
    } else {
      var x := items[0];
      ScanUnfold(items, sessions, call, st);
      StepEffect(x, sessions, call, st);
      var (st', more) := ScanStep(x, sessions, call, st);
      HandledCons(items, sessions, call);
      if EndsPass(x, sessions, call) {
        EffectsCons(st.assistant, x, [], sessions, call);
        assert [x] + [] == [x];
        var e := PassEffect(items, sessions, call, st);
        assert e.messages == st'.messages && e.printed == st'.printed && e.calls == st'.calls;
        assert e.assistant == st'.assistant && e.hasToolUse == st'.hasToolUse && e.raised == st'.raised;
      } else {
        ScanEffect(items[1..], sessions, call, st');
        var h' := Handled(items[1..], sessions, call);
        EffectsCons(st.assistant, x, h', sessions, call);
        Regroup(st.messages, ItemTurns(st.assistant + [x], x, sessions, call), TurnsOf(st.assistant + [x], h', sessions, call));
        Regroup(st.printed, ItemPrinted(x, sessions), PrintedOf(h', sessions));
        Regroup(st.calls, ItemCalls(x, sessions), CallsOf(h', sessions));
        Regroup(st.assistant, [x], h');
      }
    }
  }

  /** Proof step only: `ScanEffect` field by field. */
  lemma ScanFields(items: seq<Content>, sessions: AssocList<string, SessionRef>,
                   call: ToolCall -> CallOutcome, st: RoundState)
    ensures var r, h := Scan(items, sessions, call, st), Handled(items, sessions, call);
      && r.messages == st.messages + TurnsOf(st.assistant, h, sessions, call)
      && r.printed == st.printed + PrintedOf(h, sessions)
      && r.calls == st.calls + CallsOf(h, sessions)
      && (st.raised.None? ==> r.raised == RaisedBy(items, sessions, call))
  {
    ScanEffect(items, sessions, call, st);
  }

  /** One item read by `ScanStep`, stated through the per-item effects. */
  lemma StepEffect(x: Content, sessions: AssocList<string, SessionRef>, call: ToolCall -> CallOutcome, st: RoundState)
    ensures var (st', more) := ScanStep(x, sessions, call, st);
      && (more <==> !EndsPass(x, sessions, call))
      && st'.messages == st.messages + ItemTurns(st.assistant + [x], x, sessions, call)
      && st'.printed == st.printed + ItemPrinted(x, sessions)
      && st'.calls == st.calls + ItemCalls(x, sessions)
      && st'.assistant == st.assistant + [x]
      && st'.hasToolUse == (st.hasToolUse || x.ToolUse?)
      && (more || Routed(x, sessions).None? ==> st'.raised == st.raised)
      && (!more && Routed(x, sessions).Some? ==> st'.raised == Some(call(Routed(x, sessions).value).error))
  {
  }

  /** Proof step only: where the handled items of a response come from its
      first item and the rest. */
  lemma HandledCons(items: seq<Content>, sessions: AssocList<string, SessionRef>, call: ToolCall -> CallOutcome)
    requires items != []
    ensures EndsPass(items[0], sessions, call) ==> Handled(items, sessions, call) == [items[0]]
    ensures !EndsPass(items[0], sessions, call) ==>
              Handled(items, sessions, call) == [items[0]] + Handled(items[1..], sessions, call)
  {
    if !EndsPass(items[0], sessions, call) {
      var n' := StopIndex(items[1..], sessions, call);
      if n' < |items[1..]| {
        TakeCons(items, n');
      } else {
        TakeCons(items, |items| - 1);
      }
    }
  }

  /** Proof step only: the per-item effects of `[x] + rest`. */
  lemma EffectsCons(seen: seq<Content>, x: Content, rest: seq<Content>,
                    sessions: AssocList<string, SessionRef>, call: ToolCall -> CallOutcome)
    ensures TurnsOf(seen, [x] + rest, sessions, call) == ItemTurns(seen + [x], x, sessions, call) + TurnsOf(seen + [x], rest, sessions, call)
    ensures PrintedOf([x] + rest, sessions) == ItemPrinted(x, sessions) + PrintedOf(rest, sessions)
    ensures CallsOf([x] + rest, sessions) == ItemCalls(x, sessions) + CallsOf(rest, sessions)
    ensures HasToolUse([x] + rest) <==> x.ToolUse? || HasToolUse(rest)
  {
    assert ([x] + rest)[0] == x && ([x] + rest)[1..] == rest;
    HasToolUseCons([x] + rest);
  }

  /** Reading one run of items after another: the turns of each run, in order. */
  lemma {:induction false} TurnsOfAppend(seen: seq<Content>, xs: seq<Content>, ys: seq<Content>,
                                         sessions: AssocList<string, SessionRef>, call: ToolCall -> CallOutcome)
    ensures TurnsOf(seen, xs + ys, sessions, call) == TurnsOf(seen, xs, sessions, call) + TurnsOf(seen + xs, ys, sessions, call)
    decreases |xs|
  {
    if xs == [] {
      assert xs + ys == ys && seen + xs == seen;
    } else {
      var x, rest := xs[0], xs[1..];
      assert [x] + rest == xs && (xs + ys)[0] == x && (xs + ys)[1..] == rest + ys;
      Regroup(seen, [x], rest);
      TurnsOfAppend(seen + [x], rest, ys, sessions, call);
      Regroup(ItemTurns(seen + [x], x, sessions, call), TurnsOf(seen + [x], rest, sessions, call), TurnsOf(seen + xs, ys, sessions, call));
    }
  }

  /** The calls of one run of items after another, in order. */
  lemma {:induction false} CallsOfAppend(xs: seq<Content>, ys: seq<Content>, sessions: AssocList<string, SessionRef>)
    ensures CallsOf(xs + ys, sessions) == CallsOf(xs, sessions) + CallsOf(ys, sessions)
    decreases |xs|
  {
    if xs == [] {
      assert xs + ys == ys;
    } else {
      assert (xs + ys)[0] == xs[0] && (xs + ys)[1..] == xs[1..] + ys;
      CallsOfAppend(xs[1..], ys, sessions);
      Regroup(ItemCalls(xs[0], sessions), CallsOf(xs[1..], sessions), CallsOf(ys, sessions));
    }
  }

  /** The lines printed for one run of items after another, in order. */
  lemma {:induction false} PrintedOfAppend(xs: seq<Content>, ys: seq<Content>, sessions: AssocList<string, SessionRef>)
    ensures PrintedOf(xs + ys, sessions) == PrintedOf(xs, sessions) + PrintedOf(ys, sessions)
    decreases |xs|
  {
    if xs == [] {
      assert xs + ys == ys;
    } else {
      assert (xs + ys)[0] == xs[0] && (xs + ys)[1..] == xs[1..] + ys;
      PrintedOfAppend(xs[1..], ys, sessions);
      Regroup(ItemPrinted(xs[0], sessions), PrintedOf(xs[1..], sessions), PrintedOf(ys, sessions));
    }
  }

  /** Each tool use before the stop is carried out: its call is issued, and
      the history gains the assistant turn holding the response's items up to
      and including it, then the `tool_result` turn with the call's result
      under the tool use's id. */
  lemma ScanCarriesOut(items: seq<Content>, sessions: AssocList<string, SessionRef>,
                       call: ToolCall -> CallOutcome, st: RoundState, i: nat)
    requires i < StopIndex(items, sessions, call) && items[i].ToolUse?
    ensures Routed(items[i], sessions).Some?
    ensures var r, c := Scan(items, sessions, call, st), Routed(items[i], sessions).value;
            var p := |st.messages| + |TurnsOf(st.assistant, items[..i], sessions, call)|;
            var q := |st.calls| + |CallsOf(items[..i], sessions)|;
            && p + 1 < |r.messages|
            && r.messages[p] == AssistantTurn(st.assistant + items[..i + 1])
            && r.messages[p + 1] == ToolResultTurn(items[i].id, call(c).content)
            && q < |r.calls| && r.calls[q] == c
  {
    ScanFields(items, sessions, call, st);
    TurnsCarry(items, sessions, call, st.assistant, i);
    CallsCarry(items, sessions, call, i);
  }

  /** Proof step only: the turns of the handled items around a tool use before the stop. */
  lemma TurnsCarry(items: seq<Content>, sessions: AssocList<string, SessionRef>,
                   call: ToolCall -> CallOutcome, seen: seq<Content>, i: nat)
    requires i < StopIndex(items, sessions, call) && items[i].ToolUse?
    ensures Routed(items[i], sessions).Some?
    ensures var t, b := TurnsOf(seen, Handled(items, sessions, call), sessions, call), TurnsOf(seen, items[..i], sessions, call);
            && |b| + 1 < |t|
            && t[|b|] == AssistantTurn(seen + items[..i + 1])
            && t[|b| + 1] == ToolResultTurn(items[i].id, call(Routed(items[i], sessions).value).content)
  {
    var x := items[i];
    var post := HandledAround(items, sessions, call, i);
    var seen' := seen + items[..i];
    TurnsOfAppend(seen, items[..i], [x] + post, sessions, call);
    EffectsCons(seen', x, post, sessions, call);
    ReturnedTurns(seen' + [x], x, sessions, call);
    TakeOneMore(items, i);
    Regroup(seen, items[..i], [x]);
    var c := Routed(x, sessions).value;
    PairAt(TurnsOf(seen, items[..i], sessions, call),
           AssistantTurn(seen' + [x]), ToolResultTurn(x.id, call(c).content), TurnsOf(seen' + [x], post, sessions, call));
  }

  /** Proof step only: the calls of the handled items around a tool use before the stop. */
  lemma CallsCarry(items: seq<Content>, sessions: AssocList<string, SessionRef>,
                   call: ToolCall -> CallOutcome, i: nat)
    requires i < StopIndex(items, sessions, call) && items[i].ToolUse?
    ensures Routed(items[i], sessions).Some?
    ensures var c, b := CallsOf(Handled(items, sessions, call), sessions), CallsOf(items[..i], sessions);
            |b| < |c| && c[|b|] == Routed(items[i], sessions).value
  {
    var x := items[i];
    var post := HandledAround(items, sessions, call, i);
    CallsOfAppend(items[..i], [x] + post, sessions);
    EffectsCons([], x, post, sessions, call);
    ReturnedTurns([x], x, sessions, call);
    ElemAt(CallsOf(items[..i], sessions), Routed(x, sessions).value, CallsOf(post, sessions));
  }

  /** Proof step only: the handled items around a position before the stop. */
  lemma HandledAround(items: seq<Content>, sessions: AssocList<string, SessionRef>,
                      call: ToolCall -> CallOutcome, i: nat) returns (post: seq<Content>)
    requires i < StopIndex(items, sessions, call)
    ensures Handled(items, sessions, call) == items[..i] + ([items[i]] + post)
  {
    var h := Handled(items, sessions, call);
    post := h[i + 1..];
    assert h == h[..i] + ([h[i]] + post);
  }

  /** Proof step only: a tool use whose call returned appends its request and its result. */
  lemma ReturnedTurns(seen: seq<Content>, x: Content, sessions: AssocList<string, SessionRef>, call: ToolCall -> CallOutcome)
    requires x.ToolUse? && !EndsPass(x, sessions, call)
    ensures Routed(x, sessions).Some?
    ensures ItemTurns(seen, x, sessions, call) ==
            [AssistantTurn(seen), ToolResultTurn(x.id, call(Routed(x, sessions).value).content)]
    ensures ItemCalls(x, sessions) == [Routed(x, sessions).value]
  {
  }

  /** Proof step only: positions in a concatenation. */
  lemma PairAt<T>(b: seq<T>, x: T, y: T, c: seq<T>)
    ensures var s := b + ([x, y] + c);
            |b| + 1 < |s| && s[|b|] == x && s[|b| + 1] == y
  {
  }

  /** Proof step only: a position in a concatenation. */
  lemma ElemAt<T>(b: seq<T>, x: T, c: seq<T>)
    ensures var s := b + ([x] + c);
            |b| < |s| && s[|b|] == x
  {
  }

  /** How a query ended: the model answered without tool use, a tool call
      raised (the exception leaves `process_query`), or the given responses
      ran out while the loop still wanted another round. */
  datatype Status = Answered | Raised(error: string) | ResponsesExhausted

  datatype QueryOutcome = QueryOutcome(
    messages: seq<Message>,
    printed: seq<string>,
    calls: seq<ToolCall>,
    rounds: nat,
    status: Status)

  /** The `while True` loop from round `k` on: one backend request per
      round, repeated while the last response held a tool use. */
  function Rounds(responses: seq<seq<Content>>, k: nat, sessions: AssocList<string, SessionRef>,
                  call: ToolCall -> CallOutcome, messages: seq<Message>, printed: seq<string>,
                  calls: seq<ToolCall>): (o: QueryOutcome)
    requires k <= |responses|
    ensures messages <= o.messages && printed <= o.printed && calls <= o.calls
    ensures k <= o.rounds <= |responses|
    ensures o.status.Answered? ==>
              && k < o.rounds
              && !HasToolUse(responses[o.rounds - 1])
              && forall i :: k <= i < o.rounds - 1 ==> HasToolUse(responses[i])
    ensures o.status.ResponsesExhausted? ==>
              o.rounds == |responses| && forall i :: k <= i < |responses| ==> HasToolUse(responses[i])
    ensures o.status.Raised? ==> k < o.rounds && forall i :: k <= i < o.rounds ==> HasToolUse(responses[i])
    decreases |responses| - k
  {
    if k == |responses| then QueryOutcome(messages, printed, calls, k, ResponsesExhausted)
    else
      var st := RoundState(messages, printed, calls, [], false, None);
      var r := Scan(responses[k], sessions, call, st);
      ScanGrows(responses[k], sessions, call, st);
      if r.raised.Some? then
        QueryOutcome(r.messages, r.printed, r.calls, k + 1, Raised(r.raised.value))
      else if !r.hasToolUse then QueryOutcome(r.messages, r.printed, r.calls, k + 1, Answered)
      else Rounds(responses, k + 1, sessions, call, r.messages, r.printed, r.calls)
  }

  /** Across all rounds, every call goes to the session registered for its
      name, and requests and results are paired both ways. */
  lemma {:induction false} RoundsPaired(responses: seq<seq<Content>>, k: nat, sessions: AssocList<string, SessionRef>,
                                        call: ToolCall -> CallOutcome, messages: seq<Message>, printed: seq<string>,
                                        calls: seq<ToolCall>)
    requires k <= |responses|
    ensures var o := Rounds(responses, k, sessions, call, messages, printed, calls);
      && (forall i :: |calls| <= i < |o.calls| ==> Get(sessions, o.calls[i].name) == Some(o.calls[i].session))
      && ResultsAnswerRequests(o.messages, |messages|)
      && RequestsAnswered(o.messages, |messages|, o.calls, sessions, call)
    decreases |responses| - k
  {
    if k < |responses| {
      var st := RoundState(messages, printed, calls, [], false, None);
      var r := Scan(responses[k], sessions, call, st);
      RoundsUnfold(responses, k, sessions, call, messages, printed, calls);
      ScanCallsRouted(responses[k], sessions, call, st);
      ScanResultsFollowRequests(responses[k], sessions, call, st);
      ScanAnswersRequests(responses[k], sessions, call, st);
      if r.raised.None? && r.hasToolUse {
        var o := Rounds(responses, k + 1, sessions, call, r.messages, r.printed, r.calls);
        RoundsPaired(responses, k + 1, sessions, call, r.messages, r.printed, r.calls);
        PairedAppend(messages, r.messages, o.messages);
        AnsweredAppend(messages, r.messages, o.messages, r.calls, o.calls, sessions, call);
        RoutedAppend(calls, r.calls, o.calls, sessions);
      }
    }
  }

  /** Proof step only: calls routed in two runs are routed together. */
  lemma RoutedAppend(c0: seq<ToolCall>, c1: seq<ToolCall>, c2: seq<ToolCall>, sessions: AssocList<string, SessionRef>)
    requires c0 <= c1 <= c2
    requires forall i :: |c0| <= i < |c1| ==> Get(sessions, c1[i].name) == Some(c1[i].session)
    requires forall i :: |c1| <= i < |c2| ==> Get(sessions, c2[i].name) == Some(c2[i].session)
    ensures forall i :: |c0| <= i < |c2| ==> Get(sessions, c2[i].name) == Some(c2[i].session)
  {
    forall i | |c0| <= i < |c1|
      ensures c2[i] == c1[i]
    {
    }
  }

  /** Every tool call the loop issues returns, except that a query ending in
      `Raised` ends with the call that raised, whose error it reports. */
  lemma {:induction false} RoundsCallOutcomes(responses: seq<seq<Content>>, k: nat, sessions: AssocList<string, SessionRef>,
                                              call: ToolCall -> CallOutcome, messages: seq<Message>, printed: seq<string>,
                                              calls: seq<ToolCall>)
    requires k <= |responses|
    ensures var o := Rounds(responses, k, sessions, call, messages, printed, calls);
            && (o.status.Raised? ==> RaisedLast(o.calls, |calls|, call, o.status.error))
            && (!o.status.Raised? ==> AllReturned(o.calls, |calls|, call))
    decreases |responses| - k
  {
    if k < |responses| {
      var st := RoundState(messages, printed, calls, [], false, None);
      var r := Scan(responses[k], sessions, call, st);
      ScanCallOutcomes(responses[k], sessions, call, st);
      if r.raised.None? && r.hasToolUse {
        var o := Rounds(responses, k + 1, sessions, call, r.messages, r.printed, r.calls);
        RoundsCallOutcomes(responses, k + 1, sessions, call, r.messages, r.printed, r.calls);
        ScanGrows(responses[k], sessions, call, st);
        ReturnedAppend(calls, r.calls, o.calls, call);
      }
    }
  }

  /** The turns rounds `k` up to `n` append, each round a pass over its
      response that starts with an empty `assistant_content`. */
  function RoundsTurns(responses: seq<seq<Content>>, k: nat, n: nat, sessions: AssocList<string, SessionRef>,
                       call: ToolCall -> CallOutcome): seq<Message>
    requires k <= n <= |responses|
    decreases n - k
  {
    if k == n then []
    else TurnsOf([], Handled(responses[k], sessions, call), sessions, call) + RoundsTurns(responses, k + 1, n, sessions, call)
  }

  /** The lines rounds `k` up to `n` print. */
  function RoundsPrinted(responses: seq<seq<Content>>, k: nat, n: nat, sessions: AssocList<string, SessionRef>,
                         call: ToolCall -> CallOutcome): seq<string>
    requires k <= n <= |responses|
    decreases n - k
  {
    if k == n then []
    else PrintedOf(Handled(responses[k], sessions, call), sessions) + RoundsPrinted(responses, k + 1, n, sessions, call)
  }

  /** The `call_tool` calls rounds `k` up to `n` issue. */
  function RoundsCalls(responses: seq<seq<Content>>, k: nat, n: nat, sessions: AssocList<string, SessionRef>,
                       call: ToolCall -> CallOutcome): seq<ToolCall>
    requires k <= n <= |responses|
    decreases n - k
  {
    if k == n then []
    else CallsOf(Handled(responses[k], sessions, call), sessions) + RoundsCalls(responses, k + 1, n, sessions, call)
  }

  /** What the loop does from round `k` on, round by round: each round
      appends the turns, printed lines and calls of its own pass. */
  lemma {:induction false} RoundsEffects(responses: seq<seq<Content>>, k: nat, sessions: AssocList<string, SessionRef>,
                                         call: ToolCall -> CallOutcome, messages: seq<Message>, printed: seq<string>,
                                         calls: seq<ToolCall>)
    requires k <= |responses|
    ensures var o := Rounds(responses, k, sessions, call, messages, printed, calls);
      && o.messages == messages + RoundsTurns(responses, k, o.rounds, sessions, call)
      && o.printed == printed + RoundsPrinted(responses, k, o.rounds, sessions, call)
      && o.calls == calls + RoundsCalls(responses, k, o.rounds, sessions, call)
    decreases |responses| - k
  {
    if k < |responses| {
      var st := RoundState(messages, printed, calls, [], false, None);
      ScanEffect(responses[k], sessions, call, st);
      var r := Scan(responses[k], sessions, call, st);
      var h := Handled(responses[k], sessions, call);
      var o := Rounds(responses, k, sessions, call, messages, printed, calls);
      if r.raised.None? && r.hasToolUse {
        RoundsEffects(responses, k + 1, sessions, call, r.messages, r.printed, r.calls);
        RoundsStep(responses, k, o.rounds, sessions, call);
        Regroup(messages, TurnsOf([], h, sessions, call), RoundsTurns(responses, k + 1, o.rounds, sessions, call));
        Regroup(printed, PrintedOf(h, sessions), RoundsPrinted(responses, k + 1, o.rounds, sessions, call));
        Regroup(calls, CallsOf(h, sessions), RoundsCalls(responses, k + 1, o.rounds, sessions, call));
      } else {
        assert o.rounds == k + 1;
        RoundsStep(responses, k, k + 1, sessions, call);
      }
    }
  }

  /** Proof step only: the first of rounds `k` up to `n`, then the others. */
  lemma RoundsStep(responses: seq<seq<Content>>, k: nat, n: nat, sessions: AssocList<string, SessionRef>,
                   call: ToolCall -> CallOutcome)
    requires k < n <= |responses|
    ensures var h := Handled(responses[k], sessions, call);
      && RoundsTurns(responses, k, n, sessions, call) == TurnsOf([], h, sessions, call) + RoundsTurns(responses, k + 1, n, sessions, call)
      && RoundsPrinted(responses, k, n, sessions, call) == PrintedOf(h, sessions) + RoundsPrinted(responses, k + 1, n, sessions, call)
      && RoundsCalls(responses, k, n, sessions, call) == CallsOf(h, sessions) + RoundsCalls(responses, k + 1, n, sessions, call)
      && (n == k + 1 ==> RoundsTurns(responses, k + 1, n, sessions, call) == [] &&
                         RoundsPrinted(responses, k + 1, n, sessions, call) == [] &&
                         RoundsCalls(responses, k + 1, n, sessions, call) == [])
  {
  }

  /** The query raises exactly in a round whose pass stops at a call that
      raised, with that call's error; no earlier round's pass raised. */
  lemma {:induction false} RoundsRaisedBy(responses: seq<seq<Content>>, k: nat, sessions: AssocList<string, SessionRef>,
                                          call: ToolCall -> CallOutcome, messages: seq<Message>, printed: seq<string>,
                                          calls: seq<ToolCall>)
    requires k <= |responses|
    ensures var o := Rounds(responses, k, sessions, call, messages, printed, calls);
      && (forall i :: k <= i < o.rounds - 1 ==> RaisedBy(responses[i], sessions, call).None?)
      && (o.status.Raised? ==> RaisedBy(responses[o.rounds - 1], sessions, call) == Some(o.status.error))
      && (!o.status.Raised? && k < o.rounds ==> RaisedBy(responses[o.rounds - 1], sessions, call).None?)
  {
    RoundsEarlierNotRaised(responses, k, sessions, call, messages, printed, calls);
    RoundsLastRaised(responses, k, sessions, call, messages, printed, calls);
  }

  /** Proof step only: no round before the last one raised. */
  lemma {:induction false} RoundsEarlierNotRaised(responses: seq<seq<Content>>, k: nat, sessions: AssocList<string, SessionRef>,
                                                  call: ToolCall -> CallOutcome, messages: seq<Message>, printed: seq<string>,
                                                  calls: seq<ToolCall>)
    requires k <= |responses|
    ensures var o := Rounds(responses, k, sessions, call, messages, printed, calls);
      forall i :: k <= i < o.rounds - 1 ==> RaisedBy(responses[i], sessions, call).None?
    decreases |responses| - k
  {
    if k < |responses| {
      var st := RoundState(messages, printed, calls, [], false, None);
      var r := Scan(responses[k], sessions, call, st);
      RoundsUnfold(responses, k, sessions, call, messages, printed, calls);
      var o := Rounds(responses, k, sessions, call, messages, printed, calls);
      if r.raised.None? && r.hasToolUse {
        ScanRaised(responses[k], sessions, call, st);
        var o' := Rounds(responses, k + 1, sessions, call, r.messages, r.printed, r.calls);
        RoundsEarlierNotRaised(responses, k + 1, sessions, call, r.messages, r.printed, r.calls);
        assert o == o';
        forall i | k <= i < o.rounds - 1
          ensures RaisedBy(responses[i], sessions, call).None?
        {
          if k < i {
            assert k + 1 <= i < o'.rounds - 1;
          }
        }
      } else {
        assert o.rounds == k + 1;
      }
    }
  }

  /** Proof step only: the last round raised exactly the reported error, if any. */
  lemma {:induction false} RoundsLastRaised(responses: seq<seq<Content>>, k: nat, sessions: AssocList<string, SessionRef>,
                                            call: ToolCall -> CallOutcome, messages: seq<Message>, printed: seq<string>,
                                            calls: seq<ToolCall>)
    requires k <= |responses|
    ensures var o := Rounds(responses, k, sessions, call, messages, printed, calls);
      k < o.rounds ==> RaisedBy(responses[o.rounds - 1], sessions, call) ==
                       (if o.status.Raised? then Some(o.status.error) else None)
    decreases |responses| - k
  {
    if k < |responses| {
      var st := RoundState(messages, printed, calls, [], false, None);
      var r := Scan(responses[k], sessions, call, st);
      RoundsUnfold(responses, k, sessions, call, messages, printed, calls);
      ScanRaised(responses[k], sessions, call, st);
      var o := Rounds(responses, k, sessions, call, messages, printed, calls);
      if r.raised.None? && r.hasToolUse {
        var o' := Rounds(responses, k + 1, sessions, call, r.messages, r.printed, r.calls);
        RoundsLastRaised(responses, k + 1, sessions, call, r.messages, r.printed, r.calls);
        assert o == o';
        if o'.rounds == k + 1 {
          assert !o'.status.Raised?;
        }
      } else if r.raised.Some? {
        assert o == QueryOutcome(r.messages, r.printed, r.calls, k + 1, Raised(r.raised.value));
      } else {
        assert o == QueryOutcome(r.messages, r.printed, r.calls, k + 1, Answered);
      }
    }
  }

  /** Proof step only: one round of the loop, then the rest. */
  lemma RoundsUnfold(responses: seq<seq<Content>>, k: nat, sessions: AssocList<string, SessionRef>,
                     call: ToolCall -> CallOutcome, messages: seq<Message>, printed: seq<string>,
                     calls: seq<ToolCall>)
    requires k < |responses|
    ensures var r := Scan(responses[k], sessions, call, RoundState(messages, printed, calls, [], false, None));
      Rounds(responses, k, sessions, call, messages, printed, calls) ==
        if r.raised.Some? then QueryOutcome(r.messages, r.printed, r.calls, k + 1, Raised(r.raised.value))
        else if !r.hasToolUse then QueryOutcome(r.messages, r.printed, r.calls, k + 1, Answered)
        else Rounds(responses, k + 1, sessions, call, r.messages, r.printed, r.calls)
  {
  }

  /** Proof step only: the error a pass from a state without one raises. */
  lemma ScanRaised(items: seq<Content>, sessions: AssocList<string, SessionRef>,
                   call: ToolCall -> CallOutcome, st: RoundState)
    requires st.raised.None?
    ensures Scan(items, sessions, call, st).raised == RaisedBy(items, sessions, call)
  {
    ScanEffect(items, sessions, call, st);
  }

  lemma AnsweredAppend(m0: seq<Message>, m1: seq<Message>, m2: seq<Message>, c1: seq<ToolCall>, c2: seq<ToolCall>,
                       sessions: AssocList<string, SessionRef>, call: ToolCall -> CallOutcome)
    requires m0 <= m1 <= m2 && c1 <= c2
    requires RequestsAnswered(m1, |m0|, c1, sessions, call) && RequestsAnswered(m2, |m1|, c2, sessions, call)
    ensures RequestsAnswered(m2, |m0|, c2, sessions, call)
  {
    forall p | |m0| <= p < |m1| && RequestedCall(m2[p], sessions).Some? &&
               call(RequestedCall(m2[p], sessions).value).CallResult?
      ensures p + 1 < |m1| && m2[p] == m1[p] && m2[p + 1] == m1[p + 1]
      ensures RequestedCall(m2[p], sessions).value in c2
    {
      assert m2[p] == m1[p];
      var x := RequestedCall(m1[p], sessions).value;
      var i :| 0 <= i < |c1| && c1[i] == x;
      assert c2[i] == x;
    }
  }

  lemma PairedAppend(m0: seq<Message>, m1: seq<Message>, m2: seq<Message>)
    requires m0 <= m1 <= m2
    requires ResultsAnswerRequests(m1, |m0|) && ResultsAnswerRequests(m2, |m1|)
    ensures ResultsAnswerRequests(m2, |m0|)
  {
    forall p | |m0| <= p < |m1| && m2[p].ToolResultTurn?
      ensures |m0| < p && m2[p - 1] == m1[p - 1] && m2[p] == m1[p]
    {
      assert m2[p] == m1[p];
    }
  }

  /** `process_query(query)`: the history starts as the query alone. */
  function ProcessQuery(query: string, responses: seq<seq<Content>>, sessions: AssocList<string, SessionRef>,
                        call: ToolCall -> CallOutcome): (o: QueryOutcome)
    ensures |o.messages| >= 1 && o.messages[0] == UserQuery(query)
    ensures o.rounds <= |responses|
    ensures o.status.Answered? <==> 1 <= o.rounds && !HasToolUse(responses[o.rounds - 1])
    ensures forall i :: 0 <= i < o.rounds - 1 ==> HasToolUse(responses[i])
    ensures forall i :: 0 <= i < |o.calls| ==> Get(sessions, o.calls[i].name) == Some(o.calls[i].session)
    ensures ResultsAnswerRequests(o.messages, 1)
    ensures RequestsAnswered(o.messages, 1, o.calls, sessions, call)
    ensures o.status.ResponsesExhausted? ==> o.rounds == |responses| && forall i :: 0 <= i < |responses| ==> HasToolUse(responses[i])
    ensures o.status.Raised? ==> RaisedLast(o.calls, 0, call, o.status.error)
    ensures !o.status.Raised? ==> AllReturned(o.calls, 0, call)
    ensures o.messages[1..] == RoundsTurns(responses, 0, o.rounds, sessions, call)
    ensures o.printed == RoundsPrinted(responses, 0, o.rounds, sessions, call)
    ensures o.calls == RoundsCalls(responses, 0, o.rounds, sessions, call)
    ensures forall i :: 0 <= i < o.rounds - 1 ==> RaisedBy(responses[i], sessions, call).None?
    ensures o.status.Raised? <==> 1 <= o.rounds && RaisedBy(responses[o.rounds - 1], sessions, call).Some?
    ensures o.status.Raised? ==> RaisedBy(responses[o.rounds - 1], sessions, call) == Some(o.status.error)
  {
    QueryPaired(query, responses, sessions, call);
    QueryEffects(query, responses, sessions, call);
    RoundsRaisedBy(responses, 0, sessions, call, [UserQuery(query)], [], []);
    Rounds(responses, 0, sessions, call, [UserQuery(query)], [], [])
  }

  /** Proof step only: routing, pairing and call outcomes from the first round on. */
  lemma QueryPaired(query: string, responses: seq<seq<Content>>, sessions: AssocList<string, SessionRef>,
                    call: ToolCall -> CallOutcome)
    ensures var o := Rounds(responses, 0, sessions, call, [UserQuery(query)], [], []);
      && (forall i :: 0 <= i < |o.calls| ==> Get(sessions, o.calls[i].name) == Some(o.calls[i].session))
      && ResultsAnswerRequests(o.messages, 1)
      && RequestsAnswered(o.messages, 1, o.calls, sessions, call)
      && (o.status.Raised? ==> RaisedLast(o.calls, 0, call, o.status.error))
      && (!o.status.Raised? ==> AllReturned(o.calls, 0, call))
  {
    RoundsPaired(responses, 0, sessions, call, [UserQuery(query)], [], []);
    RoundsCallOutcomes(responses, 0, sessions, call, [UserQuery(query)], [], []);
  }

  /** Proof step only: the effects of every round from the first on. */
  lemma QueryEffects(query: string, responses: seq<seq<Content>>, sessions: AssocList<string, SessionRef>,
                     call: ToolCall -> CallOutcome)
    ensures var o := Rounds(responses, 0, sessions, call, [UserQuery(query)], [], []);
      && o.messages[1..] == RoundsTurns(responses, 0, o.rounds, sessions, call)
      && o.printed == RoundsPrinted(responses, 0, o.rounds, sessions, call)
      && o.calls == RoundsCalls(responses, 0, o.rounds, sessions, call)
  {
    RoundsEffects(responses, 0, sessions, call, [UserQuery(query)], [], []);
    var o := Rounds(responses, 0, sessions, call, [UserQuery(query)], [], []);
    assert [] + RoundsPrinted(responses, 0, o.rounds, sessions, call) == RoundsPrinted(responses, 0, o.rounds, sessions, call);
    assert [] + RoundsCalls(responses, 0, o.rounds, sessions, call) == RoundsCalls(responses, 0, o.rounds, sessions, call);
  }

  /** A first response whose first tool use names no session, after any
      number of texts, prints those texts and the not-found notice, records
      the assistant turn, issues no call, and still sends the history back
      to the model for another round. */
  lemma MissingToolStillContinues(query: string, pre: seq<Content>, u: Content, tail: seq<Content>,
                                  later: seq<seq<Content>>, sessions: AssocList<string, SessionRef>,
                                  call: ToolCall -> CallOutcome)
    requires forall i :: 0 <= i < |pre| ==> pre[i].Text?
    requires u.ToolUse? && Get(sessions, u.name).None? && later != []
    ensures var o := ProcessQuery(query, [pre + [u] + tail] + later, sessions, call);
      && o.rounds >= 2
      && |o.messages| >= 2
      && o.messages[..2] == [UserQuery(query), AssistantTurn(pre + [u])]
      && |pre| < |o.printed|
      && (forall i :: 0 <= i < |pre| ==> o.printed[i] == pre[i].text)
      && o.printed[|pre|] == NotFoundMessage(u.name)
  {
    var responses := [pre + [u] + tail] + later;
    var items := responses[0];
    var o := ProcessQuery(query, responses, sessions, call);
    MissingToolHandled(pre, u, tail, sessions, call);
    assert items[|pre|] == u;
    assert HasToolUse(items);
    RoundsStep(responses, 0, o.rounds, sessions, call);
    MissingToolEffects(pre, u, sessions, call);
    TextsPrinted(pre, sessions);
    HeadsOf(o.messages, UserQuery(query), AssistantTurn(pre + [u]), RoundsTurns(responses, 1, o.rounds, sessions, call));
    assert o.printed == PrintedOf(pre, sessions) + [NotFoundMessage(u.name)] + RoundsPrinted(responses, 1, o.rounds, sessions, call);
  }

  /** Proof step only: the turns and lines of texts followed by an unregistered tool use. */
  lemma MissingToolEffects(pre: seq<Content>, u: Content, sessions: AssocList<string, SessionRef>, call: ToolCall -> CallOutcome)
    requires forall i :: 0 <= i < |pre| ==> pre[i].Text?
    requires u.ToolUse? && Get(sessions, u.name).None?
    ensures TurnsOf([], pre + [u], sessions, call) == [AssistantTurn(pre + [u])]
    ensures PrintedOf(pre + [u], sessions) == PrintedOf(pre, sessions) + [NotFoundMessage(u.name)]
  {
    TextsNoTurns([], pre, sessions, call);
    TurnsOfAppend([], pre, [u], sessions, call);
    EffectsCons([] + pre, u, [], sessions, call);
    assert [] + pre + [u] == pre + [u];
    PrintedOfAppend(pre, [u], sessions);
    EffectsCons([], u, [], sessions, call);
  }

  /** Proof step only: the first two elements of a sequence. */
  lemma HeadsOf<T>(s: seq<T>, x: T, y: T, rest: seq<T>)
    requires s != [] && s[0] == x && s[1..] == [y] + rest
    ensures |s| >= 2 && s[..2] == [x, y]
  {
    assert s[1] == s[1..][0];
  }

  /** Proof step only: the pass over texts, then an unregistered tool use,
      reads exactly those items and raises nothing. */
  lemma MissingToolHandled(pre: seq<Content>, u: Content, tail: seq<Content>, sessions: AssocList<string, SessionRef>,
                           call: ToolCall -> CallOutcome)
    requires forall i :: 0 <= i < |pre| ==> pre[i].Text?
    requires u.ToolUse? && Get(sessions, u.name).None?
    ensures Handled(pre + [u] + tail, sessions, call) == pre + [u]
    ensures RaisedBy(pre + [u] + tail, sessions, call).None?
  {
    var items := pre + [u] + tail;
    var n := StopIndex(items, sessions, call);
    assert items[|pre|] == u;
    assert forall i :: 0 <= i < |pre| ==> items[i] == pre[i];
    assert n == |pre|;
    assert items[..n + 1] == pre + [u];
    RaisedByStop(items, sessions, call);
  }

  /** Proof step only: text items append no turns. */
  lemma {:induction false} TextsNoTurns(seen: seq<Content>, pre: seq<Content>, sessions: AssocList<string, SessionRef>,
                                        call: ToolCall -> CallOutcome)
    requires forall i :: 0 <= i < |pre| ==> pre[i].Text?
    ensures TurnsOf(seen, pre, sessions, call) == []
    decreases |pre|
  {
    if pre != [] {
      TextsNoTurns(seen + [pre[0]], pre[1..], sessions, call);
    }
  }

  /** Proof step only: text items print exactly their texts. */
  lemma {:induction false} TextsPrinted(pre: seq<Content>, sessions: AssocList<string, SessionRef>)
    requires forall i :: 0 <= i < |pre| ==> pre[i].Text?
    ensures |PrintedOf(pre, sessions)| == |pre|
    ensures forall i :: 0 <= i < |pre| ==> PrintedOf(pre, sessions)[i] == pre[i].text
    decreases |pre|
  {
    if pre != [] {
      TextsPrinted(pre[1..], sessions);
      assert PrintedOf(pre, sessions) == [pre[0].text] + PrintedOf(pre[1..], sessions);
    }
  }

  /** The two-round exchange: one tool request answered by a registered tool,
      then a text-only reply, ends the query after exactly two requests. */
  lemma TwoRoundQuery(query: string, input: Json, result: Json, call: ToolCall -> CallOutcome)
    requires call(ToolCall(SessionRef(0), "search_papers", input)) == CallResult(result)
    ensures var request := ToolUse("search_papers", input, "toolu_1");
            ProcessQuery(query, [[request], [Text("Found 3 papers.")]], [("search_papers", SessionRef(0))], call)
            == QueryOutcome(
                 [UserQuery(query), AssistantTurn([request]), ToolResultTurn("toolu_1", result)],
                 ["Found 3 papers."],
                 [ToolCall(SessionRef(0), "search_papers", input)],
                 2, Answered)
  {
    var request := ToolUse("search_papers", input, "toolu_1");
    var sessions := [("search_papers", SessionRef(0))];
    var responses := [[request], [Text("Found 3 papers.")]];
    assert Get(sessions, "search_papers") == Some(SessionRef(0));
    var st0 := RoundState([UserQuery(query)], [], [], [], false, None);
    var m1 := [UserQuery(query), AssistantTurn([request]), ToolResultTurn("toolu_1", result)];
    var c1 := [ToolCall(SessionRef(0), "search_papers", input)];
    var r0 := Scan(responses[0], sessions, call, st0);
    assert responses[0][1..] == [] && responses[1][1..] == [];
    assert [] + [request] == [request];
    ScanUnfold(responses[0], sessions, call, st0);
    var st1' := st0.(hasToolUse := true, assistant := [request], messages := st0.messages + [AssistantTurn([request])]);
    var st2' := st1'.(calls := st1'.calls + [ToolCall(SessionRef(0), "search_papers", input)]);
    assert st2'.(messages := st2'.messages + [ToolResultTurn("toolu_1", result)]) == RoundState(m1, [], c1, [request], true, None);
    assert ScanStep(request, sessions, call, st0) == (RoundState(m1, [], c1, [request], true, None), true);
    assert r0 == RoundState(m1, [], c1, [request], true, None);
    var st1 := RoundState(m1, [], c1, [], false, None);
    var r1 := Scan(responses[1], sessions, call, st1);
    assert r1 == RoundState(m1, ["Found 3 papers."], c1, [Text("Found 3 papers.")], false, None);
    assert Rounds(responses, 1, sessions, call, m1, [], c1) == QueryOutcome(m1, ["Found 3 papers."], c1, 2, Answered);
  }
}

=== FILE: options.dfy ===
/** The optional value: what `d.get(k)` returns, and what the chatbot tests for `None`. */
module Options {

  datatype Option<+T> = None | Some(value: T)
}

=== FILE: paper_server.dfy ===
/** The research server: the tools `search_papers` and `extract_info`, the
    resources `papers://folders` and `papers://{topic}`, and the prompt
    `generate_search_prompt`, over an explicit model of the `papers`
    directory. */
module PaperServer {
  import opened Options
  import opened Strings
  import opened AssocLists

  /** What is saved about one paper under its short id. */
  datatype PaperInfo = PaperInfo(
    title: string,
    authors: seq<string>,
    summary: string,
    pdfUrl: string,
    published: string)

  /** One arXiv search result: the paper's short id and the fields saved for it. */
  datatype Paper = Paper(shortId: string, info: PaperInfo)

  /** The state of `papers_info.json` inside one topic folder. */
  datatype InfoFile =
    | NoInfoFile
    | Corrupt
    | Saved(papers: AssocList<string, PaperInfo>)

  /** One entry of the `papers` directory. */
  datatype DirEntry =
    | TopicFolder(name: string, file: InfoFile)
    | PlainFile(name: string)

  /** The `papers` directory: missing until a search creates it; entries in listing order. */
  datatype PapersDir = Missing | Present(entries: seq<DirEntry>)

  function Entries(dir: PapersDir): seq<DirEntry> {
    if dir.Present? then dir.entries else []
  }

  function Names(es: seq<DirEntry>): (ns: seq<string>)
    ensures |ns| == |es|
    ensures forall i :: 0 <= i < |es| ==> ns[i] == es[i].name
  {
    seq(|es|, i requires 0 <= i < |es| => es[i].name)
  }

  /** A directory never lists the same name twice. */
  predicate UniqueNames(es: seq<DirEntry>) {
    Distinct(Names(es))
  }

  /** A name that stays one path component directly below `papers`. */
  predicate PlainName(name: string) {
    name != [] && name != "." && name != ".." && '/' !in name
  }

  predicate NamesWithout(es: seq<DirEntry>, c: char) {
    forall i :: 0 <= i < |es| ==> c !in es[i].name
  }

  // ----- Topic folders

  /** `topic.lower().replace(" ", "_")`: the folder a topic is saved in. */
  function TopicDir(topic: string): (d: string)
    ensures |d| == |topic|
    ensures forall i :: 0 <= i < |d| ==> d[i] == if topic[i] == ' ' then '_' else LowerChar(topic[i])
    ensures forall i :: 0 <= i < |d| ==> d[i] != ' ' && !('A' <= d[i] <= 'Z')
  {
    ReplaceChar(Lower(topic), ' ', '_')
  }

  /** Naming a folder by its own name finds the same folder again. */
  lemma TopicDirIdempotent(topic: string)
    ensures TopicDir(TopicDir(topic)) == TopicDir(topic)
  {
    var d := TopicDir(topic);
    assert forall i :: 0 <= i < |d| ==> TopicDir(d)[i] == d[i];
  }

  predicate IsFolder(e: DirEntry, name: string) {
    e.TopicFolder? && e.name == name
  }

  /** Entry `i` is the first topic folder called `name`. */
  predicate FirstFolder(es: seq<DirEntry>, name: string, i: int) {
    0 <= i < |es| && IsFolder(es[i], name) && forall j :: 0 <= j < i ==> !IsFolder(es[j], name)
  }

  /** The saved-papers file of the first topic folder called `name`;
      `NoInfoFile` when no folder of that name holds one. */
  function InfoAt(es: seq<DirEntry>, name: string): (f: InfoFile)
    ensures f != NoInfoFile ==> exists i :: 0 <= i < |es| && es[i] == TopicFolder(name, f)
    ensures forall i :: FirstFolder(es, name, i) ==> f == es[i].file
    decreases |es|
  {
    if es == [] then NoInfoFile
    else if es[0].TopicFolder? && es[0].name == name then es[0].file
    else
      var f := InfoAt(es[1..], name);
      assert f != NoInfoFile ==> exists i :: 0 <= i < |es| && es[i] == TopicFolder(name, f) by {
        if f != NoInfoFile {
          var i :| 0 <= i < |es[1..]| && es[1..][i] == TopicFolder(name, f);
          assert es[i + 1] == TopicFolder(name, f);
        }
      }
      assert forall i :: 1 <= i < |es| ==> es[i] == es[1..][i - 1];
      f
  }

  /** In a listing without duplicate names, a topic folder's own file is what
      its name finds. */
  lemma InfoAtFolder(es: seq<DirEntry>, i: int)
    requires UniqueNames(es) && 0 <= i < |es| && es[i].TopicFolder?
    ensures InfoAt(es, es[i].name) == es[i].file
  {
    forall j | 0 <= j < i
      ensures !IsFolder(es[j], es[i].name)
    {
      assert Names(es)[j] != Names(es)[i];
    }
    assert FirstFolder(es, es[i].name, i);
  }

  predicate HasPlainFile(es: seq<DirEntry>, name: string) {
    exists i :: 0 <= i < |es| && es[i] == PlainFile(name)
  }

  /** The listing after `papers_info.json` of folder `name` is written with
      `papers`; a folder that did not exist is created at the end. */
  function WriteInfo(es: seq<DirEntry>, name: string, papers: AssocList<string, PaperInfo>): (w: seq<DirEntry>)
    ensures |es| <= |w| <= |es| + 1
    ensures forall i :: 0 <= i < |es| && es[i].name != name ==> w[i] == es[i]
    ensures exists i :: 0 <= i < |w| && w[i] == TopicFolder(name, Saved(papers))
    decreases |es|
  {
    if es == [] then
      var w := [TopicFolder(name, Saved(papers))];
      assert w[0] == TopicFolder(name, Saved(papers));
      w
    else if es[0].TopicFolder? && es[0].name == name then
      var w := [TopicFolder(name, Saved(papers))] + es[1..];
      assert w[0] == TopicFolder(name, Saved(papers));
      w
    else
      var rest := WriteInfo(es[1..], name, papers);
      var w := [es[0]] + rest;
      assert forall i :: 1 <= i < |w| ==> w[i] == rest[i - 1];
      assert forall i :: 1 <= i < |es| ==> es[i] == es[1..][i - 1];
      ghost var k :| 0 <= k < |rest| && rest[k] == TopicFolder(name, Saved(papers));
      assert w[k + 1] == TopicFolder(name, Saved(papers));
      w
  }

  /** Writing one folder's file changes what that folder holds and nothing else. */
  lemma {:induction false} WriteInfoAt(es: seq<DirEntry>, name: string, papers: AssocList<string, PaperInfo>, n: string)
    ensures InfoAt(WriteInfo(es, name, papers), n) == if n == name then Saved(papers) else InfoAt(es, n)
    decreases |es|
  {
    if es != [] && !(es[0].TopicFolder? && es[0].name == name) {
      WriteInfoAt(es[1..], name, papers, n);
      assert WriteInfo(es, name, papers)[1..] == WriteInfo(es[1..], name, papers);
    }
  }

  lemma NamesCons(es: seq<DirEntry>)
    requires es != []
    ensures Names(es) == [es[0].name] + Names(es[1..])
  {
  }

  /** The names listed after a write: the old ones, plus `name` at the end when it is new. */
  lemma {:induction false} WriteInfoNames(es: seq<DirEntry>, name: string, papers: AssocList<string, PaperInfo>)
    requires !HasPlainFile(es, name)
    ensures name in Names(es) ==> Names(WriteInfo(es, name, papers)) == Names(es)
    ensures name !in Names(es) ==> Names(WriteInfo(es, name, papers)) == Names(es) + [name]
    decreases |es|
  {
    var w := WriteInfo(es, name, papers);
    if es == [] {
      assert Names(w) == [name];
    } else if !IsFolder(es[0], name) {
      assert es[0] != PlainFile(name);
      forall i | 0 <= i < |es[1..]|
        ensures es[1..][i] != PlainFile(name)
      {
        assert es[1..][i] == es[i + 1];
      }
      WriteInfoNames(es[1..], name, papers);
      WriteInfoNamesStep(es, name, papers);
    } else {
      NamesCons(es);
      NamesCons(w);
      assert w[1..] == es[1..];
    }
  }

  /** A write past an entry of another name keeps that entry first. */
  lemma WriteInfoNamesStep(es: seq<DirEntry>, name: string, papers: AssocList<string, PaperInfo>)
    requires es != [] && !IsFolder(es[0], name) && es[0] != PlainFile(name)
    requires var n, w := Names(es[1..]), Names(WriteInfo(es[1..], name, papers));
             (name in n ==> w == n) && (name !in n ==> w == n + [name])
    ensures var n, w := Names(es), Names(WriteInfo(es, name, papers));
            (name in n ==> w == n) && (name !in n ==> w == n + [name])
  {
    var w := WriteInfo(es, name, papers);
    NamesCons(es);
    NamesCons(w);
    assert w[0] == es[0] && w[1..] == WriteInfo(es[1..], name, papers);
    ConsKeepsNames(es[0].name, Names(es[1..]), Names(w[1..]), name);
  }

  lemma ConsKeepsNames(x: string, n: seq<string>, w: seq<string>, name: string)
    requires x != name
    requires (name in n ==> w == n) && (name !in n ==> w == n + [name])
    ensures name in [x] + n ==> [x] + w == [x] + n
    ensures name !in [x] + n ==> [x] + w == [x] + n + [name]
  {
  }

  /** A write keeps the listing free of duplicate names. */
  lemma WriteInfoUnique(es: seq<DirEntry>, name: string, papers: AssocList<string, PaperInfo>)
    requires UniqueNames(es) && !HasPlainFile(es, name)
    ensures UniqueNames(WriteInfo(es, name, papers))
  {
    WriteInfoNames(es, name, papers);
  }

  /** A write adds no name containing `c` unless `name` contains it. */
  lemma WriteInfoNamesWithout(es: seq<DirEntry>, name: string, papers: AssocList<string, PaperInfo>, c: char)
    requires NamesWithout(es, c) && c !in name && !HasPlainFile(es, name)
    ensures NamesWithout(WriteInfo(es, name, papers), c)
  {
    WriteInfoNames(es, name, papers);
    var w := WriteInfo(es, name, papers);
    forall i | 0 <= i < |w|
      ensures c !in w[i].name
    {
      assert w[i].name == Names(w)[i];
    }
  }

  // ----- search_papers

  datatype SearchOutcome =
    | Searched(ids: seq<string>, dir: PapersDir)
    | SearchRaised

  /** A file that is missing or does not parse counts as no saved papers. */
  function PriorPapers(f: InfoFile): AssocList<string, PaperInfo> {
    if f.Saved? then f.papers else []
  }

  function PaperPairs(results: seq<Paper>): (kvs: seq<(string, PaperInfo)>)
    ensures |kvs| == |results|
  {
    seq(|results|, i requires 0 <= i < |results| => (results[i].shortId, results[i].info))
  }

  /** `search_papers(topic)`, where `results` is what arXiv returned: the
      folder is created if needed (it raises when a plain file has its name),
      every result is saved under its short id over the previously saved
      papers, and the ids come back in result order. */
  function SearchPapers(topic: string, results: seq<Paper>, dir: PapersDir): (r: SearchOutcome)
    requires PlainName(TopicDir(topic))
    ensures r.SearchRaised? <==> HasPlainFile(Entries(dir), TopicDir(topic))
    ensures r.Searched? ==> r.dir.Present?
    ensures r.Searched? ==> |r.ids| == |results| && forall i :: 0 <= i < |results| ==> r.ids[i] == results[i].shortId
  {
    var name := TopicDir(topic);
    var es := Entries(dir);
    if HasPlainFile(es, name) then SearchRaised
    else
      var saved := PutAll(PriorPapers(InfoAt(es, name)), PaperPairs(results));
      Searched(Keys(PaperPairs(results)), Present(WriteInfo(es, name, saved)))
  }

  /** After a search the topic's file holds, for each id, the fields of the
      last result with that id, and otherwise what it held before. */
  lemma SearchPapersStores(topic: string, results: seq<Paper>, dir: PapersDir, id: string)
    requires PlainName(TopicDir(topic))
    requires SearchPapers(topic, results, dir).Searched?
    ensures var f := InfoAt(SearchPapers(topic, results, dir).dir.entries, TopicDir(topic));
            var prior := PriorPapers(InfoAt(Entries(dir), TopicDir(topic)));
            var last := LastValue(PaperPairs(results), id);
            f.Saved? && Get(f.papers, id) == if last.Some? then last else Get(prior, id)
  {
    var name := TopicDir(topic);
    var prior := PriorPapers(InfoAt(Entries(dir), name));
    var saved := PutAll(prior, PaperPairs(results));
    WriteInfoAt(Entries(dir), name, saved, name);
    PutAllGet(prior, PaperPairs(results), id);
  }

  /** The previously saved ids keep their order and the new ones follow in
      order of first appearance; no id is saved twice. */
  lemma SearchPapersKeys(topic: string, results: seq<Paper>, dir: PapersDir)
    requires PlainName(TopicDir(topic))
    requires SearchPapers(topic, results, dir).Searched?
    ensures var r := SearchPapers(topic, results, dir);
            var f := InfoAt(r.dir.entries, TopicDir(topic));
            var prior := PriorPapers(InfoAt(Entries(dir), TopicDir(topic)));
            f.Saved? && Keys(f.papers) == AppendNew(Keys(prior), r.ids) &&
            (Valid(prior) ==> Valid(f.papers))
  {
    var name := TopicDir(topic);
    var prior := PriorPapers(InfoAt(Entries(dir), name));
    var saved := PutAll(prior, PaperPairs(results));
    WriteInfoAt(Entries(dir), name, saved, name);
    PutAllKeys(prior, PaperPairs(results));
  }

  /** Every id a search returns is saved in the topic's file. */
  lemma SearchPapersSavesIds(topic: string, results: seq<Paper>, dir: PapersDir, i: int)
    requires PlainName(TopicDir(topic))
    requires SearchPapers(topic, results, dir).Searched?
    requires 0 <= i < |results|
    ensures var f := InfoAt(SearchPapers(topic, results, dir).dir.entries, TopicDir(topic));
            f.Saved? && Get(f.papers, results[i].shortId).Some?
  {
    var id := results[i].shortId;
    SearchPapersStores(topic, results, dir, id);
    assert Keys(PaperPairs(results))[i] == id;
    LastValueFound(PaperPairs(results), id);
  }

  /** A search leaves every other folder as it was. */
  lemma SearchPapersElsewhere(topic: string, results: seq<Paper>, dir: PapersDir, n: string)
    requires PlainName(TopicDir(topic))
    requires SearchPapers(topic, results, dir).Searched?
    requires n != TopicDir(topic)
    ensures InfoAt(SearchPapers(topic, results, dir).dir.entries, n) == InfoAt(Entries(dir), n)
  {
    var name := TopicDir(topic);
    var saved := PutAll(PriorPapers(InfoAt(Entries(dir), name)), PaperPairs(results));
    WriteInfoAt(Entries(dir), name, saved, n);
  }

  /** A search keeps the directory free of duplicate names. */
  lemma SearchPapersUnique(topic: string, results: seq<Paper>, dir: PapersDir)
    requires PlainName(TopicDir(topic))
    requires SearchPapers(topic, results, dir).Searched?
    requires UniqueNames(Entries(dir))
    ensures UniqueNames(SearchPapers(topic, results, dir).dir.entries)
  {
    var name := TopicDir(topic);
    var saved := PutAll(PriorPapers(InfoAt(Entries(dir), name)), PaperPairs(results));
    WriteInfoUnique(Entries(dir), name, saved);
  }

  // ----- extract_info

  datatype Lookup =
    | Found(info: PaperInfo)
    | NotSaved(message: string)
    | LookupRaised

  /** The entry is a topic folder whose file parses and saves `id`. */
  predicate SavesPaper(e: DirEntry, id: string) {
    e.TopicFolder? && e.file.Saved? && id in Keys(e.file.papers)
  }

  /** `es[i]` is the first entry in listing order that saves `id`. */
  predicate FirstSaver(es: seq<DirEntry>, id: string, i: int) {
    0 <= i < |es| && SavesPaper(es[i], id) && forall j :: 0 <= j < i ==> !SavesPaper(es[j], id)
  }

  /** The fields saved for `id` by the first folder in listing order that saves it. */
  function FirstSaved(es: seq<DirEntry>, id: string): (r: Option<PaperInfo>)
    ensures r.None? <==> forall i :: 0 <= i < |es| ==> !SavesPaper(es[i], id)
    ensures r.Some? ==> exists i :: FirstSaver(es, id, i) && Get(es[i].file.papers, id) == r
    decreases |es|
  {
    if es == [] then None
    else if SavesPaper(es[0], id) then
      assert FirstSaver(es, id, 0);
      Get(es[0].file.papers, id)
    else
      var r := FirstSaved(es[1..], id);
      FirstSaverShift(es, id);
      r
  }

  /** Past an entry that does not save `id`, the search goes on in the rest. */
  lemma FirstSaverShift(es: seq<DirEntry>, id: string)
    requires es != [] && !SavesPaper(es[0], id)
    ensures forall i :: FirstSaver(es[1..], id, i) ==> FirstSaver(es, id, i + 1) && es[i + 1] == es[1..][i]
    ensures (forall i :: 0 <= i < |es[1..]| ==> !SavesPaper(es[1..][i], id)) ==>
              forall i :: 0 <= i < |es| ==> !SavesPaper(es[i], id)
  {
    forall i | FirstSaver(es[1..], id, i)
      ensures FirstSaver(es, id, i + 1) && es[i + 1] == es[1..][i]
    {
      forall j | 0 <= j < i + 1
        ensures !SavesPaper(es[j], id)
      {
        if j > 0 {
          assert es[j] == es[1..][j - 1];
        }
      }
    }
    if forall i :: 0 <= i < |es[1..]| ==> !SavesPaper(es[1..][i], id) {
      forall i | 0 <= i < |es|
        ensures !SavesPaper(es[i], id)
      {
        if i > 0 {
          assert es[i] == es[1..][i - 1];
        }
      }
    }
  }

  function NoInfoMessage(id: string): string {
    "There's no saved information related to paper " + id + "."
  }

  /** `extract_info(id)`: listing a missing `papers` directory raises; files
      that do not parse are skipped. */
  function ExtractInfo(id: string, dir: PapersDir): (r: Lookup)
    ensures r.LookupRaised? <==> dir.Missing?
    ensures r.NotSaved? ==> r.message == NoInfoMessage(id) &&
                            forall i :: 0 <= i < |dir.entries| ==> !SavesPaper(dir.entries[i], id)
    ensures r.Found? ==> exists i :: FirstSaver(dir.entries, id, i) &&
                           Get(dir.entries[i].file.papers, id) == Some(r.info)
  {
    if dir.Missing? then LookupRaised
    else match FirstSaved(dir.entries, id)
      case None => NotSaved(NoInfoMessage(id))
      case Some(info) => Found(info)
  }

  /** Every id a search returns can be looked up afterwards. */
  lemma SearchThenExtract(topic: string, results: seq<Paper>, dir: PapersDir, i: int)
    requires PlainName(TopicDir(topic))
    requires SearchPapers(topic, results, dir).Searched?
    requires 0 <= i < |results|
    ensures ExtractInfo(results[i].shortId, SearchPapers(topic, results, dir).dir).Found?
  {
    var id := results[i].shortId;
    var es := SearchPapers(topic, results, dir).dir.entries;
    SearchPapersSavesIds(topic, results, dir, i);
    var f := InfoAt(es, TopicDir(topic));
    var k :| 0 <= k < |es| && es[k] == TopicFolder(TopicDir(topic), f);
    assert SavesPaper(es[k], id);
  }

  // ----- papers://folders

  /** The entry is a topic folder holding a `papers_info.json`, readable or not. */
  predicate HoldsInfo(e: DirEntry) {
    e.TopicFolder? && e.file != NoInfoFile
  }

  /** The folders that hold a `papers_info.json`, in listing order. Every
      name listed is that of such a folder. */
  function ListedTopics(es: seq<DirEntry>): (ts: seq<string>)
    ensures |ts| <= |es|
    ensures forall t :: t in ts ==> exists j :: 0 <= j < |es| && HoldsInfo(es[j]) && es[j].name == t
    decreases |es|
  {
    if es == [] then []
    else
      var rest := ListedTopics(es[1..]);
      assert forall j :: 1 <= j < |es| ==> es[j] == es[1..][j - 1];
      (if HoldsInfo(es[0]) then [es[0].name] else []) + rest
  }

  /** Listing runs of entries one after the other lists them in that order. */
  lemma {:induction false} ListedTopicsAppend(a: seq<DirEntry>, b: seq<DirEntry>)
    ensures ListedTopics(a + b) == ListedTopics(a) + ListedTopics(b)
    decreases |a|
  {
    if a == [] {
      assert a + b == b;
    } else {
      var e, rest := a[0], a[1..];
      var h := if HoldsInfo(e) then [e.name] else [];
      assert a == [e] + rest;
      assert a + b == [e] + (rest + b);
      ListedTopicsCons(e, rest);
      ListedTopicsCons(e, rest + b);
      ListedTopicsAppend(rest, b);
      Regroup(h, ListedTopics(rest), ListedTopics(b));
    }
  }

  /** Proof step only: one unfolding of `ListedTopics`. */
  lemma ListedTopicsCons(e: DirEntry, rest: seq<DirEntry>)
    ensures ListedTopics([e] + rest) == (if HoldsInfo(e) then [e.name] else []) + ListedTopics(rest)
  {
    assert ([e] + rest)[1..] == rest;
  }

  /** A folder whose file exists is listed. */
  lemma {:induction false} ListedTopicsHas(es: seq<DirEntry>, name: string)
    requires InfoAt(es, name) != NoInfoFile
    ensures name in ListedTopics(es)
    decreases |es|
  {
    if !(es[0].TopicFolder? && es[0].name == name) {
      ListedTopicsHas(es[1..], name);
    }
  }

  lemma {:induction false} ListedTopicsWithout(es: seq<DirEntry>, c: char)
    requires NamesWithout(es, c)
    ensures forall i :: 0 <= i < |ListedTopics(es)| ==> c !in ListedTopics(es)[i]
    decreases |es|
  {
    if es != [] {
      ListedTopicsWithout(es[1..], c);
    }
  }

  function TopicBullets(ts: seq<string>): string
    decreases |ts|
  {
    if ts == [] then "" else "- " + ts[0] + "\n" + TopicBullets(ts[1..])
  }

  const TopicsHeading := "# Available Topics\n\n"

  /** The closing hint, which names the last topic listed. */
  function UseLine(last: string): string {
    "Use @" + last + " to access papers in that topic."
  }

  /** The markdown listing: one `- name` line per topic, then a hint naming the last. */
  function RenderTopics(ts: seq<string>): string {
    if ts == [] then TopicsHeading + NoTopicsLine + "\n"
    else TopicsHeading + TopicBullets(ts) + "\n" + UseLine(ts[|ts| - 1]) + "\n"
  }

  /** `get_available_folders()`: when no folder name spans lines, reading
      the page back gives exactly the folders holding an info file, in
      listing order. */
  function AvailableFolders(dir: PapersDir): (page: string)
    ensures var ts := ListedTopics(Entries(dir));
            (forall i :: 0 <= i < |ts| ==> '\n' !in ts[i]) ==> DecodeTopics(page) == ts
  {
    var ts := ListedTopics(Entries(dir));
    if forall i :: 0 <= i < |ts| ==> '\n' !in ts[i] then
      RenderTopicsRoundTrip(ts);
      RenderTopics(ts)
    else RenderTopics(ts)
  }

  /** Reading a listing back: the `- ` lines with the marker removed. */
  function DecodeTopics(content: string): seq<string> {
    var bullets := LinesWithPrefix(SplitLines(content), "- ");
    seq(|bullets|, i requires 0 <= i < |bullets| => bullets[i][2..])
  }

  function BulletLines(ts: seq<string>): seq<string>
    decreases |ts|
  {
    if ts == [] then [] else ["- " + ts[0]] + BulletLines(ts[1..])
  }

  lemma {:induction false} BulletLinesAt(ts: seq<string>)
    ensures |BulletLines(ts)| == |ts|
    ensures forall i :: 0 <= i < |ts| ==> BulletLines(ts)[i] == "- " + ts[i]
    decreases |ts|
  {
    if ts != [] {
      BulletLinesAt(ts[1..]);
    }
  }

  /** The bullets followed by `rest`. */
  function BulletsThen(ts: seq<string>, rest: string): string
    decreases |ts|
  {
    if ts == [] then rest else "- " + ts[0] + "\n" + BulletsThen(ts[1..], rest)
  }

  lemma {:induction false} BulletsThenAppend(ts: seq<string>, rest: string)
    ensures TopicBullets(ts) + rest == BulletsThen(ts, rest)
    decreases |ts|
  {
    if ts == [] {
      assert TopicBullets(ts) + rest == rest;
    } else {
      BulletsThenAppend(ts[1..], rest);
      assert TopicBullets(ts) + rest == "- " + ts[0] + "\n" + (TopicBullets(ts[1..]) + rest);
    }
  }

  /** No topic name spans more than one line (stated by recursion, which
      keeps the line-splitting proofs below cheap). */
  predicate OneLineEach(ts: seq<string>)
    decreases |ts|
  {
    ts == [] || ('\n' !in ts[0] && OneLineEach(ts[1..]))
  }

  lemma {:induction false} OneLineEachAll(ts: seq<string>)
    requires forall i :: 0 <= i < |ts| ==> '\n' !in ts[i]
    ensures OneLineEach(ts)
    decreases |ts|
  {
    if ts != [] {
      assert forall i :: 0 <= i < |ts[1..]| ==> ts[1..][i] == ts[i + 1];
      OneLineEachAll(ts[1..]);
    }
  }

  lemma {:induction false} BulletsThenLines(ts: seq<string>, rest: string)
    requires OneLineEach(ts)
    ensures SplitLines(BulletsThen(ts, rest)) == BulletLines(ts) + SplitLines(rest)
    decreases |ts|
  {
    if ts != [] {
      assert '\n' !in "- ";
      SplitLinesCons("- " + ts[0], BulletsThen(ts[1..], rest));
      BulletsThenLines(ts[1..], rest);
      var b, bs, tail := "- " + ts[0], BulletLines(ts[1..]), SplitLines(rest);
      assert [b] + (bs + tail) == ([b] + bs) + tail;
    }
  }

  lemma TopicBulletsLines(ts: seq<string>, rest: string)
    requires OneLineEach(ts)
    ensures SplitLines(TopicBullets(ts) + rest) == BulletLines(ts) + SplitLines(rest)
  {
    BulletsThenAppend(ts, rest);
    BulletsThenLines(ts, rest);
  }

  const TopicsTitle := "# Available Topics"
  const NoTopicsLine := "No topics found."

  lemma ListingLiterals()
    ensures '\n' !in TopicsTitle && !StartsWith(TopicsTitle, "- ")
    ensures '\n' !in NoTopicsLine && !StartsWith(NoTopicsLine, "- ")
    ensures !StartsWith("", "- ")
    ensures TopicsHeading == TopicsTitle + "\n" + "" + "\n"
  {
    assert forall k :: 0 <= k < |TopicsTitle| ==> TopicsTitle[k] != '\n';
    assert forall k :: 0 <= k < |NoTopicsLine| ==> NoTopicsLine[k] != '\n';
    assert TopicsTitle[0] == '#' && NoTopicsLine[0] == 'N';
  }

  lemma UseLineSingle(last: string)
    requires '\n' !in last
    ensures '\n' !in UseLine(last) && !StartsWith(UseLine(last), "- ")
  {
    var a := "Use @";
    var b := " to access papers in that topic.";
    assert forall k :: 0 <= k < |a| ==> a[k] != '\n';
    assert forall k :: 0 <= k < |b| ==> b[k] != '\n';
    assert UseLine(last) == a + last + b;
    assert UseLine(last)[0] == 'U';
  }

  /** The lines of the listing when no topic exists. */
  lemma EmptyListingLines()
    ensures SplitLines(RenderTopics([])) == [TopicsTitle, "", NoTopicsLine, ""]
  {
    ListingLiterals();
    var rest := NoTopicsLine + "\n" + "";
    assert RenderTopics([]) == TopicsHeading + rest;
    HeadingLines(rest);
    SplitLinesCons(NoTopicsLine, "");
  }

  lemma HeadingLines(rest: string)
    ensures SplitLines(TopicsHeading + rest) == [TopicsTitle, ""] + SplitLines(rest)
  {
    ListingLiterals();
    TwoLineHead(TopicsHeading, TopicsTitle, rest);
  }

  lemma TwoLineHead(h: string, t: string, rest: string)
    requires '\n' !in t && h == t + "\n" + "" + "\n"
    ensures SplitLines(h + rest) == [t, ""] + SplitLines(rest)
  {
    var r1 := "" + "\n" + rest;
    RegroupHeading(h, t, "\n", rest);
    SplitLinesCons(t, r1);
    SplitLinesCons("", rest);
    Regroup([t], [""], SplitLines(rest));
  }

  /** Proof step only: regroups a concatenation; it states nothing about the server. */
  lemma RegroupHeading(h: string, t: string, nl: string, rest: string)
    requires h == t + nl + "" + nl
    ensures h + rest == t + nl + ("" + nl + rest)
  {
  }

  lemma FooterLines(u: string)
    requires '\n' !in u
    ensures SplitLines("\n" + u + "\n") == ["", u, ""]
  {
    assert "\n" + u + "\n" == "" + "\n" + (u + "\n" + "");
    SplitLinesCons("", u + "\n" + "");
    SplitLinesCons(u, "");
  }

  /** Proof step only: regroups a concatenation; it states nothing about the server. */
  lemma RegroupListing(h: string, bullets: string, u: string)
    ensures h + bullets + "\n" + u + "\n" == h + (bullets + ("\n" + u + "\n"))
  {
  }

  lemma ListingPiecesLines(ts: seq<string>, u: string)
    requires OneLineEach(ts) && '\n' !in u
    ensures SplitLines(TopicsHeading + (TopicBullets(ts) + ("\n" + u + "\n"))) ==
            [TopicsTitle, ""] + BulletLines(ts) + ["", u, ""]
  {
    var footer := "\n" + u + "\n";
    var bullets := TopicBullets(ts);
    HeadingLines(bullets + footer);
    TopicBulletsLines(ts, footer);
    FooterLines(u);
    Regroup([TopicsTitle, ""], BulletLines(ts), ["", u, ""]);
  }

  /** The lines of the listing: title, blank, one bullet per topic, blank, hint, and
      the empty piece after the final line feed. */
  lemma ListingLines(ts: seq<string>)
    requires ts != [] && OneLineEach(ts) && '\n' !in ts[|ts| - 1]
    ensures SplitLines(RenderTopics(ts)) ==
            [TopicsTitle, ""] + BulletLines(ts) + ["", UseLine(ts[|ts| - 1]), ""]
  {
    var u := UseLine(ts[|ts| - 1]);
    UseLineSingle(ts[|ts| - 1]);
    RegroupListing(TopicsHeading, TopicBullets(ts), u);
    ListingPiecesLines(ts, u);
  }

  lemma BulletsBetween(hs: seq<string>, bs: seq<string>, fs: seq<string>, prefix: string)
    requires LinesWithPrefix(hs, prefix) == [] && LinesWithPrefix(fs, prefix) == []
    requires forall i :: 0 <= i < |bs| ==> StartsWith(bs[i], prefix)
    ensures LinesWithPrefix(hs + bs + fs, prefix) == bs
  {
    LinesWithPrefixAppend(hs + bs, fs, prefix);
    LinesWithPrefixAppend(hs, bs, prefix);
    LinesWithPrefixAll(bs, prefix);
  }

  lemma NonEmptyListingBullets(ts: seq<string>)
    requires ts != [] && OneLineEach(ts) && '\n' !in ts[|ts| - 1]
    ensures LinesWithPrefix(SplitLines(RenderTopics(ts)), "- ") == BulletLines(ts)
  {
    var u := UseLine(ts[|ts| - 1]);
    ListingLines(ts);
    UseLineSingle(ts[|ts| - 1]);
    HeadAndFootNoBullets(u);
    BulletLinesStart(ts);
    BulletsBetween([TopicsTitle, ""], BulletLines(ts), ["", u, ""], "- ");
  }

  lemma BulletLinesStart(ts: seq<string>)
    ensures forall i :: 0 <= i < |BulletLines(ts)| ==> StartsWith(BulletLines(ts)[i], "- ")
  {
    BulletLinesAt(ts);
    forall i | 0 <= i < |ts|
      ensures StartsWith(BulletLines(ts)[i], "- ")
    {
      assert BulletLines(ts)[i][..2] == "- ";
    }
  }

  lemma HeadAndFootNoBullets(u: string)
    requires !StartsWith(u, "- ")
    ensures LinesWithPrefix([TopicsTitle, ""], "- ") == []
    ensures LinesWithPrefix(["", u, ""], "- ") == []
  {
    var hs, fs := [TopicsTitle, ""], ["", u, ""];
    ListingLiterals();
    NoneWithPrefix4(TopicsTitle, "", "", u, "- ");
    assert [TopicsTitle, "", "", u] == hs + ["", u];
    LinesWithPrefixAppend(hs, ["", u], "- ");
    NoneWithPrefix4("", u, "", "", "- ");
    assert ["", u, "", ""] == fs + [""];
    LinesWithPrefixAppend(fs, [""], "- ");
  }

  lemma NoneWithPrefix4(a: string, b: string, d: string, e: string, prefix: string)
    requires !StartsWith(a, prefix) && !StartsWith(b, prefix)
    requires !StartsWith(d, prefix) && !StartsWith(e, prefix)
    ensures LinesWithPrefix([a, b, d, e], prefix) == []
  {
    var ls := [a, b, d, e];
    forall i | 0 <= i < |ls|
      ensures !StartsWith(ls[i], prefix)
    {
      if i == 0 {} else if i == 1 {} else if i == 2 {} else {}
    }
    LinesWithPrefixNone(ls, prefix);
  }

  lemma EmptyListingBullets()
    ensures LinesWithPrefix(SplitLines(RenderTopics([])), "- ") == []
  {
    ListingLiterals();
    EmptyListingLines();
    NoneWithPrefix4(TopicsTitle, "", NoTopicsLine, "", "- ");
  }

  /** Only the bullets of a listing start with `- `. */
  lemma ListingBullets(ts: seq<string>)
    requires forall i :: 0 <= i < |ts| ==> '\n' !in ts[i]
    ensures LinesWithPrefix(SplitLines(RenderTopics(ts)), "- ") == BulletLines(ts)
  {
    if ts == [] {
      EmptyListingBullets();
    } else {
      OneLineEachAll(ts);
      NonEmptyListingBullets(ts);
    }
  }

  /** The listing reads back as exactly the topics it was made from, in order. */
  lemma RenderTopicsRoundTrip(ts: seq<string>)
    requires forall i :: 0 <= i < |ts| ==> '\n' !in ts[i]
    ensures DecodeTopics(RenderTopics(ts)) == ts
  {
    ListingBullets(ts);
    BulletLinesAt(ts);
    assert forall i :: 0 <= i < |ts| ==> BulletLines(ts)[i][2..] == ts[i];
  }

  /** After a search its folder appears in the listing. */
  lemma SearchThenListed(topic: string, results: seq<Paper>, dir: PapersDir)
    requires PlainName(TopicDir(topic))
    requires SearchPapers(topic, results, dir).Searched?
    requires NamesWithout(Entries(dir), '\n') && '\n' !in topic
    ensures TopicDir(topic) in DecodeTopics(AvailableFolders(SearchPapers(topic, results, dir).dir))
  {
    var name := TopicDir(topic);
    var saved := PutAll(PriorPapers(InfoAt(Entries(dir), name)), PaperPairs(results));
    var es := WriteInfo(Entries(dir), name, saved);
    assert Entries(SearchPapers(topic, results, dir).dir) == es;
    assert name in ListedTopics(es) by {
      WriteInfoAt(Entries(dir), name, saved, name);
      ListedTopicsHas(es, name);
    }
    assert '\n' !in name by {
      assert forall k :: 0 <= k < |name| ==> name[k] == if topic[k] == ' ' then '_' else LowerChar(topic[k]);
    }
    assert forall i :: 0 <= i < |ListedTopics(es)| ==> '\n' !in ListedTopics(es)[i] by {
      WriteInfoNamesWithout(Entries(dir), name, saved, '\n');
      ListedTopicsWithout(es, '\n');
    }
  }

  // ----- papers://{topic}

  /** `s.title()` on ASCII letters: a letter is upper case exactly when it
      does not follow another letter. */
  function TitleCase(s: string): (r: string)
    ensures |r| == |s|
  {
    seq(|s|, i requires 0 <= i < |s| =>
      if i > 0 && IsLetter(s[i - 1]) then LowerChar(s[i]) else UpperChar(s[i]))
  }

  const NoPapersHead := "# No papers found for topic: "
  const NoFileHint := "\n\nTry searching for papers on this topic first."
  const ErrorHead := "# Error reading papers data for "
  const CorruptHint := "\n\nThe papers data file is corrupted."

  function NotFoundText(topic: string): string {
    NoPapersHead + topic + NoFileHint
  }

  function CorruptText(topic: string): string {
    ErrorHead + topic + CorruptHint
  }

  function TitleLine(title: string): string {
    "## " + title + "\n"
  }

  function IdLine(id: string): string {
    "- **Paper ID**: " + id + "\n"
  }

  function DetailLines(info: PaperInfo): string {
    "- **Authors**: " + Join(info.authors, ", ") + "\n"
    + "- **Published**: " + info.published + "\n"
    + "- **PDF URL**: [" + info.pdfUrl + "](" + info.pdfUrl + ")\n\n"
  }

  /** The summary paragraph: at most the first 500 characters, then `...`. */
  function SummaryBlock(summary: string): string {
    "### Summary\n" + Take(summary, 500) + "...\n\n"
  }

  const SectionRule := "---\n\n"

  /** The markdown block for one saved paper. */
  function PaperSection(id: string, info: PaperInfo): string {
    TitleLine(info.title) + IdLine(id) + DetailLines(info) + SummaryBlock(info.summary) + SectionRule
  }

  /** A paper's block opens with its title line, then holds its id line and
      its summary block, in that order. */
  lemma PaperSectionParts(id: string, info: PaperInfo)
    ensures StartsWith(PaperSection(id, info), TitleLine(info.title))
    ensures OccursAt(IdLine(id), PaperSection(id, info), |TitleLine(info.title)|)
    ensures IsInfix(SummaryBlock(info.summary), PaperSection(id, info))
  {
    var t, i, d, b, f := TitleLine(info.title), IdLine(id), DetailLines(info), SummaryBlock(info.summary), SectionRule;
    GroupFive(t, i, d, b, f);
    StartsWithConcat(t, i + d + b + f);
    MiddleOccurs(t, i, d + b + f);
    MiddleOccurs(t + i + d, b, f);
  }

  /** Proof step only: regroups a concatenation; it states nothing about the server. */
  lemma GroupFive(t: string, i: string, d: string, b: string, f: string)
    ensures t + i + d + b + f == t + (i + d + b + f)
    ensures t + i + d + b + f == t + i + (d + b + f)
  {
  }

  function PaperSections(ps: AssocList<string, PaperInfo>): string
    decreases |ps|
  {
    if ps == [] then "" else PaperSection(ps[0].0, ps[0].1) + PaperSections(ps[1..])
  }

  /** One block per saved paper, in the file's order. */
  lemma {:induction false} PaperSectionsAppend(a: AssocList<string, PaperInfo>, b: AssocList<string, PaperInfo>)
    ensures PaperSections(a + b) == PaperSections(a) + PaperSections(b)
    decreases |a|
  {
    if a == [] {
      assert a + b == b;
    } else {
      assert (a + b)[1..] == a[1..] + b;
      PaperSectionsAppend(a[1..], b);
    }
  }

  /** Entry `i` of a saved dictionary has its block in place: after the
      blocks of the entries before it and before those of the entries after. */
  lemma PaperSectionsSplit(ps: AssocList<string, PaperInfo>, i: int)
    requires 0 <= i < |ps|
    ensures PaperSections(ps) == PaperSections(ps[..i]) + PaperSection(ps[i].0, ps[i].1) + PaperSections(ps[i + 1..])
  {
    var pre, x, post := ps[..i], ps[i], ps[i + 1..];
    SplitAround(ps, i);
    PaperSectionsAppend(pre, [x] + post);
    PaperSectionsAppend([x], post);
    PaperSectionsOne(x);
    Regroup(PaperSections(pre), PaperSection(x.0, x.1), PaperSections(post));
  }

  /** Proof step only: cuts a sequence around one element; it states nothing about the server. */
  lemma SplitAround<T>(s: seq<T>, i: int)
    requires 0 <= i < |s|
    ensures s == s[..i] + ([s[i]] + s[i + 1..])
  {
  }

  lemma PaperSectionsOne(x: (string, PaperInfo))
    ensures PaperSections([x]) == PaperSection(x.0, x.1)
  {
    assert [x][1..] == [];
  }

  const TotalPrefix := "Total papers: "

  function PapersTitle(topic: string): string {
    "# Papers on " + TitleCase(ReplaceChar(topic, '_', ' '))
  }

  /** `get_topic_papers(topic)`. The three kinds of page are told apart by
      how they open: the not-found page exactly when no info file is saved
      for the topic, the corrupt-data page exactly when the file does not
      parse. */
  function TopicPapers(topic: string, dir: PapersDir): (page: string)
    ensures StartsWith(page, NoPapersHead) <==> InfoAt(Entries(dir), TopicDir(topic)).NoInfoFile?
    ensures StartsWith(page, ErrorHead) <==> InfoAt(Entries(dir), TopicDir(topic)).Corrupt?
  {
    match InfoAt(Entries(dir), TopicDir(topic))
    case NoInfoFile =>
      OpensWith(NoPapersHead, topic, NoFileHint);
      NotFoundText(topic)
    case Corrupt =>
      OpensWith(ErrorHead, topic, CorruptHint);
      CorruptText(topic)
    case Saved(ps) =>
      OpensWith("# Papers on ", TitleCase(ReplaceChar(topic, '_', ' ')), CountAndSections(ps));
      assert NoPapersHead[2] != 'P' && ErrorHead[2] != 'P';
      PapersTitle(topic) + CountAndSections(ps)
  }

  /** Everything after a saved topic's title line. */
  function CountAndSections(ps: AssocList<string, PaperInfo>): string {
    "\n\n" + TotalPrefix + NatToString(|ps|) + "\n\n" + PaperSections(ps)
  }

  /** Reading the paper count back from a `Total papers: ` line. */
  function ReadTotal(line: string): Option<nat> {
    if StartsWith(line, TotalPrefix) && forall i :: |TotalPrefix| <= i < |line| ==> IsDigit(line[i])
    then Some(ParseNat(line[|TotalPrefix|..]))
    else None
  }

  /** The third line of a topic's page reads back as the number of saved papers. */
  lemma TopicPapersCount(topic: string, dir: PapersDir)
    requires InfoAt(Entries(dir), TopicDir(topic)).Saved?
    requires '\n' !in topic
    ensures var ls := SplitLines(TopicPapers(topic, dir));
            |ls| > 2 && ReadTotal(ls[2]) == Some(|InfoAt(Entries(dir), TopicDir(topic)).papers|)
  {
    var ps := InfoAt(Entries(dir), TopicDir(topic)).papers;
    var digits := NatToString(|ps|);
    PapersTitleOneLine(topic);
    assert '\n' !in digits by {
      assert forall k :: 0 <= k < |digits| ==> digits[k] != '\n';
    }
    CountLineAt(PapersTitle(topic), digits, PaperSections(ps));
    ReadTotalBack(|ps|);
  }

  lemma PapersTitleOneLine(topic: string)
    requires '\n' !in topic
    ensures '\n' !in PapersTitle(topic)
  {
    var a := "# Papers on ";
    var b := TitleCase(ReplaceChar(topic, '_', ' '));
    assert forall k :: 0 <= k < |a| ==> a[k] != '\n';
    assert forall k :: 0 <= k < |b| ==> b[k] != '\n' by {
      forall k | 0 <= k < |b|
        ensures b[k] != '\n'
      {
        assert topic[k] != '\n';
      }
    }
    assert PapersTitle(topic) == a + b;
  }

  /** The third line of a page `t`, blank, `Total papers: digits`, blank, body. */
  lemma CountLineAt(t: string, digits: string, body: string)
    requires '\n' !in t && '\n' !in digits
    ensures var ls := SplitLines(t + ("\n\n" + TotalPrefix + digits + "\n\n" + body));
            |ls| > 2 && ls[2] == TotalPrefix + digits
  {
    var total := TotalPrefix + digits;
    assert '\n' !in TotalPrefix;
    NotInConcat(TotalPrefix, digits, '\n');
    var rest := "" + "\n" + body;
    assert "\n\n" == "\n" + "\n";
    RegroupCountPage(t, "\n\n", TotalPrefix, digits, body, "\n");
    SplitLinesCons(t, "" + "\n" + (total + "\n" + rest));
    SplitLinesCons("", total + "\n" + rest);
    SplitLinesCons(total, rest);
  }

  /** Proof step only: regroups a concatenation; it states nothing about the server. */
  lemma RegroupCountPage(t: string, nl2: string, pre: string, digits: string, body: string, nl: string)
    requires nl2 == nl + nl
    ensures t + (nl2 + pre + digits + nl2 + body) == t + nl + ("" + nl + ((pre + digits) + nl + ("" + nl + body)))
  {
  }

  /** A written count reads back as itself. */
  lemma ReadTotalBack(n: nat)
    ensures ReadTotal(TotalPrefix + NatToString(n)) == Some(n)
  {
    var digits := NatToString(n);
    var line := TotalPrefix + digits;
    StartsWithConcat(TotalPrefix, digits);
    assert line[|TotalPrefix|..] == digits;
    assert forall i :: |TotalPrefix| <= i < |line| ==> IsDigit(line[i]) by {
      forall i | |TotalPrefix| <= i < |line|
        ensures IsDigit(line[i])
      {
        assert line[i] == digits[i - |TotalPrefix|];
      }
    }
    ParseNatToString(n);
  }

  /** A saved topic's page ends with the blocks of its papers, so together
      with `PaperSectionsSplit` every saved entry has its block, in order. */
  lemma TopicPapersSections(topic: string, dir: PapersDir)
    requires InfoAt(Entries(dir), TopicDir(topic)).Saved?
    ensures var page, body := TopicPapers(topic, dir), PaperSections(InfoAt(Entries(dir), TopicDir(topic)).papers);
            |body| <= |page| && page[|page| - |body|..] == body
  {
    var ps := InfoAt(Entries(dir), TopicDir(topic)).papers;
    var head := "\n\n" + TotalPrefix + NatToString(|ps|) + "\n\n";
    Regroup(PapersTitle(topic), head, PaperSections(ps));
    EndsWithConcat(PapersTitle(topic) + head, PaperSections(ps));
  }

  /** Proof step only: the tail of a concatenation; it states nothing about the server. */
  lemma EndsWithConcat(a: string, b: string)
    ensures (a + b)[|a + b| - |b|..] == b
  {
  }

  /** A page `head + x + tail` opens with `head`, and so with none of the
      other openings, which differ from it at their third character. */
  lemma OpensWith(head: string, x: string, tail: string)
    requires |head| > 2
    ensures StartsWith(head + x + tail, head)
    ensures (head + x + tail)[2] == head[2]
  {
    assert (head + x + tail)[..|head|] == head;
  }

  /** Reading a topic right after searching it reports every id saved there:
      the old ones and the new ones together. */
  lemma SearchThenTopicPapers(topic: string, results: seq<Paper>, dir: PapersDir, asked: string)
    requires PlainName(TopicDir(topic))
    requires SearchPapers(topic, results, dir).Searched?
    requires TopicDir(asked) == TopicDir(topic) && '\n' !in asked
    ensures var r := SearchPapers(topic, results, dir);
            var prior := PriorPapers(InfoAt(Entries(dir), TopicDir(topic)));
            var ls := SplitLines(TopicPapers(asked, r.dir));
            |ls| > 2 && ReadTotal(ls[2]) == Some(|AppendNew(Keys(prior), r.ids)|)
  {
    var r := SearchPapers(topic, results, dir);
    SearchPapersKeys(topic, results, dir);
    TopicPapersCount(asked, r.dir);
  }

  // ----- generate_search_prompt

  const Indent := "                "
  const ItemIndent := Indent + "    "

  /** The tool call the prompt tells the model to make. */
  function SearchCall(topic: string, n: string): string {
    "search_papers(topic='" + topic + "', max_results=" + n + ")"
  }

  function SearchOpening(topic: string, n: string): string {
    " Search for " + n + " academic papers about '" + topic + "'"
  }

  /** The lines of the prompt, which joined with line feeds make the prompt. */
  function PromptLines(topic: string, n: string): seq<string> {
    [ SearchOpening(topic, n) + " using the search_papers tool.",
      Indent + "Follow these instructions:",
      Indent + "1. First, search for papers using " + SearchCall(topic, n)
    ] + PromptSteps(topic)
  }

  /** The lines after the tool call: what to extract and how to present it. */
  function PromptSteps(topic: string): seq<string> {
    [ Indent + "2. For each paper found, extract and organize the following information:",
      ItemIndent + "- Paper title",
      ItemIndent + "- Authors",
      ItemIndent + "- Publication date",
      ItemIndent + "- Brief summary of the key findings",
      ItemIndent + "- Main contributions or innovations",
      ItemIndent + "- Methodologies used",
      ItemIndent + "- Relevance to the topic '" + topic + "'",
      Indent + "3. Provide a comprehensive summary that includes:",
      ItemIndent + "- Overview of the current state of research in '" + topic + "'",
      ItemIndent + "- Common themes and trends across the papers",
      ItemIndent + "- Key research gaps or areas for future investigation",
      ItemIndent + "- Most impactful or influential papers in this area",
      Indent + "4. Organize your findings in a clear, structured format with headings and bullet points for easy readability.",
      "",
      Indent + "Please present both detailed information about each paper and a high-level synthesis of the research landscape in " + topic + "."
    ]
  }

  /** `generate_search_prompt(topic, num_papers)`: `num_papers` defaults to 5.
      The prompt opens by asking for that many papers on the topic, and it
      spells out the `search_papers` call with the same topic and count. */
  function GenerateSearchPrompt(topic: string, numPapers: int := 5): (prompt: string)
    ensures StartsWith(prompt, SearchOpening(topic, IntToString(numPapers)))
    ensures IsInfix(SearchCall(topic, IntToString(numPapers)), prompt)
  {
    var n := IntToString(numPapers);
    PromptOpens(topic, n);
    PromptNamesCall(topic, n);
    Join(PromptLines(topic, n), "\n")
  }

  lemma ThreeThenJoin(a: string, b: string, d: string, rest: seq<string>)
    requires rest != []
    ensures Join([a, b, d] + rest, "\n") == a + "\n" + (b + "\n" + (d + "\n" + Join(rest, "\n")))
  {
    var ls := [a, b, d] + rest;
    JoinCons(ls, "\n");
    assert ls[1..] == [b, d] + rest;
    JoinCons(ls[1..], "\n");
    assert ls[1..][1..] == [d] + rest;
    JoinCons(ls[1..][1..], "\n");
    assert ls[1..][1..][1..] == rest;
  }

  /** Proof step only: regroups a concatenation; it states nothing about the server. */
  lemma RegroupThirdLine(a: string, b: string, pre: string, call: string, rest: string)
    ensures a + "\n" + (b + "\n" + ((pre + call) + "\n" + rest)) ==
            (a + "\n" + b + "\n" + pre) + call + ("\n" + rest)
  {
  }

  lemma PromptOpens(topic: string, n: string)
    ensures StartsWith(Join(PromptLines(topic, n), "\n"), SearchOpening(topic, n))
  {
    var ls := PromptLines(topic, n);
    JoinCons(ls, "\n");
    StartsWithConcat(SearchOpening(topic, n), " using the search_papers tool.");
    PrefixOfConcat(ls[0], "\n", SearchOpening(topic, n));
    PrefixOfConcat(ls[0] + "\n", Join(ls[1..], "\n"), SearchOpening(topic, n));
  }

  lemma PromptNamesCall(topic: string, n: string)
    ensures IsInfix(SearchCall(topic, n), Join(PromptLines(topic, n), "\n"))
  {
    var pre, call := Indent + "1. First, search for papers using ", SearchCall(topic, n);
    var a, b, steps := SearchOpening(topic, n) + " using the search_papers tool.", Indent + "Follow these instructions:", PromptSteps(topic);
    ThreeThenJoin(a, b, pre + call, steps);
    RegroupThirdLine(a, b, pre, call, Join(steps, "\n"));
    MiddleOccurs(a + "\n" + b + "\n" + pre, call, "\n" + Join(steps, "\n"));
  }

  lemma ReadAfter(p: string, pre: string, digits: string, post: string)
    requires StartsWith(p, pre + digits + post)
    ensures |pre| + |digits| <= |p| && p[|pre|..|pre| + |digits|] == digits
  {
    assert p[|pre|..|pre| + |digits|] == (pre + digits + post)[|pre|..|pre| + |digits|];
  }

  /** The number of papers asked for reads back from the opening sentence. */
  lemma SearchPromptCount(topic: string, numPapers: nat)
    ensures var p := GenerateSearchPrompt(topic, numPapers);
            var digits := NatToString(numPapers);
            12 + |digits| <= |p| && p[12..12 + |digits|] == digits &&
            ParseNat(p[12..12 + |digits|]) == numPapers
  {
    var p := GenerateSearchPrompt(topic, numPapers);
    var digits := NatToString(numPapers);
    var post := " academic papers about '" + topic + "'";
    assert IntToString(numPapers) == digits;
    OpeningParts(topic, digits, post);
    ReadAfter(p, " Search for ", digits, post);
    ParseNatToString(numPapers);
  }

  /** Proof step only: the opening sentence around the count. */
  lemma OpeningParts(topic: string, digits: string, post: string)
    requires post == " academic papers about '" + topic + "'"
    ensures SearchOpening(topic, digits) == " Search for " + digits + post
  {
  }

  /** Without an argument the prompt asks for 5 papers. */
  lemma SearchPromptDefault(topic: string)
    ensures StartsWith(GenerateSearchPrompt(topic), SearchOpening(topic, "5"))
  {
    var p := GenerateSearchPrompt(topic, 5);
    FiveDigits();
  }

  /** Proof step only: the literal rendering of the default count. */
  lemma FiveDigits()
    ensures IntToString(5) == "5"
  {
  }
}

=== FILE: registry.dfy ===
/**
 The chatbot's capability registry: the one `sessions` dictionary that maps
 every tool name, prompt name and resource URI to the MCP session that
 offers it, together with the `available_tools` and `available_prompts`
 descriptor lists, and the resolution of resource URIs against it.
 */
module Registry {
  import opened Options
  import opened Strings
  import opened AssocLists

  /** An initialized MCP client session. The chatbot only ever compares and
      forwards sessions, so a session is its identity. */
  datatype SessionRef = SessionRef(id: nat)

  /** A tool descriptor as sent to the model (`name`, `description`, `input_schema`);
      the schema is JSON text the chatbot never inspects. */
  datatype Tool = Tool(name: string, description: string, inputSchema: string)

  datatype PromptArgument = PromptArgument(name: string, description: string, required: bool)

  datatype Prompt = Prompt(name: string, description: string, arguments: seq<PromptArgument>)

  /** The outcome of one `list_tools`, `list_prompts` or `list_resources`
      call: the items listed, or an exception. */
  datatype Listing<T> = Listed(items: seq<T>) | ListingRaised

  /** The chatbot's registry state. `sessions` is shared by all three kinds of
      capability; the descriptor lists only ever grow. */
  datatype Client = Client(
    sessions: AssocList<string, SessionRef>,
    availableTools: seq<Tool>,
    availablePrompts: seq<Prompt>)

  /** The registry invariant the dictionary guarantees: each key once. */
  predicate ValidClient(c: Client) {
    Valid(c.sessions)
  }

  function ToolNames(ts: seq<Tool>): seq<string> {
    seq(|ts|, i requires 0 <= i < |ts| => ts[i].name)
  }

  function PromptNames(ps: seq<Prompt>): seq<string> {
    seq(|ps|, i requires 0 <= i < |ps| => ps[i].name)
  }

  /** One assignment `sessions[name] = s` per name, in order. */
  function Bind(names: seq<string>, s: SessionRef): seq<(string, SessionRef)> {
    seq(|names|, i requires 0 <= i < |names| => (names[i], s))
  }

  /** The keys one load assigns: tool names, then prompt names, then resource
      URIs, each group reached only if the listings before it did not raise. */
  function LoadedNames(tools: Listing<Tool>, prompts: Listing<Prompt>, resources: Listing<string>): seq<string> {
    match tools
    case ListingRaised => []
    case Listed(ts) =>
      ToolNames(ts) +
      match prompts
      case ListingRaised => []
      case Listed(ps) =>
        PromptNames(ps) +
        match resources
        case ListingRaised => []
        case Listed(us) => us
  }

  /** The `for tool in tools` loop of a load. */
  function RegisterTools(c: Client, s: SessionRef, ts: seq<Tool>): (r: Client)
    ensures r.availableTools == c.availableTools + ts && r.availablePrompts == c.availablePrompts
  {
    c.(sessions := PutAll(c.sessions, Bind(ToolNames(ts), s)), availableTools := c.availableTools + ts)
  }

  /** The `for prompt in prompts` loop of a load. */
  function RegisterPrompts(c: Client, s: SessionRef, ps: seq<Prompt>): (r: Client)
    ensures r.availableTools == c.availableTools && r.availablePrompts == c.availablePrompts + ps
  {
    c.(sessions := PutAll(c.sessions, Bind(PromptNames(ps), s)), availablePrompts := c.availablePrompts + ps)
  }

  /** The `for resource in resources` loop of a load. */
  function RegisterResources(c: Client, s: SessionRef, us: seq<string>): (r: Client)
    ensures r.availableTools == c.availableTools && r.availablePrompts == c.availablePrompts
  {
    c.(sessions := PutAll(c.sessions, Bind(us, s)))
  }

  /** `load_mcp_components`: registers what one session lists. An exception
      from a listing ends the load but keeps what was registered before it. */
  function LoadComponents(c: Client, s: SessionRef, tools: Listing<Tool>, prompts: Listing<Prompt>,
                          resources: Listing<string>): (r: Client)
    ensures tools.ListingRaised? ==> r == c
    ensures tools.Listed? ==> r.availableTools == c.availableTools + tools.items
    ensures tools.Listed? && prompts.Listed? ==> r.availablePrompts == c.availablePrompts + prompts.items
    ensures !(tools.Listed? && prompts.Listed?) ==> r.availablePrompts == c.availablePrompts
  {
    match tools
    case ListingRaised => c
    case Listed(ts) =>
      var c1 := RegisterTools(c, s, ts);
      match prompts
      case ListingRaised => c1
      case Listed(ps) =>
        var c2 := RegisterPrompts(c1, s, ps);
        match resources
        case ListingRaised => c2
        case Listed(us) => RegisterResources(c2, s, us)
  }

  lemma {:induction false} LastValueBind(names: seq<string>, s: SessionRef, k: string)
    ensures LastValue(Bind(names, s), k) == if k in names then Some(s) else None
    decreases |names|
  {
    if names != [] {
      var init := names[..|names| - 1];
      assert Bind(names, s)[..|names| - 1] == Bind(init, s);
      assert names == init + [names[|names| - 1]];
      LastValueBind(init, s, k);
    }
  }

  /** Assigning one session to a list of names. */
  lemma BindRoutes(xs: AssocList<string, SessionRef>, names: seq<string>, s: SessionRef, k: string)
    ensures Get(PutAll(xs, Bind(names, s)), k) == if k in names then Some(s) else Get(xs, k)
    ensures Keys(xs) <= Keys(PutAll(xs, Bind(names, s)))
    ensures Valid(xs) ==> Valid(PutAll(xs, Bind(names, s)))
  {
    PutAllGet(xs, Bind(names, s), k);
    LastValueBind(names, s, k);
    PutAllKeys(xs, Bind(names, s));
    AppendNewPrefix(Keys(xs), Keys(Bind(names, s)));
  }

  /** After a load every tool name, prompt name and resource URI it reached
      maps to the loaded session; every other key keeps its session; keys
      already present keep their position. */
  lemma LoadComponentsRoutes(c: Client, s: SessionRef, tools: Listing<Tool>, prompts: Listing<Prompt>,
                             resources: Listing<string>, k: string)
    ensures Get(LoadComponents(c, s, tools, prompts, resources).sessions, k) ==
            if k in LoadedNames(tools, prompts, resources) then Some(s) else Get(c.sessions, k)
    ensures Keys(c.sessions) <= Keys(LoadComponents(c, s, tools, prompts, resources).sessions)
    ensures ValidClient(c) ==> ValidClient(LoadComponents(c, s, tools, prompts, resources))
  {
    if tools.Listed? {
      var s1 := PutAll(c.sessions, Bind(ToolNames(tools.items), s));
      BindRoutes(c.sessions, ToolNames(tools.items), s, k);
      if prompts.Listed? {
        var s2 := PutAll(s1, Bind(PromptNames(prompts.items), s));
        BindRoutes(s1, PromptNames(prompts.items), s, k);
        if resources.Listed? {
          BindRoutes(s2, resources.items, s, k);
        }
      }
    }
  }

  /** One entry of the server configuration, after `connect_to_server`: a
      session whose listings had these outcomes, or a failure to connect or
      initialize (caught and printed). */
  datatype Connection =
    | Connected(session: SessionRef, tools: Listing<Tool>, prompts: Listing<Prompt>, resources: Listing<string>)
    | ConnectRaised

  /** The tool descriptors a connection contributes. */
  function ToolsOf(conn: Connection): seq<Tool> {
    if conn.Connected? && conn.tools.Listed? then conn.tools.items else []
  }

  /** The prompt descriptors a connection contributes. */
  function PromptsOf(conn: Connection): seq<Prompt> {
    if conn.Connected? && conn.tools.Listed? && conn.prompts.Listed? then conn.prompts.items else []
  }

  function Load(c: Client, conn: Connection): (r: Client)
    ensures r.availableTools == c.availableTools + ToolsOf(conn)
    ensures r.availablePrompts == c.availablePrompts + PromptsOf(conn)
  {
    match conn
    case ConnectRaised => c
    case Connected(s, ts, ps, rs) => LoadComponents(c, s, ts, ps, rs)
  }

  function AllTools(conns: seq<Connection>): seq<Tool>
    decreases |conns|
  {
    if conns == [] then [] else AllTools(conns[..|conns| - 1]) + ToolsOf(conns[|conns| - 1])
  }

  function AllPrompts(conns: seq<Connection>): seq<Prompt>
    decreases |conns|
  {
    if conns == [] then [] else AllPrompts(conns[..|conns| - 1]) + PromptsOf(conns[|conns| - 1])
  }

  /** `connect_to_servers`: every configured server in configuration order.
      The descriptor lists gain each listed descriptor once, in listing order,
      duplicates included; a failing server contributes nothing. */
  function ConnectAll(c: Client, conns: seq<Connection>): (r: Client)
    ensures r.availableTools == c.availableTools + AllTools(conns)
    ensures r.availablePrompts == c.availablePrompts + AllPrompts(conns)
    decreases |conns|
  {
    if conns == [] then c
    else
      var init := conns[..|conns| - 1];
      var last := conns[|conns| - 1];
      var prev := ConnectAll(c, init);
      ConnectStep(c, conns);
      Load(prev, last)
  }

  /** The descriptor lists after the last connection extend those after the others. */
  lemma ConnectStep(c: Client, conns: seq<Connection>)
    requires conns != []
    ensures c.availableTools + AllTools(conns[..|conns| - 1]) + ToolsOf(conns[|conns| - 1]) ==
            c.availableTools + AllTools(conns)
    ensures c.availablePrompts + AllPrompts(conns[..|conns| - 1]) + PromptsOf(conns[|conns| - 1]) ==
            c.availablePrompts + AllPrompts(conns)
  {
    var init, last := conns[..|conns| - 1], conns[|conns| - 1];
    assert AllTools(conns) == AllTools(init) + ToolsOf(last);
    assert AllPrompts(conns) == AllPrompts(init) + PromptsOf(last);
    Regroup(c.availableTools, AllTools(init), ToolsOf(last));
    Regroup(c.availablePrompts, AllPrompts(init), PromptsOf(last));
  }

  /** The session of the last connection that registered `k`, if any did:
      an independent statement of "later registrations win". */
  function LastOwner(conns: seq<Connection>, k: string): Option<SessionRef>
    decreases |conns|
  {
    if conns == [] then None
    else
      var last := conns[|conns| - 1];
      if last.Connected? && k in LoadedNames(last.tools, last.prompts, last.resources)
      then Some(last.session)
      else LastOwner(conns[..|conns| - 1], k)
  }

  /** A name resolves to the session of the last server that registered it,
      whichever kind of capability it was registered as; a name no server
      registered keeps its previous route. */
  lemma {:induction false} ConnectAllRoutes(c: Client, conns: seq<Connection>, k: string)
    ensures Get(ConnectAll(c, conns).sessions, k) ==
            if LastOwner(conns, k).Some? then LastOwner(conns, k) else Get(c.sessions, k)
    ensures ValidClient(c) ==> ValidClient(ConnectAll(c, conns))
    decreases |conns|
  {
    if conns != [] {
      var init := conns[..|conns| - 1];
      var last := conns[|conns| - 1];
      ConnectAllRoutes(c, init, k);
      if last.Connected? {
        LoadComponentsRoutes(ConnectAll(c, init), last.session, last.tools, last.prompts, last.resources, k);
      }
    }
  }

  /** The resource scheme with a fallback route. */
  const PapersScheme := "papers://"

  /** The value of the first key, in insertion order, that starts with `prefix`. */
  function FirstWithPrefix<V>(xs: AssocList<string, V>, prefix: string): (r: Option<V>)
    ensures r.None? <==> forall i :: 0 <= i < |xs| ==> !StartsWith(xs[i].0, prefix)
    ensures r.Some? ==> exists i :: 0 <= i < |xs| && StartsWith(xs[i].0, prefix) && xs[i].1 == r.value
                                    && forall j :: 0 <= j < i ==> !StartsWith(xs[j].0, prefix)
  {
    if xs == [] then None
    else if StartsWith(xs[0].0, prefix) then Some(xs[0].1)
    else
      var r := FirstWithPrefix(xs[1..], prefix);
      assert forall i :: 1 <= i < |xs| ==> xs[i] == xs[1..][i - 1];
      r
  }

  /** `get_resource`'s lookup: the exact URI; failing that, for a
      `papers://` URI only, the first registered key under `papers://`. */
  function ResolveResource(sessions: AssocList<string, SessionRef>, uri: string): (r: Option<SessionRef>)
    ensures uri in Keys(sessions) ==> r == Get(sessions, uri)
    ensures uri !in Keys(sessions) && !StartsWith(uri, PapersScheme) ==> r == None
    ensures uri !in Keys(sessions) && StartsWith(uri, PapersScheme) ==>
              r == FirstWithPrefix(sessions, PapersScheme)
  {
    match Get(sessions, uri)
    case Some(s) => Some(s)
    case None => if StartsWith(uri, PapersScheme) then FirstWithPrefix(sessions, PapersScheme) else None
  }

  /** Resolution never invents a route: a resolved URI leads to the session
      of a registered key that is the URI itself or, when the URI is under
      `papers://`, another key under `papers://`. */
  lemma ResolveResourceSound(sessions: AssocList<string, SessionRef>, uri: string)
    requires Valid(sessions)
    ensures var r := ResolveResource(sessions, uri);
            r.Some? ==> exists k :: k in Keys(sessions) && Get(sessions, k) == r &&
                                    (k == uri || (StartsWith(uri, PapersScheme) && StartsWith(k, PapersScheme)))
  {
    var r := ResolveResource(sessions, uri);
    if r.Some? && uri !in Keys(sessions) {
      var i :| 0 <= i < |sessions| && StartsWith(sessions[i].0, PapersScheme) && sessions[i].1 == r.value;
      GetAt(sessions, i);
      assert sessions[i].0 in Keys(sessions);
    }
  }
}

=== FILE: strings.dfy ===
/**
 The few Python `str` operations the chatbot and the paper server rely on,
 stated over `seq<char>`: whitespace, `startswith`, `lower`, `strip`,
 `split()`, `split(sep, 1)`, `join`, `replace` of one character and the
 decimal rendering of integers.
 */
module Strings {

  /** Python's `str.isspace()` for one character: the characters `strip()`
      and `split()` (without arguments) treat as whitespace. */
  predicate IsSpace(c: char) {
    var n := c as int;
    || (9 <= n <= 13) || (28 <= n <= 32)
    || n == 0x85 || n == 0xA0 || n == 0x1680
    || (0x2000 <= n <= 0x200A)
    || n == 0x2028 || n == 0x2029 || n == 0x202F || n == 0x205F || n == 0x3000
  }

  predicate NoSpace(s: string) {
    forall i :: 0 <= i < |s| ==> !IsSpace(s[i])
  }

  predicate AllSpace(s: string) {
    forall i :: 0 <= i < |s| ==> IsSpace(s[i])
  }

  /** `s.startswith(prefix)` */
  predicate StartsWith(s: string, prefix: string) {
    |prefix| <= |s| && s[..|prefix|] == prefix
  }

  /** `needle` occurs in `s` at some offset. */
  predicate IsInfix(needle: string, s: string) {
    exists k :: 0 <= k <= |s| - |needle| && OccursAt(needle, s, k)
  }

  predicate OccursAt(needle: string, s: string, k: int) {
    0 <= k <= |s| - |needle| && s[k..k + |needle|] == needle
  }

  function LowerChar(c: char): char {
    if 'A' <= c <= 'Z' then (c as int + 32) as char else c
  }

  function UpperChar(c: char): char {
    if 'a' <= c <= 'z' then (c as int - 32) as char else c
  }

  predicate IsLetter(c: char) {
    ('A' <= c <= 'Z') || ('a' <= c <= 'z')
  }

  /** `s.lower()`, on the ASCII letters. */
  function Lower(s: string): string {
    seq(|s|, i requires 0 <= i < |s| => LowerChar(s[i]))
  }

  /** `s.replace(from, to)` for one-character `from` and `to`. */
  function ReplaceChar(s: string, from: char, to: char): string {
    seq(|s|, i requires 0 <= i < |s| => if s[i] == from then to else s[i])
  }

  /** `s.lstrip()` */
  function StripLeft(s: string): (r: string)
    ensures |r| <= |s| && r == s[|s| - |r|..]
    ensures AllSpace(s[..|s| - |r|])
    ensures r == [] || !IsSpace(r[0])
  {
    if s != [] && IsSpace(s[0]) then
      var r := StripLeft(s[1..]);
      assert s[..|s| - |r|] == [s[0]] + s[1..][..|s| - 1 - |r|];
      r
    else s
  }

  /** `s.rstrip()` */
  function StripRight(s: string): (r: string)
    ensures |r| <= |s| && r == s[..|r|]
    ensures AllSpace(s[|r|..])
    ensures r == [] || !IsSpace(r[|r| - 1])
  {
    if s != [] && IsSpace(s[|s| - 1]) then
      var r := StripRight(s[..|s| - 1]);
      assert s[|r|..] == s[..|s| - 1][|r|..] + [s[|s| - 1]];
      r
    else s
  }

  /** `s.strip()`: the text between leading and trailing whitespace. */
  function Strip(s: string): (r: string)
    ensures r == [] || (!IsSpace(r[0]) && !IsSpace(r[|r| - 1]))
    ensures r == [] <==> AllSpace(s)
  {
    StripEmpty(s);
    StripRight(StripLeft(s))
  }

  /** `s` is the whitespace `strip()` removes on the left, what it keeps,
      and the whitespace it removes on the right. */
  lemma StripPieces(s: string)
    ensures var r := Strip(s);
            exists a, b :: s == a + r + b && AllSpace(a) && AllSpace(b)
  {
    var t := StripLeft(s);
    var r := StripRight(t);
    var a, b := s[..|s| - |t|], t[|r|..];
    SuffixPrefix(s, t, r);
    assert s == a + r + b;
    assert AllSpace(a) && AllSpace(b);
  }

  lemma StripEmpty(s: string)
    ensures StripRight(StripLeft(s)) == [] <==> AllSpace(s)
  {
    var t := StripLeft(s);
    var r := StripRight(t);
    var a := s[..|s| - |t|];
    SuffixPrefix(s, t, r);
    if r == [] {
      assert s == a + t;
      AllSpaceConcat(a, t);
    } else {
      assert s[|a|] == r[0];
    }
  }

  /** A prefix `r` of a suffix `t` of `s` cuts `s` into three pieces. */
  lemma SuffixPrefix<T>(s: seq<T>, t: seq<T>, r: seq<T>)
    requires |t| <= |s| && t == s[|s| - |t|..]
    requires |r| <= |t| && r == t[..|r|]
    ensures s == s[..|s| - |t|] + t
    ensures s == s[..|s| - |t|] + r + t[|r|..]
    ensures r != [] ==> s[|s| - |t|] == r[0]
  {
    assert t == r + t[|r|..];
  }

  lemma AllSpaceConcat(a: string, b: string)
    requires AllSpace(a) && AllSpace(b)
    ensures AllSpace(a + b)
  {
    forall i | 0 <= i < |a + b|
      ensures IsSpace((a + b)[i])
    {
      if i >= |a| {
        assert (a + b)[i] == b[i - |a|];
      }
    }
  }

  /** `s.split()` without arguments, by an accumulator holding the word being read. */
  function SplitWords(s: string, word: string): seq<string>
    decreases |s|
  {
    if s == [] then (if word == [] then [] else [word])
    else if IsSpace(s[0]) then (if word == [] then [] else [word]) + SplitWords(s[1..], [])
    else SplitWords(s[1..], word + [s[0]])
  }

  /** `s.split()`: the maximal runs of non-whitespace characters, in order. */
  function Words(s: string): seq<string> {
    SplitWords(s, [])
  }

  function Concat(ws: seq<string>): string {
    if ws == [] then [] else ws[0] + Concat(ws[1..])
  }

  /** The characters of `s` that are not whitespace, in order. */
  function NonSpace(s: string): string {
    if s == [] then [] else (if IsSpace(s[0]) then [] else [s[0]]) + NonSpace(s[1..])
  }

  /** `sep.join(ws)` */
  function Join(ws: seq<string>, sep: string): string {
    if |ws| == 0 then []
    else if |ws| == 1 then ws[0]
    else ws[0] + sep + Join(ws[1..], sep)
  }

  predicate WellFormedWords(ws: seq<string>) {
    forall i :: 0 <= i < |ws| ==> ws[i] != [] && NoSpace(ws[i])
  }

  lemma {:induction false} SplitWordsWellFormed(s: string, word: string)
    requires NoSpace(word)
    ensures WellFormedWords(SplitWords(s, word))
    decreases |s|
  {
    if s == [] {
    } else if IsSpace(s[0]) {
      SplitWordsWellFormed(s[1..], []);
    } else {
      SplitWordsWellFormed(s[1..], word + [s[0]]);
    }
  }

  lemma {:induction false} SplitWordsConcat(s: string, word: string)
    ensures Concat(SplitWords(s, word)) == word + NonSpace(s)
    decreases |s|
  {
    if s == [] {
      assert NonSpace(s) == [] && word + [] == word;
      if word != [] {
        assert [word][1..] == [];
        assert Concat([word]) == word + Concat([]);
      }
    } else if IsSpace(s[0]) {
      SplitWordsConcat(s[1..], []);
      var rest := SplitWords(s[1..], []);
      assert NonSpace(s) == NonSpace(s[1..]);
      if word != [] {
        assert ([word] + rest)[1..] == rest;
        assert Concat([word] + rest) == word + Concat(rest);
      } else {
        assert SplitWords(s, word) == rest;
      }
    } else {
      assert NonSpace(s) == [s[0]] + NonSpace(s[1..]);
      assert word + [s[0]] + NonSpace(s[1..]) == word + NonSpace(s);
      SplitWordsConcat(s[1..], word + [s[0]]);
    }
  }

  /** Every word `split()` returns is non-empty and free of whitespace, and
      together the words hold exactly the non-whitespace characters of `s`. */
  lemma WordsSpec(s: string)
    ensures WellFormedWords(Words(s))
    ensures Concat(Words(s)) == NonSpace(s)
  {
    SplitWordsWellFormed(s, []);
    SplitWordsConcat(s, []);
  }

  /** `split()` drops whitespace-only text. */
  lemma {:induction false} SplitWordsSpaces(w: string, rest: string)
    requires AllSpace(w)
    ensures SplitWords(w + rest, []) == SplitWords(rest, [])
    decreases |w|
  {
    if w != [] {
      assert (w + rest)[0] == w[0];
      assert (w + rest)[1..] == w[1..] + rest;
      SplitWordsSpaces(w[1..], rest);
    } else {
      assert w + rest == rest;
    }
  }

  lemma {:induction false} SplitWordsBreak(a: string, ws: string, b: string, word: string)
    requires ws != [] && AllSpace(ws)
    ensures SplitWords(a + ws + b, word) == SplitWords(a, word) + SplitWords(b, [])
    decreases |a|
  {
    var s := a + ws + b;
    if a == [] {
      assert s == ws + b;
      assert s[0] == ws[0] && s[1..] == ws[1..] + b;
      SplitWordsSpaces(ws[1..], b);
    } else {
      assert s[0] == a[0] && s[1..] == a[1..] + ws + b;
      if IsSpace(a[0]) {
        SplitWordsBreak(a[1..], ws, b, []);
      } else {
        SplitWordsBreak(a[1..], ws, b, word + [a[0]]);
      }
    }
  }

  /** Words end exactly at whitespace: `split()` of two texts separated by a
      run of whitespace is the words of the first followed by those of the
      second, and a run without whitespace is one word. With `WordsSpec` this
      says the words are the maximal runs of non-whitespace characters. */
  lemma WordsBreak(a: string, ws: string, b: string)
    requires ws != [] && AllSpace(ws)
    ensures Words(a + ws + b) == Words(a) + Words(b)
  {
    SplitWordsBreak(a, ws, b, []);
  }

  lemma WordsOneRun(w: string)
    requires w != [] && NoSpace(w)
    ensures Words(w) == [w]
  {
    SplitWordsAbsorb(w, [], []);
    assert w + [] == w;
    assert [] + w == w;
  }

  lemma {:induction false} SplitWordsFirst(s: string, word: string)
    requires word != []
    ensures SplitWords(s, word) != []
    ensures StartsWith(SplitWords(s, word)[0], word)
    decreases |s|
  {
    if s == [] || IsSpace(s[0]) {
      assert SplitWords(s, word)[0] == word;
      assert word[..|word|] == word;
    } else {
      SplitWordsFirst(s[1..], word + [s[0]]);
      var w := SplitWords(s, word)[0];
      assert w[..|word| + 1] == word + [s[0]];
      assert w[..|word|] == (word + [s[0]])[..|word|] == word;
    }
  }

  /** A string that starts with a non-whitespace character has a first word,
      and that word starts with the same character. */
  lemma WordsFirst(s: string)
    requires s != [] && !IsSpace(s[0])
    ensures Words(s) != [] && Words(s)[0] != [] && Words(s)[0][0] == s[0]
  {
    assert [] + [s[0]] == [s[0]];
    assert Words(s) == SplitWords(s[1..], [s[0]]);
    SplitWordsFirst(s[1..], [s[0]]);
  }

  lemma {:induction false} SplitWordsAbsorb(w: string, rest: string, word: string)
    requires NoSpace(w)
    ensures SplitWords(w + rest, word) == SplitWords(rest, word + w)
    decreases |w|
  {
    if w != [] {
      assert (w + rest)[0] == w[0];
      assert (w + rest)[1..] == w[1..] + rest;
      assert word + [w[0]] + w[1..] == word + w;
      SplitWordsAbsorb(w[1..], rest, word + [w[0]]);
    } else {
      assert w + rest == rest;
      assert word + w == word;
    }
  }

  /** `" ".join(ws).split() == ws` for words that are non-empty and hold no
      whitespace: `split()` undoes `join` with a single space. */
  lemma {:induction false} WordsJoin(ws: seq<string>)
    requires WellFormedWords(ws)
    ensures Words(Join(ws, " ")) == ws
  {
    if |ws| == 0 {
    } else if |ws| == 1 {
      SplitWordsAbsorb(ws[0], [], []);
      assert ws[0] + [] == ws[0];
      assert [] + ws[0] == ws[0];
    } else {
      var rest := Join(ws[1..], " ");
      assert Join(ws, " ") == ws[0] + (" " + rest);
      SplitWordsAbsorb(ws[0], " " + rest, []);
      assert [] + ws[0] == ws[0];
      assert (" " + rest)[0] == ' ';
      assert (" " + rest)[1..] == rest;
      WordsJoin(ws[1..]);
    }
  }

  /** The index of the first occurrence of `c` in `s`. */
  function IndexOf(s: string, c: char): (i: nat)
    requires c in s
    ensures i < |s| && s[i] == c && c !in s[..i]
  {
    if s[0] == c then 0 else 1 + IndexOf(s[1..], c)
  }

  /** `s.split(sep, 1)` when `sep` occurs in `s`: the text before the first
      `sep` and the text after it. */
  function SplitOnce(s: string, sep: char): (r: (string, string))
    requires sep in s
    ensures sep !in r.0 && s == r.0 + [sep] + r.1
  {
    var i := IndexOf(s, sep);
    assert s == s[..i] + [sep] + s[i + 1..];
    (s[..i], s[i + 1..])
  }

  /** The split at the first separator is the only decomposition of `s`
      around a `sep` whose left part holds no `sep`. */
  lemma SplitOnceUnique(s: string, sep: char, a: string, b: string)
    requires s == a + [sep] + b && sep !in a
    ensures sep in s && SplitOnce(s, sep) == (a, b)
  {
    assert s[|a|] == sep;
    var (x, y) := SplitOnce(s, sep);
    assert |x| == |a| by {
      assert forall k :: 0 <= k < |a| ==> s[k] == a[k];
      assert forall k :: 0 <= k < |x| ==> s[k] == x[k];
    }
    assert x == s[..|a|] == a;
    assert y == s[|a| + 1..] == b;
  }

  /** `s.split("\n")`: the pieces between line feeds (n line feeds give n + 1 pieces). */
  function SplitLines(s: string): (ls: seq<string>)
    ensures ls != []
    decreases |s|
  {
    if '\n' in s then
      var i := IndexOf(s, '\n');
      [s[..i]] + SplitLines(s[i + 1..])
    else [s]
  }

  lemma SplitLinesCons(a: string, b: string)
    requires '\n' !in a
    ensures SplitLines(a + "\n" + b) == [a] + SplitLines(b)
  {
    var s := a + "\n" + b;
    SplitOnceUnique(s, '\n', a, b);
  }

  /** The lines of `lines` that start with `prefix`, in order. */
  function LinesWithPrefix(lines: seq<string>, prefix: string): (r: seq<string>)
    ensures |r| <= |lines|
    ensures forall i :: 0 <= i < |r| ==> StartsWith(r[i], prefix)
    decreases |lines|
  {
    if lines == [] then []
    else (if StartsWith(lines[0], prefix) then [lines[0]] else []) + LinesWithPrefix(lines[1..], prefix)
  }

  lemma {:induction false} LinesWithPrefixAppend(a: seq<string>, b: seq<string>, prefix: string)
    ensures LinesWithPrefix(a + b, prefix) == LinesWithPrefix(a, prefix) + LinesWithPrefix(b, prefix)
    decreases |a|
  {
    if a != [] {
      assert (a + b)[1..] == a[1..] + b;
      LinesWithPrefixAppend(a[1..], b, prefix);
    } else {
      assert a + b == b;
    }
  }

  /** Filtering keeps every line when every line carries the prefix. */
  lemma {:induction false} LinesWithPrefixAll(lines: seq<string>, prefix: string)
    requires forall i :: 0 <= i < |lines| ==> StartsWith(lines[i], prefix)
    ensures LinesWithPrefix(lines, prefix) == lines
    decreases |lines|
  {
    if lines != [] {
      LinesWithPrefixAll(lines[1..], prefix);
      assert lines == [lines[0]] + lines[1..];
    }
  }

  /** Filtering drops every line when no line carries the prefix. */
  lemma {:induction false} LinesWithPrefixNone(lines: seq<string>, prefix: string)
    requires forall i :: 0 <= i < |lines| ==> !StartsWith(lines[i], prefix)
    ensures LinesWithPrefix(lines, prefix) == []
    decreases |lines|
  {
    if lines != [] {
      LinesWithPrefixNone(lines[1..], prefix);
    }
  }

  lemma JoinCons(ws: seq<string>, sep: string)
    requires |ws| >= 2
    ensures Join(ws, sep) == ws[0] + sep + Join(ws[1..], sep)
  {
  }

  /** A joined list opens with its first word's first character and closes
      with its last word's last character. */
  lemma {:induction false} JoinEnds(ws: seq<string>, sep: string)
    requires ws != [] && forall i :: 0 <= i < |ws| ==> ws[i] != []
    ensures var j := Join(ws, sep);
            j != [] && j[0] == ws[0][0] && j[|j| - 1] == ws[|ws| - 1][|ws[|ws| - 1]| - 1]
    decreases |ws|
  {
    if |ws| > 1 {
      var rest := ws[1..];
      assert rest[|rest| - 1] == ws[|ws| - 1];
      JoinEnds(rest, sep);
      var j, tail := Join(ws, sep), Join(rest, sep);
      assert j == ws[0] + sep + tail;
      assert j[0] == ws[0][0];
      assert j[|j| - 1] == tail[|tail| - 1];
    }
  }

  /** Stripping leaves a string alone when it neither starts nor ends with whitespace. */
  lemma StripUnchanged(s: string)
    requires s != [] && !IsSpace(s[0]) && !IsSpace(s[|s| - 1])
    ensures Strip(s) == s
  {
    assert StripLeft(s) == s;
    assert StripRight(s) == s;
  }

  lemma PrefixOfConcat(a: string, b: string, p: string)
    requires StartsWith(a, p)
    ensures StartsWith(a + b, p)
  {
    assert (a + b)[..|p|] == a[..|p|];
  }

  lemma StartsWithConcat(a: string, b: string)
    ensures StartsWith(a + b, a)
  {
    assert (a + b)[..|a|] == a;
  }

  lemma MiddleOccurs(a: string, b: string, d: string)
    ensures OccursAt(b, a + b + d, |a|)
  {
    assert (a + b + d)[|a|..|a| + |b|] == b;
  }

  function DigitChar(d: nat): char
    requires d < 10
  {
    "0123456789"[d]
  }

  predicate IsDigit(c: char) {
    '0' <= c <= '9'
  }

  function DigitValue(c: char): nat
    requires IsDigit(c)
  {
    c as int - '0' as int
  }

  /** `str(n)` for a natural number: its decimal digits, most significant first. */
  function NatToString(n: nat): (r: string)
    ensures r != []
    ensures forall i :: 0 <= i < |r| ==> IsDigit(r[i])
    decreases n
  {
    if n < 10 then [DigitChar(n)] else NatToString(n / 10) + [DigitChar(n % 10)]
  }

  /** `int(s)` for a string of decimal digits. */
  function ParseNat(s: string): nat
    requires forall i :: 0 <= i < |s| ==> IsDigit(s[i])
    decreases |s|
  {
    if s == [] then 0 else ParseNat(s[..|s| - 1]) * 10 + DigitValue(s[|s| - 1])
  }

  /** Reading back the decimal rendering of `n` gives `n`. */
  lemma {:induction false} ParseNatToString(n: nat)
    ensures ParseNat(NatToString(n)) == n
    decreases n
  {
    var s := NatToString(n);
    if n < 10 {
      assert s[..0] == [];
    } else {
      ParseNatToString(n / 10);
      assert s[..|s| - 1] == NatToString(n / 10);
    }
  }

  /** `str(i)` for a Python `int`: a minus sign before the digits when negative. */
  function IntToString(i: int): (r: string)
    ensures r != []
  {
    if i < 0 then "-" + NatToString(-i) else NatToString(i)
  }

  /** `s[:n]` */
  function Take(s: string, n: nat): (r: string)
    ensures |r| <= n && StartsWith(s, r)
    ensures |s| <= n ==> r == s
    ensures n <= |s| ==> |r| == n
  {
    if |s| <= n then s else s[..n]
  }

  /** Proof step only: concatenation is associative, stated for the callers
      whose contexts are too large for the solver to regroup unaided. */
  lemma Regroup<T>(a: seq<T>, b: seq<T>, d: seq<T>)
    ensures a + (b + d) == a + b + d
  {
  }

  /** Proof step only: a prefix one element longer, for the same crowded contexts. */
  lemma TakeOneMore<T>(s: seq<T>, i: nat)
    requires i < |s|
    ensures s[..i + 1] == s[..i] + [s[i]]
  {
  }

  /** Proof step only: a non-empty prefix is the first element and a prefix of the rest. */
  lemma TakeCons<T>(s: seq<T>, m: nat)
    requires m < |s|
    ensures s[..m + 1] == [s[0]] + s[1..][..m]
  {
  }

  /** Proof step only: a value in neither part is not in their concatenation. */
  lemma NotInConcat<T>(a: seq<T>, b: seq<T>, x: T)
    requires x !in a && x !in b
    ensures x !in a + b
  {
  }
}
